=== FILE: README.md ===
# Codebeamer horizontal deployment: a Dafny model

This project models the decision logic of the Codebeamer template pipeline in Dafny. It covers three parts:

- **The deployment script** (`resources/cb_apply_horizontal_deployment.py`):
  - the registry of deployment packages and project JSONs;
  - the ten pre-deployment checks and their force/abort policy;
  - the parsers that derive search criteria from a git commit author and an e-mail address;
  - the three-stage resolver of the commit author;
  - the source and target stage of a repository and branch;
  - the selection and dispatch of the changed YAML files in `main`.
- **Tracker reconciliation** (`resources/create_update_codebeamer_project_from_config.py`). This compares a project's trackers with a `content.yaml` configuration. It decides:
  - which trackers are reported as missing from the configuration;
  - which are renamed, which are created and which are errors;
  - which reference fields are invalid;
  - when the run fails.
- **Release planning** (`resources/release_and_deploy_codebeamer_project.py`). This decides which steps a release runs on which branch, covering both the single path and the full-deployment path with dependencies. It also fixes the names of the baselines and export paths.

Every call to a Codebeamer server is either an input or an output of the model:

- Inputs are values or functions, for example the user search `lookup`, the tracker API by id and the project listing.
- Outputs are recorded events (tracker renames and creations) or plan actions (baselines, exports, deployments).

Python dictionaries are `Dicts.Dict`, which keeps insertion order. The order matters because a check reports the first offending entry.

Modules:

| file | module | contents |
|---|---|---|
| base.dfy | Base | `Option`, `Result` |
| dicts.dfy | Dicts | insertion-ordered dictionary |
| text.dfy | Text | `in`, `split`, `strip`, `lower`, `rpartition`, `os.path.basename`/`split`, as used by the scripts |
| registry.dfy | Registry | `deployment_jsons` / `deployment_zips` and their updates |
| authors.dfy | Authors | git-author and e-mail parsers, author resolver |
| checks.dfy | Checks | the ten checks, namespaces, file-name consistency |
| pipeline.dfy | Pipeline | stages, changed-file selection, mixed-commit test, dispatch in `main` |
| trackers.dfy | Trackers | tracker reconciliation and the error counter |
| release.dfy | Release | release step planning |

Two facts about the code shape the model:

- **Check 10 (external references)** flags every cross-reference that has a `projectId` key, whatever the id (`resources/cb_apply_horizontal_deployment.py:731`).
- **No orchestrator.** The script's `main` (`resources/cb_apply_horizontal_deployment.py:778-846`) never calls the checks or `store_project_info`. The model has each check as a function of the registry and adds no orchestrator.

## Model

| member | source | states |
|---|---|---|
| Registry.StoreProjectInfo | resources/cb_apply_horizontal_deployment.py:199-214 | A fresh record (ids 0, no deployment result) with the JSON, ZIP and file name replaces any record of the same project name. All other records are unchanged. The name is appended to its ZIP's project list. A ZIP that is not registered leaves the ZIP map unchanged and is reported as the KeyError raised after the record was stored. |
| Registry.GetProjectsByName | resources/cb_apply_horizontal_deployment.py:99-106 | Same project names in the same order; a record can differ only in its id. |
| Registry.ResolvedListed | resources/cb_apply_horizontal_deployment.py:99-106 | A project listed on the server gets the id of the last listing entry with its name. |
| Registry.ResolvedUnlisted | resources/cb_apply_horizontal_deployment.py:99-106 | A project the server does not list keeps its record unchanged. |
| Registry.StoreOriginalProjectId | resources/cb_apply_horizontal_deployment.py:217-221 | Every project's original id becomes its id; nothing else changes. |
| Registry.StoreOriginalProjectIdIdempotent | resources/cb_apply_horizontal_deployment.py:217-221 | Storing the original ids twice is the same as storing them once. |
| Registry.OriginalIdZeroIffNotOnServer | resources/cb_apply_horizontal_deployment.py:217-221 | Start from id 0 with positive server ids, resolve by name, then store the original ids. The original id is 0 iff the server does not list the project. |
| Registry.StoreDeploymentResult | resources/cb_apply_horizontal_deployment.py:224-228 | Exactly the projects from the given ZIP get the result; all other records are unchanged. |
| Authors.ExtractNamesFromGit | resources/cb_apply_horizontal_deployment.py:392-440 | Fails (the IndexError of `split()[1]`) iff the name has no comma, has a space and has fewer than two words. Comma and space give a full name with stripped parts. An account comes only from a backslash or a 7-character name. Never an e-mail query. |
| Authors.GitCommaFormat | resources/cb_apply_horizontal_deployment.py:400-414 | "Last, First (Orga), ..." gives last name "Last" and first name "First": the text up to the first comma, and the second comma field up to "(". |
| Authors.DropThroughBackslashOneLine | resources/cb_apply_horizontal_deployment.py:422 | On one line, `re.sub(".*\\\\", "", s)` keeps exactly the text after the last backslash. |
| Authors.GitDomainFormat | resources/cb_apply_horizontal_deployment.py:420-423 | "DOMAIN\ACCOUNT" gives the account as written, stripped and not lower-cased. |
| Authors.GitSpaceFormat | resources/cb_apply_horizontal_deployment.py:415-435 | A name without a comma but with a space and at least two words searches for its first word as first name and its second as last name. Any further words are ignored. |
| Authors.GitAccountFormat | resources/cb_apply_horizontal_deployment.py:424-440 | Any 7-character name without comma, space or backslash searches for the account given by the name lower-cased and then stripped. |
| Authors.GitAccountExample | resources/cb_apply_horizontal_deployment.py:424-427 | "FIXC9MS" gives the account "fixc9ms". |
| Authors.MatchMail | resources/cb_apply_horizontal_deployment.py:365-366 | The pattern matches iff the first line holds an "@". The groups are then the leftmost-greedy ones. |
| Authors.GreedyMatchUnique | resources/cb_apply_horizontal_deployment.py:365-366 | The leftmost-greedy groups of a line are unique, so the hand-written matcher is the only possible result. |
| Authors.ExtractNamesFromMail | resources/cb_apply_horizontal_deployment.py:364-389 | No match gives no criteria. One non-empty group other than "extern." gives an account name unchanged. Two groups give first and last name without digits. Zero or three groups give no criteria. |
| Authors.MailFirstLast | resources/cb_apply_horizontal_deployment.py:376-383 | "first.last@domain" gives first and last name with their digits removed. |
| Authors.MailExternFirstLast | resources/cb_apply_horizontal_deployment.py:370-383 | "extern.first.last@domain" drops the prefix and gives the same names as "first.last@domain". |
| Authors.MailExternAny | resources/cb_apply_horizontal_deployment.py:365 | The optional group is "extern" followed by ANY character, not only a dot. |
| Authors.MailExternSwallowsLetter | resources/cb_apply_horizontal_deployment.py:365-371 | An address starting "extern" plus a letter, like "externalx.y@d", takes "externa" as the optional group. That group is not "extern." and is kept, so three groups remain and the result is no criteria. |
| Authors.MailAccount | resources/cb_apply_horizontal_deployment.py:373-374 | "account@domain" gives the account name unchanged. |
| Authors.ResolveCommitAuthor | resources/cb_apply_horizontal_deployment.py:443-482 | The e-mail search comes first and accepts any positive count without further searches. The git-name search fails on several hits. The mail-name search fails unless there is exactly one hit. Later searches run only after zero hits. The user is the first hit of the last search. |
| Checks.AssertZipPresent | resources/cb_apply_horizontal_deployment.py:501-515 | No ZIP aborts, or passes forced under force; otherwise it passes. |
| Checks.AssertZipContainsOnlyOneProject | resources/cb_apply_horizontal_deployment.py:518-538 | A ZIP with more than one project aborts (forced pass under force); the abort lists exactly those ZIPs. A ZIP with no project is accepted. |
| Checks.AssertZipContainsDeploymentFiles | resources/cb_apply_horizontal_deployment.py:541-559 | No force: passes iff every ZIP holds multiExport.txt, otherwise aborts naming the first ZIP without it. |
| Checks.AssertFilenameConsistency | resources/cb_apply_horizontal_deployment.py:562-587 | The text before the last ".deployment.zip" of the ZIP's base name must equal its folder's name. The first offender aborts; under force it is a forced pass. |
| Checks.ZipInOwnFolder | resources/cb_apply_horizontal_deployment.py:562-587 | ".../NAME/NAME.deployment.zip" is consistent: both sides are NAME. |
| Checks.NamespaceOneLine | resources/cb_apply_horizontal_deployment.py:686-699 | The namespace of a one-line string is its prefix before the leftmost '-' that is not the last character, or the whole string. |
| Checks.NamespaceEmptyIff | resources/cb_apply_horizontal_deployment.py:686-699 | A namespace is empty iff the string is empty or starts with '-' followed by more text. |
| Checks.NamespaceExamples | resources/cb_apply_horizontal_deployment.py:686-699 | "TC-Foo-Bar" has namespace "TC"; "TC-" keeps its trailing dash. |
| Checks.AssertNamespacePresent | resources/cb_apply_horizontal_deployment.py:590-612 | Aborts (forced pass under force) iff some project's name or key has an empty namespace. The report names the first such project in registry order. Otherwise passes. |
| Checks.NamespacePresentAborts | resources/cb_apply_horizontal_deployment.py:590-612 | For one-line names, the unforced check aborts iff some name or key is a '-' followed by more text. |
| Checks.AssertNamespaceConsistency | resources/cb_apply_horizontal_deployment.py:615-637 | Aborts iff not forced and some project's name and key namespaces differ. The report names the first such project in registry order. Under force it is a forced pass; otherwise it passes. |
| Checks.AssertValidCommitAuthor | resources/cb_apply_horizontal_deployment.py:640-655 | Passes iff the resolver finds a user. A ValueError aborts, or is a forced pass under force. The IndexError of the git parser is not caught. |
| Checks.AssertZipContainsCorrectProject | resources/cb_apply_horizontal_deployment.py:658-683 | Each project file before its last ".json" must equal its ZIP's base name. A mismatch aborts, or is a forced pass under force. The abort reports the first mismatching project in registry order. |
| Checks.ProjectFileMatches | resources/cb_apply_horizontal_deployment.py:658-683 | "NAME.json" in ".../NAME.deployment.zip" passes. |
| Checks.AssertCrossReferencesInDeploymentJson | resources/cb_apply_horizontal_deployment.py:702-719 | A project JSON without crossReferences aborts, or is a forced pass under force. |
| Checks.ScanReferences | resources/cb_apply_horizontal_deployment.py:730-739 | A reference is external iff it has projectId. An external reference without projectName or path raises KeyError. |
| Checks.CheckNoExternalProjectReferences | resources/cb_apply_horizontal_deployment.py:722-749 | Never aborts. It is inconclusive iff some project has a reference with projectId, listing exactly those projects; otherwise it passes. It crashes iff some project JSON has no crossReferences, or an external reference lacks its name or path. |
| Pipeline.UrlInjective | resources/cb_apply_horizontal_deployment.py:30-36 | The five servers have five distinct URLs. |
| Pipeline.DetermineSourceStage | resources/cb_apply_horizontal_deployment.py:231-240 | The source is Tmpl-TC iff the repository is cb-templates-tc, else Tmpl. |
| Pipeline.DetermineTargetStage | resources/cb_apply_horizontal_deployment.py:243-266 | A target exists only for the two template repositories. Prod iff cb-templates-tmpl on main, Test iff cb-templates-tmpl off main, Tmpl iff cb-templates-tc on main, Dev iff cb-templates-tc off main. |
| Pipeline.TargetIsNeverSource | resources/cb_apply_horizontal_deployment.py:231-266 | For every repository and branch, the target URL differs from the source URL. |
| Pipeline.ProductionOnlyFromMain | resources/cb_apply_horizontal_deployment.py:243-266 | Production is targeted only from main. |
| Pipeline.ConfigFiles | resources/cb_apply_horizontal_deployment.py:799-810 | Exactly the modified or added files whose lower-cased path ends in .yaml or .yml, each once. |
| Pipeline.ConfigFilesOrder | resources/cb_apply_horizontal_deployment.py:799-810 | The selected files are in the order of their first selected appearance in the diff: each is selected before the next one first is. |
| Pipeline.IsMixedCommit | resources/cb_apply_horizontal_deployment.py:762-775 | Mixed iff some path mentions "content." and some other path mentions "release." without "content."; a path with both counts only as content. |
| Pipeline.SingleFileNotMixed | resources/cb_apply_horizontal_deployment.py:765-770 | A single changed file is never a mixed commit. |
| Pipeline.ScriptOf | resources/cb_apply_horizontal_deployment.py:828-838 | A base name starting "release." runs the release script; otherwise one starting "content." runs the content script; anything else is ignored. |
| Pipeline.Scripted | resources/cb_apply_horizontal_deployment.py:820-840 | The runs of a file list: every run is of a listed file with its non-ignored script, and every listed file whose script is not ignored runs. |
| Pipeline.ScriptedAppend | resources/cb_apply_horizontal_deployment.py:820-840 | The runs of two lists in a row are the runs of the first, then those of the second. |
| Pipeline.ScriptedOnce | resources/cb_apply_horizontal_deployment.py:820-840 | A list without repeated files runs each configuration at most once. |
| Pipeline.DispatchFrom | resources/cb_apply_horizontal_deployment.py:820-843 | The loop stops at the first YAML that does not load, after running exactly the files before it. Without such a file it runs every non-ignored file, in order. The pipeline fails iff some run fails. |
| Pipeline.RunMain | resources/cb_apply_horizontal_deployment.py:799-846 | A mixed commit raises before any run. The first selected file that does not load raises after the runs of the files before it. Otherwise every selected non-ignored YAML runs exactly once with its script, in selection order. The exit code is 1 iff some run failed. |
| Trackers.ServerVsConfig | resources/create_update_codebeamer_project_from_config.py:108-159 | A listed tracker whose name is not configured is missing iff its id is not configured and it is not hidden. It is renamed iff its id is configured, to the name of the first entry with that id. |
| Trackers.ConfiguredNamesUntouched | resources/create_update_codebeamer_project_from_config.py:123-124 | A tracker whose name is configured is neither reported nor renamed. |
| Trackers.FirstNameWithId | resources/create_update_codebeamer_project_from_config.py:150-154 | The new name is that of the first configuration entry carrying the id. |
| Trackers.CheckInheritance | resources/create_update_codebeamer_project_from_config.py:268-288 | One error iff the tracker's template has a name and that value is not the source tracker's id. |
| Trackers.TemplateNameAsString | resources/create_update_codebeamer_project_from_config.py:280-281 | A template name that is a string never equals the numeric id, so it always counts as broken inheritance. |
| Trackers.Apply | resources/create_update_codebeamer_project_from_config.py:217-251 | For a name not on the server: without an id, a tracker is created with the configured key or else the source's key name, from the source tracker. With another project's tracker id, one error and no rename. With the project's own tracker id, an inheritance check, then the rename. A name already on the server gets an inheritance check against the first tracker of that name. |
| Trackers.Step | resources/create_update_codebeamer_project_from_config.py:179-251 | An entry without a source adds one error and ends the loop. A source project that is neither fetched before nor on the server ends the run with ProjectNotFound. A source tracker that is neither cached nor found ends it with TrackerNotFound. Neither adds an error or event. A cached source tracker is reused. A tracker found for the first time is cached, and the entry is then applied with it. |
| Trackers.ConfigVsServer | resources/create_update_codebeamer_project_from_config.py:163-251 | The loop only adds errors: those counted before are kept. A stopped loop does nothing more. |
| Trackers.ConfigVsServerSuffix | resources/create_update_codebeamer_project_from_config.py:179-251 | The loop over the configured trackers depends only on the entries it has not reached yet. |
| Trackers.ConfigVsServerAppend | resources/create_update_codebeamer_project_from_config.py:179-251 | Running the loop over two stretches of entries is running it over the second, starting from the state the first left, stopped or not. |
| Trackers.ConfigVsServerOne | resources/create_update_codebeamer_project_from_config.py:179-251 | The loop over one entry is one step of it. |
| Trackers.NoSourceStops | resources/create_update_codebeamer_project_from_config.py:187-193 | After an entry without a source, the later entries do not affect the result. |
| Trackers.CacheIgnoresProject | resources/create_update_codebeamer_project_from_config.py:205-215 | The source-tracker cache is keyed by tracker name only: a later entry with another source project reuses the cached tracker. |
| Trackers.CachedTrackerStillNeedsProject | resources/create_update_codebeamer_project_from_config.py:195-201 | The source project is still fetched before the tracker cache is consulted, so a missing project ends the run even for a cached tracker. |
| Trackers.CheckReferences | resources/create_update_codebeamer_project_from_config.py:327-347 | The affected fields are exactly the Work_Config_Items fields with a tracker filter naming another project. |
| Trackers.CheckReferencesOne | resources/create_update_codebeamer_project_from_config.py:338-345 | A field is listed once per filter that names another project. |
| Trackers.CheckReferencesAppend | resources/create_update_codebeamer_project_from_config.py:338-345 | The check of a field list is the check of its parts, concatenated. |
| Trackers.EntriesNamed | resources/create_update_codebeamer_project_from_config.py:299-301 | The configuration entries with a given name, exactly. |
| Trackers.TrackerFieldErrors | resources/create_update_codebeamer_project_from_config.py:302-319 | A tracker is checked iff exactly one entry has its name and that entry does not allow upstream references (default False). A checked tracker gets one error per affected field. |
| Trackers.CheckFieldsConfig | resources/create_update_codebeamer_project_from_config.py:291-324 | Errors only name checked trackers. There are none iff no checked tracker has an affected field. |
| Trackers.CheckFieldsConfigSuffix | resources/create_update_codebeamer_project_from_config.py:298-319 | The check of the listed trackers depends only on the trackers it has not reached yet. |
| Trackers.CheckFieldsConfigAppend | resources/create_update_codebeamer_project_from_config.py:298-319 | The errors for a listing in two parts are those of the first part, then those of the second. |
| Trackers.CheckFieldsConfigOne | resources/create_update_codebeamer_project_from_config.py:298-319 | A listing of one tracker gets exactly the errors of that tracker's own check. |
| Trackers.Reconcile | resources/create_update_codebeamer_project_from_config.py:81-105 | The errors are those of config_vs_server, then one for all missing trackers together, then those of the reference check. An exception in config_vs_server ends the run first, and the errors counted up to then are exactly those of config_vs_server. The events are the renames of server_vs_config, then those of config_vs_server. |
| Trackers.OneErrorForMissing | resources/create_update_codebeamer_project_from_config.py:96-105 | Missing trackers add exactly one error, however many there are. |
| Trackers.CreateUpdateProjectAsWritten | resources/create_update_codebeamer_project_from_config.py:350-405 | An unknown category raises before any tracker work. Otherwise the run raises iff reconciliation ended with an exception, and it raises that one. The run fails iff it did not raise and the counter is positive at the end, and the counter is reset first. Any other exception leaves the counter at its value. The events are the project creation, if any, then those of reconciliation. |
| Trackers.CounterAfterRun | resources/create_update_codebeamer_project_from_config.py:401-405 | Unless another exception ended the run, the counter is zero after it. |
| Trackers.StaleCounterWitness | resources/create_update_codebeamer_project_from_config.py:401-405 | A crashed run leaves a count that makes the next, error-free run fail. With the reset at the start, that run succeeds. |
| Trackers.CreateUpdateProject | resources/create_update_codebeamer_project_from_config.py:350-405 | With the counter reset at the start, the run raises iff the category is unknown or reconciliation raised, and raises that exception. It fails iff it did not raise and its own reconciliation counted an error, and reports that count. Its events are the project creation, then those of reconciliation. |
| Trackers.StaleCounterFails | resources/create_update_codebeamer_project_from_config.py:401-405 | A positive count left from an earlier run makes every later run that does not raise fail, with the old count added to its own. |
| Trackers.RaisedRunKeepsCount | resources/create_update_codebeamer_project_from_config.py:172-251 | When config_vs_server counted errors and then raised, the run raises and leaves the counter at its old value plus those errors, so it is positive. |
| Trackers.StaleCounterCarries | resources/create_update_codebeamer_project_from_config.py:401-405 | After such a run, the next run that does not raise fails, even with no errors of its own. |
| Release.ProjectPathRoundTrip | resources/release_and_deploy_codebeamer_project.py:529-533 | The project and version can be read back from "exports/PROJECT/VERSION" when the project name has no '/'. |
| Release.BaselineNameInjective | resources/release_and_deploy_codebeamer_project.py:518-526 | Baselines "VERSION-SUFFIX" of one version with different suffixes have different names. |
| Release.SinglePlan | resources/release_and_deploy_codebeamer_project.py:263-328 | Every step concerns the given project. A deployment deploys that project's version, and only when deployment is on and it is not excluded from production on main. |
| Release.SinglePlanExports | resources/release_and_deploy_codebeamer_project.py:303-305 | Release artifacts are exported iff the branch is not main. |
| Release.SinglePlanDeploys | resources/release_and_deploy_codebeamer_project.py:307-317 | Deployment happens iff it is on and not (branch is main and exclude_from_productive_deployment is exactly True). |
| Release.SinglePlanPublishes | resources/release_and_deploy_codebeamer_project.py:322-328 | Deployed artifacts are published to the source project iff the branch is main. |
| Release.ExportXorPublish | resources/release_and_deploy_codebeamer_project.py:302-328 | Every release exports or publishes, never both. |
| Release.SinglePlanReleaseSteps | resources/release_and_deploy_codebeamer_project.py:331-390 | Off main the plan starts on the source server with the baseline "VERSION-pre release", then the export uploaded under "exports/PROJECT/VERSION" with the deploy_dependencies flag (False when absent), then the baseline "VERSION-post release". |
| Release.SinglePlanDeploySteps | resources/release_and_deploy_codebeamer_project.py:393-444 | A deployment comes after the release steps. On the target it creates "VERSION-pre deployment" iff the target already has the project, then deploys, then creates "VERSION-post deployment". Only the publication on main comes after it. |
| Release.SinglePlanMainSteps | resources/release_and_deploy_codebeamer_project.py:322-328 | On main the plan ends with the publication; with no deployment that is its only step. |
| Release.SinglePlanBaselines | resources/release_and_deploy_codebeamer_project.py:302-328 | The only baselines are the two release baselines on the source server, off main, and the two deployment baselines on the target when deploying. The pre-deployment one is made only where the target has the project. |
| Release.YamlMap | resources/release_and_deploy_codebeamer_project.py:118-129 | It maps exactly the configured projects, each to the last scanned file that configures it. It is empty iff nothing was found. |
| Release.CoversStep | resources/release_and_deploy_codebeamer_project.py:120-124 | Mapping one more scanned file keeps every configured project mapped and adds the new file's project. |
| Release.LastWinsStep | resources/release_and_deploy_codebeamer_project.py:120-124 | A later file for the same project overwrites the earlier mapping; other projects keep their last file. |
| Release.Others | resources/release_and_deploy_codebeamer_project.py:160-162 | The dependencies other than the full project itself. |
| Release.DependentSteps | resources/release_and_deploy_codebeamer_project.py:172-201 | A dependent is never deployed, and its steps concern only that project. Off main they are the release baselines "VERSION-pre release" and "VERSION-post release" around the export to "exports/PROJECT/VERSION"; on main they are the publication. Then "VERSION-pre deployment" is made on the target iff the target has the project, and nothing else. |
| Release.Dependents | resources/release_and_deploy_codebeamer_project.py:160-203 | Each dependent runs under the bundle version and is never deployed. The loop raises KeyError iff some dependency other than the project itself has no release file. It names the first such dependency, after processing exactly the other dependencies before it, in order, with their own release configurations. Its steps are those of the processed dependents, one after the other. |
| Release.FullRun | resources/release_and_deploy_codebeamer_project.py:145-222 | It fails iff some dependency other than the project itself has no release file. Only the full project is deployed, under "VERSION - TC Bundle", and nothing when it is excluded from production on main. Without error, the run ends with one post-deployment baseline per other dependency, in dependency order, named "VERSION - TC Bundle-post deployment". Without error, it deploys iff the project is not excluded from production on main. |
| Release.FullPlan | resources/release_and_deploy_codebeamer_project.py:132-222 | With no release files, ValueError before any step. Otherwise it fails iff a dependency has no file. Only the full project is deployed, under "VERSION - TC Bundle", and not at all when excluded on main. Without error it deploys iff the project is not excluded on main, and it ends with the post-deployment baselines of the other dependencies, in order. |
| Release.ReleaseAndDeploy | resources/release_and_deploy_codebeamer_project.py:226-260 | The key deploy_dependencies with any value selects the full path. The single path never fails. On either path, a run without error deploys iff the project is not excluded on main. Only the project itself is ever deployed, and on main a project excluded from production deploys nothing on either path. |

## Left out

- Server calls: all calmpy/REST calls are inputs (lookups, listings, the tracker API) or outputs (events, plan actions). Network failures, retries and the readonly `dry_run` toggling in `get_user_from_codebeamer` are not modelled.
- Parsing and files: zip opening, JSON and YAML parsing, and directory scans. Packages, configurations and release files arrive as parsed records. Only whether each YAML file loads is modelled, and a YAML error inside the release script (caught and logged) is not.
- Environment, git and housekeeping: environment variables, argparse, `chdir`, timestamps, logging, `sleep`/`countdown` and `sys.exit` are left out. Repository name, branch and commit data are parameters. The git plumbing (`determine_changeset_by_commit`, `get_main_branch`, `fetch_commit_info`, `fetch_baseline_info`) is not part of this model, and neither is `resources/test.py`.
- Pre- and post-processing: `deployment_pre_processing`, `deployment_post_processing` and the admin-role assignment are remote-call sequences and not part of this model.
- Text: `str.lower` and `str.isdigit` are modelled on ASCII; non-ASCII case mapping and Unicode digits are not. The whitespace of `str.split()` and `str.strip()` is the full Unicode whitespace set.
- Authors.ResolveCommitAuthor: a response with a positive total but an empty user list (an IndexError in the source) is not modelled; a response carries its first user.
- Trackers.ServerVsConfig: the block printed for a missing tracker holds its name and id. It does not hold the template tracker's project and name, which come from a further server lookup that can itself fail.
- Trackers.Step: the KeyErrors of a configuration entry without `name`, of a `source` without `source_tracker`, and of a tracker API answer without `templateTracker` are not modelled. Those fields are required by the types.
- Trackers.Apply: `get_tracker(id)` for an id the server does not know (an exception) is not modelled; the tracker API is a total function.
- Trackers.TrackerFieldErrors: `allow_upstream_to_other_project` is a boolean; other truthy YAML values are not distinguished.
- Trackers.CreateUpdateProjectAsWritten: creating a missing project from the empty template ZIP and uploading its documents is one `ProjectCreated` event. The project's tracker listing is an input each of the three times it is read: before the renames, by `config_vs_server` after them, and by the reference check at the end. The model does not tie the later listings to the first one.
- Release.FullPlan: the post-deployment baselines assume the target server has every dependent after the deployment. A `get_project` failure there, or for a dependency's id on the source server, is not modelled.
- Release.ReleaseAndDeploy: the `--deploy_project` command-line flag is ignored by the script's `main`, so the top-level release always deploys. The model has no flag there.
- Release.Artifacts: the export file names use the server's export-name attributes, which are not modelled; the export action carries the upload path and the dependency flag.

## Findings

| source | as written | input that shows it | evidently intended | confidence | as-written member | corrected member |
|---|---|---|---|---|---|---|
| resources/create_update_codebeamer_project_from_config.py:401-405 | `error_counter` is a module global. It is reset only right before the final raise, so any other exception leaves the counted errors in it. The entry point runs every content configuration in the same process and catches the exception (`resources/cb_apply_horizontal_deployment.py:826-842`). | Run 1: a tracker entry with the id of another project's tracker (one error), then an entry whose `source_project` does not exist (ProjectNotFound). Run 2: a configuration with no errors. Run 2 raises "Found 1 errors". | Each run counts only its own errors. | medium, not executed | Trackers.CreateUpdateProjectAsWritten (shown by Trackers.StaleCounterWitness, Trackers.StaleCounterFails, Trackers.RaisedRunKeepsCount and Trackers.StaleCounterCarries) | Trackers.CreateUpdateProject |

=== FILE: authors.dfy ===
/**
  Resolution of a git commit author to a unique Codebeamer user: two
  hand-written parsers that derive search criteria from the author's name and
  e-mail address, and the three-stage search cascade that uses them.
 */
module Authors {
  import opened Base
  import opened Text

  /** The search criteria posted to the user search (`data` in the source). */
  datatype Query =
    | ByEmail(email: string)                   // {"email": ...}
    | ByFullName(first: string, last: string)  // {"firstName": ..., "lastName": ...}
    | ByAccount(name: string)                  // {"name": ...}
    | NoCriteria                               // {}

  /** A user-search answer: the total number of hits and the name of the first user returned. */
  datatype Response = Response(total: nat, first: string)

  datatype ResolveError =
    | AmbiguousName(query: Query, total: nat)  // ValueError: the name search found several users
    | NotFound(query: Query, total: nat)       // ValueError: the e-mail-derived search did not find exactly one
    | TooFewWords                              // IndexError: a "First Last" name with fewer than two words

  /** The errors `assert_valid_commit_author` catches; an IndexError passes through it. */
  predicate IsValueError(e: ResolveError) {
    !e.TooFewWords?
  }

  /**
    `re.sub(".*\\\\", "", s)`: within each line, everything up to and
    including the last backslash is removed (`.` does not match a newline).
   */
  function DropThroughBackslash(s: string): string
    decreases |s|
  {
    if |s| == 0 then ""
    else
      var line := s[..LineEnd(s, 0)];
      var k := LastIndexOf(line, '\\');
      if k >= 0 then DropThroughBackslash(s[k + 1..])
      else [s[0]] + DropThroughBackslash(s[1..])
  }

  lemma {:induction false} DropThroughBackslashNone(s: string)
    requires '\\' !in s
    ensures DropThroughBackslash(s) == s
    decreases |s|
  {
    if |s| > 0 {
      var line := s[..LineEnd(s, 0)];
      assert '\\' !in line;
      DropThroughBackslashNone(s[1..]);
      assert s == [s[0]] + s[1..];
    }
  }

  /** On a one-line account name such as `DOMAIN\ACCOUNT` the substitution keeps what follows the last backslash. */
  lemma {:induction false} DropThroughBackslashOneLine(s: string)
    requires '\n' !in s
    ensures DropThroughBackslash(s) == s[LastIndexOf(s, '\\') + 1..]
  {
    var k := LastIndexOf(s, '\\');
    if k >= 0 {
      DropThroughLastBackslash(s);
      DropThroughBackslashNone(s[k + 1..]);
    } else {
      assert '\\' !in s;
      DropThroughBackslashNone(s);
      assert s[0..] == s;
    }
  }

  lemma DropThroughLastBackslash(s: string)
    requires '\n' !in s && LastIndexOf(s, '\\') >= 0
    ensures DropThroughBackslash(s) == DropThroughBackslash(s[LastIndexOf(s, '\\') + 1..])
    ensures '\\' !in s[LastIndexOf(s, '\\') + 1..]
  {
    LineEndNone(s, 0);
    assert s[..LineEnd(s, 0)] == s;
    var rest := s[LastIndexOf(s, '\\') + 1..];
    assert forall j :: 0 <= j < |rest| ==> rest[j] == s[LastIndexOf(s, '\\') + 1 + j];
  }

  /**
    `extract_names_from_git`: derives the search criteria from the git author
    name by trying, in this order, "Last, First (Orga)", "First Last",
    "DOMAIN\account" and a bare 7-character account. First and last name are
    only used when both are non-empty BEFORE stripping.
   */
  function ExtractNamesFromGit(name: string): (r: Result<Query, ResolveError>)
    ensures r.Failure? <==> ',' !in name && ' ' in name && |Words(name)| < 2
    ensures r.Failure? ==> r.error == TooFewWords
    ensures r.Success? ==> !r.value.ByEmail?
    ensures r.Success? && r.value.ByAccount? ==> ',' !in name && ' ' !in name && ('\\' in name || |name| == 7)
    ensures r.Success? && r.value.ByFullName? ==> ',' in name || ' ' in name
    ensures r.Success? && r.value.ByFullName? ==> Strip(r.value.first) == r.value.first && Strip(r.value.last) == r.value.last
  {
    if ',' in name then
      var last := Before(name, ',');
      Success(FullNameOrNothing(DropOrganisation(Before(After(name, ','), ',')), last))
    else if ' ' in name then
      var words := Words(name);
      if |words| < 2 then Failure(TooFewWords)
      else Success(FullNameOrNothing(words[0], words[1]))
    else if '\\' in name then
      Success(AccountOrNothing(DropThroughBackslash(name)))
    else if |name| == 7 then
      Success(AccountOrNothing(Lower(name)))
    else
      Success(NoCriteria)
  }

  /** `Strip` leaves a stripped string alone. */
  lemma StripStripped(s: string)
    ensures Strip(Strip(s)) == Strip(s)
  {
    var t := Strip(s);
    if t != "" {
      assert SkipSpace(t, 0) == 0;
      assert TrimEnd(t, |t|) == |t|;
    }
  }

  function FullNameOrNothing(first: string, last: string): (q: Query)
    ensures q.ByFullName? ==> Strip(q.first) == q.first && Strip(q.last) == q.last
  {
    StripStripped(first);
    StripStripped(last);
    if last != "" && first != "" then ByFullName(Strip(first), Strip(last)) else NoCriteria
  }

  /** The part of a name field before an opening parenthesis. */
  function DropOrganisation(field: string): (r: string)
    ensures '(' !in r && StartsWith(field, r)
  {
    if '(' in field then Before(field, '(') else field
  }

  function AccountOrNothing(name: string): Query {
    if name != "" then ByAccount(Strip(name)) else NoCriteria
  }

  /**
    "Last, First, ... (Orga)": the name before the first comma is the last
    name, the second comma field up to an opening parenthesis is the first
    name.
   */
  lemma GitCommaFormat(last: string, first: string, orga: string, tail: string)
    requires ',' !in last && ',' !in first && '(' !in first && ',' !in orga
    requires orga == "" || orga[0] == '('
    requires tail == "" || tail[0] == ','
    ensures ExtractNamesFromGit(last + "," + first + orga + tail) == Success(FullNameOrNothing(first, last))
  {
    var s := last + "," + first + orga + tail;
    assert s == last + "," + (first + orga) + tail;
    CommaFields(last, first + orga, tail);
    assert ',' in s by { assert s[|last|] == ','; }
    ParenField(first, orga);
    GitCommaBranch(s, last, first);
  }

  lemma GitCommaBranch(s: string, last: string, first: string)
    requires ',' in s
    requires Before(s, ',') == last
    requires DropOrganisation(Before(After(s, ','), ',')) == first
    ensures ExtractNamesFromGit(s) == Success(FullNameOrNothing(first, last))
  {
  }

  lemma CommaFields(last: string, field: string, tail: string)
    requires ',' !in last && ',' !in field
    requires tail == "" || tail[0] == ','
    ensures Before(last + "," + field + tail, ',') == last
    ensures Before(After(last + "," + field + tail, ','), ',') == field
  {
    var s := last + "," + field + tail;
    var rest := field + tail;
    assert s == last + [','] + rest;
    IndexOfAfter(last, ',', rest);
    assert After(s, ',') == rest;
    if tail == "" {
      IndexOfNone(field, ',');
      assert rest == field;
    } else {
      IndexOfAfter(field, ',', tail[1..]);
      assert rest == field + [','] + tail[1..];
    }
  }

  lemma ParenField(first: string, orga: string)
    requires '(' !in first
    requires orga == "" || orga[0] == '('
    ensures DropOrganisation(first + orga) == first
  {
    if orga == "" {
      assert first + orga == first;
    } else {
      IndexOfAfter(first, '(', orga[1..]);
      assert first + orga == first + ['('] + orga[1..];
    }
  }

  /** The first occurrence of `c` in `a + [c] + b` is at `|a|` when `a` holds none. */
  lemma IndexOfAfter(a: string, c: char, b: string)
    requires c !in a
    ensures IndexOf(a + [c] + b, c) == |a|
  {
    var s := a + [c] + b;
    assert s[|a|] == c;
    assert forall k :: 0 <= k < |a| ==> s[k] == a[k];
  }

  lemma IndexOfNone(s: string, c: char)
    requires c !in s
    ensures IndexOf(s, c) == |s|
  {
  }

  /** Stripping a string made of leading whitespace and a word gives the word. */
  lemma StripExample(s: string, w: string, lead: nat)
    requires lead <= |s| && s[lead..] == w && w != ""
    requires forall k :: 0 <= k < lead ==> IsSpace(s[k])
    requires !IsSpace(w[0]) && !IsSpace(w[|w| - 1])
    ensures Strip(s) == w
  {
    assert SkipSpace(s, 0) == SkipSpace(s, lead) == lead by {
      SkipSpaceOver(s, 0, lead);
    }
    assert s[|s| - 1] == w[|w| - 1];
    assert TrimEnd(s, |s|) == |s|;
    assert s[lead..|s|] == w;
  }

  lemma {:induction false} SkipSpaceOver(s: string, i: nat, j: nat)
    requires i <= j <= |s|
    requires forall k :: i <= k < j ==> IsSpace(s[k])
    ensures SkipSpace(s, i) == SkipSpace(s, j)
    decreases j - i
  {
    if i < j {
      SkipSpaceOver(s, i + 1, j);
    }
  }

  /** "DOMAIN\account": everything up to the last backslash is dropped and the case is kept. */
  lemma GitDomainFormat(domain: string, account: string)
    requires ',' !in domain + account && ' ' !in domain + account && '\n' !in domain + account
    requires '\\' !in account && account != ""
    ensures ExtractNamesFromGit(domain + "\\" + account) == Success(ByAccount(Strip(account)))
  {
    var s := domain + "\\" + account;
    assert forall i :: 0 <= i < |s| ==> s[i] == '\\' || s[i] in domain + account;
    assert ',' !in s && ' ' !in s && '\n' !in s;
    assert s[|domain|] == '\\';
    DropThroughBackslashOneLine(s);
    var k := LastIndexOf(s, '\\');
    assert k == |domain|;
    assert s[k + 1..] == account;
  }

  /** "First Last ...": only the first two whitespace-separated words are used, so "Daniel van Bachran" searches for the last name "van". */
  lemma GitSpaceFormat(s: string)
    requires ',' !in s && ' ' in s && |Words(s)| >= 2
    ensures ExtractNamesFromGit(s) == Success(ByFullName(Words(s)[0], Words(s)[1]))
  {
    StripWord(Words(s)[0]);
    StripWord(Words(s)[1]);
  }

  /** A word has no whitespace to strip. */
  lemma StripWord(w: string)
    requires IsWord(w)
    ensures Strip(w) == w
  {
    assert w[0..] == w;
    StripExample(w, w, 0);
  }

  /** A 7-character name without comma, space or backslash is an account name, lower-cased and stripped. */
  lemma GitAccountFormat(s: string)
    requires |s| == 7 && ',' !in s && ' ' !in s && '\\' !in s
    ensures ExtractNamesFromGit(s) == Success(ByAccount(Strip(Lower(s))))
  {
  }

  /** "FIXC9MS": a bare 7-character account is lower-cased. */
  lemma GitAccountExample()
    ensures ExtractNamesFromGit("FIXC9MS") == Success(ByAccount("fixc9ms"))
  {
    var s := "FIXC9MS";
    assert ',' !in s && ' ' !in s && '\\' !in s;
    GitAccountFormat(s);
    LowerAccount();
    StripAccount();
  }

  lemma StripAccount()
    ensures Strip("fixc9ms") == "fixc9ms"
  {
    var w := "fixc9ms";
    assert !IsSpace(w[0]) && !IsSpace(w[1]) && !IsSpace(w[2]) && !IsSpace(w[3]);
    assert !IsSpace(w[4]) && !IsSpace(w[5]) && !IsSpace(w[6]);
    StripWord(w);
  }

  lemma LowerAccount()
    ensures Lower("FIXC9MS") == "fixc9ms"
  {
    var r := Lower("FIXC9MS");
    assert r[0] == 'f' && r[1] == 'i' && r[2] == 'x' && r[3] == 'c';
    assert r[4] == '9' && r[5] == 'm' && r[6] == 's';
  }

  /** Index just past the run of `[A-Za-z0-9]` characters that starts at `i`. */
  function AlnumRunEnd(s: string, i: nat): (j: nat)
    requires i <= |s|
    ensures i <= j <= |s|
    ensures forall k :: i <= k < j ==> IsAsciiAlnum(s[k])
    ensures j < |s| ==> !IsAsciiAlnum(s[j])
    decreases |s| - i
  {
    if i == |s| || !IsAsciiAlnum(s[i]) then i else AlnumRunEnd(s, i + 1)
  }

  /** The three groups of the e-mail pattern; `prefix` is absent when the optional group did not take part. */
  datatype MailGroups = MailGroups(prefix: Option<string>, first: string, second: string)

  predicate AllAlnum(s: string) {
    forall k :: 0 <= k < |s| ==> IsAsciiAlnum(s[k])
  }

  /** The first line of `s`; `.` in a pattern never crosses it. */
  function FirstLine(s: string): (line: string)
    ensures '\n' !in line
    ensures StartsWith(s, line)
  {
    s[..LineEnd(s, 0)]
  }

  /** The optional group `(extern.)` takes part in the match of `line`. */
  predicate TakesPrefix(line: string) {
    |line| > 7 && line[..6] == "extern" && '@' in line[7..]
  }

  /**
    How the pattern `(extern.)?([A-Za-z0-9]*)\.?([A-Za-z0-9]*).*@` matches the
    one-line string `line` when the regular-expression engine tries the
    longest alternatives first: the optional group is taken only when
    "extern" and one more character start the line and an `@` still follows
    them; each alphanumeric group is as long as possible; the dot is taken
    whenever it is there.
   */
  ghost predicate GreedyMatch(line: string, g: MailGroups) {
    var p := if g.prefix.Some? then 7 else 0;
    && (g.prefix.Some? <==> TakesPrefix(line))
    && (g.prefix.Some? ==> g.prefix.value == line[..7])
    && RunAt(line, p, g.first)
    && RunAt(line, AfterDot(line, p + |g.first|), g.second)
  }

  /** `w` is the longest run of `[A-Za-z0-9]` in `line` that starts at `p`, and more of the line follows it. */
  ghost predicate RunAt(line: string, p: nat, w: string) {
    && p + |w| < |line| && line[p..p + |w|] == w
    && AllAlnum(w) && !IsAsciiAlnum(line[p + |w|])
  }

  /** Where the second group starts: just past the optional dot at `a`. */
  function AfterDot(line: string, a: nat): nat {
    if a < |line| && line[a] == '.' then a + 1 else a
  }

  /**
    The groups of `re.match(r"(extern.)?([A-Za-z0-9]*)\.?([A-Za-z0-9]*).*@", mail)`,
    or None when the pattern does not match, which happens exactly when the
    first line holds no `@`.
   */
  function MatchMail(mail: string): (r: Option<MailGroups>)
    ensures r.None? <==> '@' !in FirstLine(mail)
    ensures r.Some? ==> GreedyMatch(FirstLine(mail), r.value)
  {
    var line := FirstLine(mail);
    if '@' !in line then None
    else
      var takePrefix := TakesPrefix(line);
      var p := if takePrefix then 7 else 0;
      assert '@' in line[p..] by {
        if !takePrefix { assert line[0..] == line; }
      }
      var g := GroupsFrom(line, p, if takePrefix then Some(line[..7]) else None);
      Some(g)
  }

  /** The two alphanumeric groups, matched from index `p` on. */
  function GroupsFrom(line: string, p: nat, prefix: Option<string>): (g: MailGroups)
    requires p <= |line| && '@' in line[p..]
    ensures g.prefix == prefix
    ensures RunAt(line, p, g.first) && RunAt(line, AfterDot(line, p + |g.first|), g.second)
  {
    var at := p + IndexOf(line[p..], '@');
    RunBefore(line, p, at);
    var first := Run(line, p);
    var q := AfterDot(line, p + |first|);
    RunBefore(line, q, at);
    MailGroups(prefix, first, Run(line, q))
  }

  /** The alphanumeric characters from `p` on. */
  function Run(line: string, p: nat): string
    requires p <= |line|
  {
    line[p..AlnumRunEnd(line, p)]
  }

  /** The alphanumeric run from `p` stops at or before the `@` at index `at`. */
  lemma RunBefore(line: string, p: nat, at: nat)
    requires p <= at < |line| && line[at] == '@'
    ensures p + |Run(line, p)| <= at
    ensures RunAt(line, p, Run(line, p))
  {
    var a := AlnumRunEnd(line, p);
    var w := line[p..a];
    assert forall k :: 0 <= k < |w| ==> w[k] == line[p + k];
  }

  /** `[m for m in groups() if m and m != "extern."]` */
  function NameGroups(g: MailGroups): (names: seq<string>)
    ensures |names| <= 3
    ensures forall i :: 0 <= i < |names| ==> names[i] != ""
  {
    (if g.prefix.Some? && g.prefix.value != "" && g.prefix.value != "extern." then [g.prefix.value] else [])
    + (if g.first != "" then [g.first] else [])
    + (if g.second != "" then [g.second] else [])
  }

  /**
    `extract_names_from_mail`: one name group is an account name, two are a
    first and a last name with their digits removed, anything else (or no
    match at all) gives no criteria.
   */
  function ExtractNamesFromMail(mail: string): (q: Query)
    ensures '@' !in FirstLine(mail) ==> q == NoCriteria
    ensures q.ByAccount? ==> MatchMail(mail).Some? && NameGroups(MatchMail(mail).value) == [q.name]
    ensures q.ByFullName? ==> MatchMail(mail).Some? && |NameGroups(MatchMail(mail).value)| == 2
                              && q.first == RemoveDigits(NameGroups(MatchMail(mail).value)[0])
                              && q.last == RemoveDigits(NameGroups(MatchMail(mail).value)[1])
    ensures q.NoCriteria? <==> MatchMail(mail).None? || |NameGroups(MatchMail(mail).value)| !in {1, 2}
    ensures !q.ByEmail?
  {
    match MatchMail(mail)
    case None => NoCriteria
    case Some(g) =>
      var names := NameGroups(g);
      if |names| == 1 then ByAccount(names[0])
      else if |names| == 2 then ByFullName(RemoveDigits(names[0]), RemoveDigits(names[1]))
      else NoCriteria
  }

  /** A run of `[A-Za-z0-9]` is maximal, so only one starts at a given index. */
  lemma RunAtUnique(line: string, p: nat, v: string, w: string)
    requires RunAt(line, p, v) && RunAt(line, p, w)
    ensures v == w
  {
    RunOfWord(line, p, v);
    RunOfWord(line, p, w);
  }

  lemma RunOfWord(line: string, p: nat, w: string)
    requires RunAt(line, p, w)
    ensures AlnumRunEnd(line, p) == p + |w|
  {
    forall k | p <= k < p + |w| ensures IsAsciiAlnum(line[k]) {
      assert line[k] == w[k - p];
    }
    AlnumRunSpan(line, p, p + |w|);
  }

  /** A line has at most one greedy match. */
  lemma GreedyMatchUnique(line: string, g: MailGroups, h: MailGroups)
    requires GreedyMatch(line, g) && GreedyMatch(line, h)
    ensures g == h
  {
    var p := if g.prefix.Some? then 7 else 0;
    RunAtUnique(line, p, g.first, h.first);
    RunAtUnique(line, AfterDot(line, p + |g.first|), g.second, h.second);
  }

  /**
    The match of a one-line string in which, from index `p` on, an
    alphanumeric word `first`, a dot, an alphanumeric word `second` and an
    `@` follow each other.
   */
  lemma MatchOfParts(line: string, p: nat, prefix: Option<string>, first: string, second: string)
    requires '\n' !in line
    requires prefix.Some? <==> TakesPrefix(line)
    requires p == (if prefix.Some? then 7 else 0)
    requires prefix.Some? ==> prefix.value == line[..7]
    requires AllAlnum(first) && AllAlnum(second)
    requires var a := p + |first|;
             && a + 1 + |second| < |line| && line[p..a] == first && line[a] == '.'
             && line[a + 1..a + 1 + |second|] == second && line[a + 1 + |second|] == '@'
    ensures MatchMail(line) == Some(MailGroups(prefix, first, second))
  {
    OneLine(line);
    var g := MailGroups(prefix, first, second);
    assert '@' in FirstLine(line) by { assert line[p + |first| + 1 + |second|] == '@'; }
    assert GreedyMatch(line, g);
    GreedyMatchUnique(line, g, MatchMail(line).value);
  }

  /** "first.second@domain": two name groups, a first and a last name with the digits removed. */
  lemma MailFirstLast(first: string, second: string, domain: string)
    requires first != "" && second != "" && AllAlnum(first) && AllAlnum(second)
    requires !(|first| >= 6 && first[..6] == "extern")
    requires '\n' !in domain
    ensures ExtractNamesFromMail(first + "." + second + "@" + domain) == ByFullName(RemoveDigits(first), RemoveDigits(second))
  {
    FirstLastMatch(first, second, domain);
    NamesOfTwoGroups(first + "." + second + "@" + domain, None, first, second);
  }

  /** Where the parts of "first.second@domain" sit. */
  lemma MailParts(first: string, second: string, domain: string)
    ensures var line := first + "." + second + "@" + domain;
            && line[..|first|] == first && line[|first|] == '.'
            && line[|first| + 1..|first| + 1 + |second|] == second && line[|first| + 1 + |second|] == '@'
  {
    var line := first + "." + second + "@" + domain;
    assert line == first + ['.'] + second + ['@'] + domain;
    var a := |first|;
    assert forall k :: 0 <= k < a ==> line[k] == first[k];
    assert forall k :: 0 <= k < |second| ==> line[a + 1 + k] == second[k];
  }

  lemma FirstLastMatch(first: string, second: string, domain: string)
    requires first != "" && AllAlnum(first) && AllAlnum(second)
    requires !(|first| >= 6 && first[..6] == "extern")
    requires '\n' !in domain
    ensures MatchMail(first + "." + second + "@" + domain) == Some(MailGroups(None, first, second))
  {
    var line := first + "." + second + "@" + domain;
    var a := |first|;
    MailParts(first, second, domain);
    assert line[0..a] == line[..a];
    assert '\n' !in line by { NoLineBreak(first, second, domain); }
    assert !TakesPrefix(line) by {
      if |first| < 6 {
        assert line[|first|] == '.';
      } else {
        assert line[..6] == first[..6];
      }
    }
    MatchOfParts(line, 0, None, first, second);
  }

  /** Two non-empty alphanumeric groups, with no prefix or with exactly "extern.", make a full name. */
  lemma NamesOfTwoGroups(mail: string, prefix: Option<string>, first: string, second: string)
    requires MatchMail(mail) == Some(MailGroups(prefix, first, second))
    requires first != "" && second != ""
    requires prefix == None || prefix == Some("extern.")
    ensures ExtractNamesFromMail(mail) == ByFullName(RemoveDigits(first), RemoveDigits(second))
  {
    assert NameGroups(MailGroups(prefix, first, second)) == [first, second];
  }

  /** "extern.first.second@domain": the "extern." group is dropped from the name groups. */
  lemma MailExternFirstLast(first: string, second: string, domain: string)
    requires first != "" && second != "" && AllAlnum(first) && AllAlnum(second)
    requires '\n' !in domain
    ensures ExtractNamesFromMail("extern." + first + "." + second + "@" + domain) == ByFullName(RemoveDigits(first), RemoveDigits(second))
  {
    MailExternAny('.', first, second, domain);
    assert "extern" + ['.'] == "extern.";
    NamesOfTwoGroups("extern." + first + "." + second + "@" + domain, Some("extern."), first, second);
  }

  /** "extern" and one more character, then two alphanumeric words: three groups when that character is not a dot. */
  lemma MailExternAny(c: char, first: string, second: string, domain: string)
    requires c != '\n' && first != "" && AllAlnum(first) && AllAlnum(second)
    requires '\n' !in domain
    ensures MatchMail("extern" + [c] + first + "." + second + "@" + domain) == Some(MailGroups(Some("extern" + [c]), first, second))
  {
    var line := "extern" + [c] + first + "." + second + "@" + domain;
    var a := 7 + |first|;
    assert line == ("extern" + [c]) + (first + "." + second + "@" + domain);
    NoLineBreak(first, second, domain);
    assert line[..7] == "extern" + [c] && line[..6] == "extern";
    assert line[7..] == first + "." + second + "@" + domain;
    assert line[7..a] == first && line[a] == '.';
    assert line[a + 1..a + 1 + |second|] == second && line[a + 1 + |second|] == '@';
    assert '@' in line[7..] by { assert line[7..][|first| + 1 + |second|] == '@'; }
    assert '\n' !in line by {
      assert forall i :: 0 <= i < 7 ==> line[i] != '\n';
      assert forall i :: 7 <= i < |line| ==> line[i] == line[7..][i - 7];
    }
    MatchOfParts(line, 7, Some("extern" + [c]), first, second);
  }

  /** "account@domain": a single name group is the account name, digits included. */
  lemma MailAccount(name: string, domain: string)
    requires name != "" && AllAlnum(name)
    requires !(|name| >= 6 && name[..6] == "extern")
    requires '\n' !in domain
    ensures ExtractNamesFromMail(name + "@" + domain) == ByAccount(name)
  {
    var line := name + "@" + domain;
    OneLine(line);
    assert !TakesPrefix(line) by {
      if |name| < 6 {
        assert line[|name|] == '@';
      } else {
        assert line[..6] == name[..6];
      }
    }
    assert line[..|name|] == name && line[|name|] == '@';
    assert line[|name|..|name|] == "";
    var g := MailGroups(None, name, "");
    assert GreedyMatch(line, g);
    GreedyMatchUnique(line, g, MatchMail(line).value);
  }

  /**
    The optional group is "extern" followed by ANY character: a local part
    such as "externbrink.hans" yields the three name groups "externb",
    "rink" and "hans" and therefore no criteria at all.
   */
  lemma MailExternSwallowsLetter(c: char, rest: string, second: string, domain: string)
    requires IsAsciiAlnum(c) && rest != "" && second != "" && AllAlnum(rest) && AllAlnum(second)
    requires '\n' !in domain
    ensures ExtractNamesFromMail("extern" + [c] + rest + "." + second + "@" + domain) == NoCriteria
  {
    MailExternAny(c, rest, second, domain);
    var g := MailGroups(Some("extern" + [c]), rest, second);
    assert "extern" + [c] != "extern." by { assert ("extern" + [c])[6] == c; }
    assert |NameGroups(g)| == 3;
  }

  lemma NoLineBreak(first: string, second: string, domain: string)
    requires AllAlnum(first) && AllAlnum(second) && '\n' !in domain
    ensures '\n' !in first + "." + second + "@" + domain
  {
    var s := first + "." + second + "@" + domain;
    forall i | 0 <= i < |s| ensures s[i] != '\n' {
      if i < |first| {
        assert s[i] == first[i];
      } else if |first| < i < |first| + 1 + |second| {
        assert s[i] == second[i - |first| - 1];
      } else if i > |first| + 1 + |second| {
        assert s[i] == domain[i - |first| - 2 - |second|];
      }
    }
  }

  /** A string without a line break is its own first line. */
  lemma OneLine(s: string)
    requires '\n' !in s
    ensures FirstLine(s) == s
  {
    LineEndNone(s, 0);
  }

  lemma {:induction false} LineEndNone(s: string, i: nat)
    requires i <= |s|
    requires '\n' !in s
    ensures LineEnd(s, i) == |s|
    decreases |s| - i
  {
    if i < |s| {
      LineEndNone(s, i + 1);
    }
  }

  lemma {:induction false} AlnumRunSpan(s: string, i: nat, j: nat)
    requires i <= j < |s|
    requires forall k :: i <= k < j ==> IsAsciiAlnum(s[k])
    requires !IsAsciiAlnum(s[j])
    ensures AlnumRunEnd(s, i) == j
    decreases j - i
  {
    if i < j {
      AlnumRunSpan(s, i + 1, j);
    }
  }

  /** The trace of one resolution: the user found (or the error raised) and the searches issued, in order. */
  datatype Resolution = Resolution(user: Result<string, ResolveError>, asked: seq<Query>)

  /**
    `get_cb_username_from_commit_author`, with the user search given as the
    function `lookup`. Stage 1 searches the e-mail address and accepts ANY
    positive count; stage 2 searches the names derived from the git author
    and fails on several hits; stage 3 searches the names derived from the
    e-mail address and fails unless there is exactly one hit.
   */
  function ResolveCommitAuthor(authorName: string, email: string, lookup: Query -> Response): (r: Resolution)
    ensures 1 <= |r.asked| <= 3 && r.asked[0] == ByEmail(email)
    ensures lookup(ByEmail(email)).total >= 1 ==> r == Resolution(Success(lookup(ByEmail(email)).first), [ByEmail(email)])
    ensures |r.asked| >= 2 ==> ExtractNamesFromGit(authorName).Success? && r.asked[1] == ExtractNamesFromGit(authorName).value
    ensures |r.asked| == 3 ==> r.asked[2] == ExtractNamesFromMail(email)
    ensures forall i :: 0 <= i < |r.asked| - 1 ==> lookup(r.asked[i]).total == 0
    ensures r.user.Success? ==> r.user.value == lookup(r.asked[|r.asked| - 1]).first
    ensures r.user.Success? && |r.asked| > 1 ==> lookup(r.asked[|r.asked| - 1]).total == 1
    ensures r.user.Success? <==> lookup(r.asked[|r.asked| - 1]).total >= 1 && (|r.asked| > 1 ==> lookup(r.asked[|r.asked| - 1]).total == 1)
    ensures r.user.Failure? && r.user.error.AmbiguousName? ==> |r.asked| == 2 && lookup(r.asked[1]).total > 1
    ensures r.user.Failure? && r.user.error.NotFound? ==> |r.asked| == 3 && lookup(r.asked[2]).total != 1
    ensures r.user.Failure? && r.user.error.TooFewWords? ==> |r.asked| == 1 && ExtractNamesFromGit(authorName).Failure?
  {
    var byEmail := ByEmail(email);
    var r1 := lookup(byEmail);
    if r1.total != 0 then Resolution(Success(r1.first), [byEmail])
    else
      match ExtractNamesFromGit(authorName)
      case Failure(e) => Resolution(Failure(e), [byEmail])
      case Success(byGit) =>
        var r2 := lookup(byGit);
        if r2.total > 1 then Resolution(Failure(AmbiguousName(byGit, r2.total)), [byEmail, byGit])
        else if r2.total == 1 then Resolution(Success(r2.first), [byEmail, byGit])
        else
          var byMail := ExtractNamesFromMail(email);
          var r3 := lookup(byMail);
          if r3.total != 1 then Resolution(Failure(NotFound(byMail, r3.total)), [byEmail, byGit, byMail])
          else Resolution(Success(r3.first), [byEmail, byGit, byMail])
  }
}

=== FILE: base.dfy ===
/** Failure-compatible wrappers shared by every module of the model. */
module Base {

  /** A value that may be absent: a Python `None` or a dictionary key that is not present. */
  datatype Option<+T> = None | Some(value: T) {

    function GetOr(default: T): T {
      match this
      case Some(v) => v
      case None => default
    }
  }

  /** Either a value or the exception that the modelled code raises instead of returning it. */
  datatype Result<+T, +E> = Success(value: T) | Failure(error: E) {

    predicate IsFailure() {
      Failure?
    }

    function PropagateFailure<U>(): Result<U, E>
      requires Failure?
    {
      Failure(error)
    }

    function Extract(): T
      requires Success?
    {
      value
    }
  }
}

=== FILE: checks.dfy ===
/**
  The pre-deployment checks of the horizontal deployment. Each check either
  passes, passes with warnings because it was forced, aborts the deployment
  (the source raises), or, for the external-reference check, is inconclusive.
  An exception a check does not catch is a crash.
 */
module Checks {
  import opened Base
  import opened Dicts
  import opened Text
  import opened Registry
  import Authors

  /** The problem a check reports (the message of the warning or of the abort). */
  datatype Violation =
    | NoDeploymentZip
    | MultipleProjects(zips: seq<Path>)
    | MissingMultiExport(zip: Path)
    | FolderMismatch(zipBase: string, folder: string)
    | NamespaceMissing(project: string, key: string)
    | NamespaceMismatch(project: string, key: string)
    | AuthorUnresolved(error: Authors.ResolveError)
    | ProjectFileMismatch(zipName: string, jsonName: string)
    | CrossReferencesMissing

  /** An exception that escapes a check. */
  datatype Uncaught =
    | KeyError(key: string)
    | IndexError

  datatype CheckResult =
    | Passed
    | PassedForced(warnings: seq<Violation>)  // "Passed (forced)": every problem was only logged
    | Abort(violation: Violation)              // "Deployment aborted": the first problem found
    | Inconclusive(projects: seq<string>)      // "Inconclusive, deployment may fail"
    | Crash(error: Uncaught)

  /** `[report(x) for x in items if bad(x)]`: the problems found in `items`, in order. */
  function Offences<T>(items: seq<T>, bad: T -> bool, report: T -> Violation): (vs: seq<Violation>)
    ensures |vs| <= |items|
    ensures |vs| == 0 <==> forall i :: 0 <= i < |items| ==> !bad(items[i])
    ensures forall v :: v in vs <==> exists i :: 0 <= i < |items| && bad(items[i]) && report(items[i]) == v
    ensures |vs| > 0 ==> exists i :: 0 <= i < |items| && bad(items[i]) && report(items[i]) == vs[0]
                                  && forall j :: 0 <= j < i ==> !bad(items[j])
  {
    if |items| == 0 then []
    else
      var rest := Offences(items[1..], bad, report);
      assert forall i :: 1 <= i < |items| ==> items[i] == items[1..][i - 1];
      if bad(items[0]) then [report(items[0])] + rest
      else
        assert forall i :: 0 <= i < |items[1..]| ==> items[1..][i] == items[i + 1];
        rest
  }

  /** What a forceable check makes of the problems it found: without force it stops at the first one. */
  function Verdict(vs: seq<Violation>, force: bool): (r: CheckResult)
    ensures r.Passed? <==> |vs| == 0
    ensures r.PassedForced? <==> |vs| > 0 && force
    ensures r.Abort? <==> |vs| > 0 && !force
    ensures r.PassedForced? ==> r.warnings == vs
    ensures r.Abort? ==> r.violation == vs[0]
  {
    if |vs| == 0 then Passed
    else if force then PassedForced(vs)
    else Abort(vs[0])
  }

  /**
    The loop shared by the forceable checks: every item with a problem is
    reported; without force the first one aborts, with force all of them
    become warnings.
   */
  function Check<T>(items: seq<T>, bad: T -> bool, report: T -> Violation, force: bool): (r: CheckResult)
    ensures r.Passed? || r.PassedForced? || r.Abort?
    ensures r.Passed? <==> forall i :: 0 <= i < |items| ==> !bad(items[i])
    ensures r.Abort? <==> !force && exists i :: 0 <= i < |items| && bad(items[i])
    ensures r.PassedForced? <==> force && exists i :: 0 <= i < |items| && bad(items[i])
    ensures r.PassedForced? ==> r.warnings == Offences(items, bad, report)
    ensures r.Abort? ==> exists i :: FirstWith(items, bad, i) && r.violation == report(items[i])
  {
    Verdict(Offences(items, bad, report), force)
  }

  /** `items[i]` is the first item with property `bad`. */
  ghost predicate FirstWith<T>(items: seq<T>, bad: T -> bool, i: int) {
    0 <= i < |items| && bad(items[i]) && forall j :: 0 <= j < i ==> !bad(items[j])
  }

  /** The project records of `deployment_jsons`, in iteration order. */
  function Records(jsons: Dict<string, ProjectInfo>): (ps: seq<ProjectInfo>)
    requires jsons.Valid()
    ensures |ps| == |jsons.keys|
    ensures forall i :: 0 <= i < |ps| ==> ps[i] == jsons.values[jsons.keys[i]]
  {
    seq(|jsons.keys|, i requires 0 <= i < |jsons.keys| => jsons.values[jsons.keys[i]])
  }

  /** Some record of the registry has property `p` exactly when some position of `Records` has it. */
  lemma SomeRecord(jsons: Dict<string, ProjectInfo>, p: ProjectInfo -> bool)
    requires jsons.Valid()
    ensures (exists i :: 0 <= i < |jsons.keys| && p(Records(jsons)[i])) <==> (exists n :: n in jsons.values && p(jsons.values[n]))
  {
    var ps := Records(jsons);
    if n :| n in jsons.values && p(jsons.values[n]) {
      var i :| 0 <= i < |jsons.keys| && jsons.keys[i] == n;
      assert p(ps[i]);
    }
  }

  /** Every record sits under some key. */
  lemma RecordsAreEntries(jsons: Dict<string, ProjectInfo>)
    requires jsons.Valid()
    ensures forall i :: 0 <= i < |jsons.keys| ==> jsons.keys[i] in jsons.values && Records(jsons)[i] == jsons.values[jsons.keys[i]]
  {
  }

  // ---------------------------------------------------------------------------
  // Namespaces

  /**
    `re.sub("-.+", "", s)` from index `i` on: a dash with at least one more
    character on its line starts a match that runs to the end of that line
    (`.` does not match a newline); every such match is removed.
   */
  function DropDashRuns(s: string, i: nat): string
    requires i <= |s|
    decreases |s| - i
  {
    if i == |s| then ""
    else if s[i] == '-' && i + 1 < |s| && s[i + 1] != '\n' then DropDashRuns(s, LineEnd(s, i + 1))
    else [s[i]] + DropDashRuns(s, i + 1)
  }

  /** `get_json_project_namespace` / `get_json_key_namespace`. */
  function Namespace(s: string): string {
    DropDashRuns(s, 0)
  }

  /** Index of the leftmost dash at or after `i` that is not the last character, or `|s|`. */
  function DashCut(s: string, i: nat): (j: nat)
    requires i <= |s|
    ensures i <= j <= |s|
    ensures j < |s| ==> s[j] == '-' && j + 1 < |s|
    ensures forall k :: i <= k < j ==> !(s[k] == '-' && k + 1 < |s|)
    decreases |s| - i
  {
    if i == |s| || (s[i] == '-' && i + 1 < |s|) then i else DashCut(s, i + 1)
  }

  /** On one line, the substitution keeps exactly the text before the leftmost dash that has a character after it. */
  lemma {:induction false} DropDashRunsOneLine(s: string, i: nat)
    requires i <= |s| && '\n' !in s
    ensures DropDashRuns(s, i) == s[i..DashCut(s, i)]
    decreases |s| - i
  {
    if i < |s| {
      if s[i] == '-' && i + 1 < |s| {
        LineEndToEnd(s, i + 1);
      } else {
        DropDashRunsOneLine(s, i + 1);
        assert s[i..DashCut(s, i)] == [s[i]] + s[i + 1..DashCut(s, i + 1)];
      }
    }
  }

  lemma {:induction false} LineEndToEnd(s: string, i: nat)
    requires i <= |s| && '\n' !in s
    ensures LineEnd(s, i) == |s|
    decreases |s| - i
  {
    if i < |s| {
      LineEndToEnd(s, i + 1);
    }
  }

  /** The namespace of a one-line name: the prefix before the leftmost dash that is not the last character, or the whole name. */
  lemma NamespaceOneLine(s: string)
    requires '\n' !in s
    ensures Namespace(s) == s[..DashCut(s, 0)]
    ensures (forall k :: 0 <= k < |s| - 1 ==> s[k] != '-') ==> Namespace(s) == s
  {
    DropDashRunsOneLine(s, 0);
  }

  /** A one-line name has an empty namespace iff it is empty or starts with a dash that is followed by something. */
  lemma NamespaceEmptyIff(s: string)
    requires '\n' !in s
    ensures Namespace(s) == "" <==> s == "" || (s[0] == '-' && |s| > 1)
  {
    NamespaceOneLine(s);
  }

  /** "TC-Foo-Bar" has namespace "TC"; a trailing dash is kept ("TC-" stays "TC-"). */
  lemma NamespaceExamples()
    ensures Namespace("TC-Foo-Bar") == "TC"
    ensures Namespace("TC-") == "TC-"
  {
    NamespaceOneLine("TC-Foo-Bar");
    assert DashCut("TC-Foo-Bar", 0) == 2;
    NamespaceOneLine("TC-");
    assert DashCut("TC-", 0) == 3;
  }

  // ---------------------------------------------------------------------------
  // File names

  /** `filepath.rpartition(".deployment.zip")[0]` of the file name of `path`. */
  function ZipBaseName(path: Path): string {
    RPartitionHead(BaseName(path), ".deployment.zip")
  }

  /** `os.path.basename(os.path.split(path)[0])`: the name of the folder holding `path`. */
  function FolderName(path: Path): string {
    BaseName(DirName(path))
  }

  /** The text before the last occurrence of a suffix that ends the string is everything before it. */
  lemma RPartitionHeadSuffix(base: string, sep: string)
    requires |sep| > 0
    ensures RPartitionHead(base + sep, sep) == base
  {
    var s := base + sep;
    assert s[|base|..] == sep;
    assert OccursAt(s, sep, |base|);
    assert Contains(s, sep);
  }

  /** A well-formed "dir/NAME/NAME.deployment.zip" passes the folder comparison. */
  lemma ZipInOwnFolder(parent: string, name: string)
    requires '/' !in name && name != ""
    requires parent == "" || parent[|parent| - 1] == '/'
    ensures ZipBaseName(parent + name + "/" + name + ".deployment.zip") == name
    ensures FolderName(parent + name + "/" + name + ".deployment.zip") == name
  {
    var file := name + ".deployment.zip";
    assert '/' !in file by {
      assert forall k :: 0 <= k < |file| ==> file[k] == (if k < |name| then name[k] else ".deployment.zip"[k - |name|]);
    }
    var dir := parent + name;
    assert dir[|dir| - 1] == name[|name| - 1];
    assert parent + name + "/" + name + ".deployment.zip" == dir + "/" + file;
    SplitJoin(dir, file);
    RPartitionHeadSuffix(name, ".deployment.zip");
    DirBase(parent, name);
  }

  /** The last component of `parent + name`, where `parent` is empty or ends in a slash. */
  lemma DirBase(parent: string, name: string)
    requires '/' !in name && name != ""
    requires parent == "" || parent[|parent| - 1] == '/'
    ensures BaseName(parent + name) == name
  {
    var p := parent + name;
    assert forall k :: |parent| <= k < |p| ==> p[k] == name[k - |parent|];
    if parent != "" {
      assert p[|parent| - 1] == '/';
    }
    assert LastIndexOf(p, '/') == |parent| - 1;
    assert p[|parent|..] == name;
  }

  // ---------------------------------------------------------------------------
  // The checks

  /** Test 1, `assert_zip_present`: at least one deployment ZIP was found. */
  function AssertZipPresent(zips: Dict<Path, seq<string>>, force: bool): (r: CheckResult)
    ensures r.Passed? <==> |zips.keys| > 0
    ensures r.Abort? <==> |zips.keys| == 0 && !force
    ensures r.PassedForced? <==> |zips.keys| == 0 && force
    ensures r.Abort? ==> r.violation == NoDeploymentZip
  {
    Verdict(if |zips.keys| == 0 then [NoDeploymentZip] else [], force)
  }

  /** The ZIPs, in order, that hold more than one project. */
  function CrowdedZips(zips: Dict<Path, seq<string>>, i: nat): (ks: seq<Path>)
    requires zips.Valid() && i <= |zips.keys|
    ensures forall k :: k in ks <==> exists j :: i <= j < |zips.keys| && zips.keys[j] == k && |zips.values[k]| > 1
    decreases |zips.keys| - i
  {
    if i == |zips.keys| then []
    else
      var k := zips.keys[i];
      var rest := CrowdedZips(zips, i + 1);
      if |zips.values[k]| > 1 then [k] + rest else rest
  }

  /**
    Test 2, `assert_zip_contains_only_one_project`: all offending ZIPs are
    collected into one message; a ZIP with no project at all is accepted.
   */
  function AssertZipContainsOnlyOneProject(zips: Dict<Path, seq<string>>, force: bool): (r: CheckResult)
    requires zips.Valid()
    ensures r.Passed? <==> forall k :: k in zips.values ==> |zips.values[k]| <= 1
    ensures r.Abort? <==> !force && exists k :: k in zips.values && |zips.values[k]| > 1
    ensures r.PassedForced? <==> force && exists k :: k in zips.values && |zips.values[k]| > 1
    ensures r.Abort? ==> r.violation.MultipleProjects?
                         && forall k :: k in r.violation.zips <==> k in zips.values && |zips.values[k]| > 1
  {
    var crowded := CrowdedZips(zips, 0);
    assert forall k :: k in zips.values ==> exists j :: 0 <= j < |zips.keys| && zips.keys[j] == k;
    assert |crowded| > 0 ==> crowded[0] in crowded;
    Verdict(if |crowded| > 0 then [MultipleProjects(crowded)] else [], force)
  }

  /** The ZIPs whose listing lacks the root entry "multiExport.txt". */
  function MissingExport(entries: Path -> seq<string>): (missing: Path -> bool)
    ensures forall k :: missing(k) <==> "multiExport.txt" !in entries(k)
  {
    (k: Path) => "multiExport.txt" !in entries(k)
  }

  /**
    Test 3, `assert_zip_contains_deployment_files`, with the entry names of
    each ZIP given by `entries`: there is no force flag, the first ZIP
    without a "multiExport.txt" entry aborts.
   */
  function AssertZipContainsDeploymentFiles(zips: Dict<Path, seq<string>>, entries: Path -> seq<string>): (r: CheckResult)
    ensures r.Passed? || r.Abort?
    ensures r.Passed? <==> forall i :: 0 <= i < |zips.keys| ==> "multiExport.txt" in entries(zips.keys[i])
    ensures r.Abort? ==> exists i :: FirstWith(zips.keys, MissingExport(entries), i) && r.violation == MissingMultiExport(zips.keys[i])
  {
    Check(zips.keys, MissingExport(entries), (k: Path) => MissingMultiExport(k), false)
  }

  /** The ZIP's base name differs from the name of its folder. */
  predicate FolderDiffers(path: Path) {
    ZipBaseName(path) != FolderName(path)
  }

  function FolderReport(path: Path): Violation {
    FolderMismatch(ZipBaseName(path), FolderName(path))
  }

  /** Test 4, `assert_filename_consistency`: the ZIP's base name must equal the name of its folder. */
  function AssertFilenameConsistency(zips: Dict<Path, seq<string>>, force: bool): (r: CheckResult)
    ensures r.Passed? <==> forall i :: 0 <= i < |zips.keys| ==> !FolderDiffers(zips.keys[i])
    ensures r.Abort? <==> !force && exists i :: 0 <= i < |zips.keys| && FolderDiffers(zips.keys[i])
    ensures r.PassedForced? <==> force && exists i :: 0 <= i < |zips.keys| && FolderDiffers(zips.keys[i])
    ensures r.Abort? ==> exists i :: FirstWith(zips.keys, FolderDiffers, i) && r.violation == FolderReport(zips.keys[i])
  {
    Check(zips.keys, FolderDiffers, FolderReport, force)
  }

  predicate NamespaceAbsent(p: ProjectInfo) {
    Namespace(p.json.name) == "" || Namespace(p.json.keyName) == ""
  }

  function NamespaceAbsentReport(p: ProjectInfo): Violation {
    NamespaceMissing(p.json.name, p.json.keyName)
  }

  /** Test 5, `assert_namespace_present`: every project name and project key has a non-empty namespace. */
  function AssertNamespacePresent(jsons: Dict<string, ProjectInfo>, force: bool): (r: CheckResult)
    requires jsons.Valid()
    ensures r.Passed? <==> forall n :: n in jsons.values ==> !NamespaceAbsent(jsons.values[n])
    ensures r.Abort? <==> !force && exists n :: n in jsons.values && NamespaceAbsent(jsons.values[n])
    ensures r.PassedForced? <==> force && exists n :: n in jsons.values && NamespaceAbsent(jsons.values[n])
    ensures r.Abort? ==> exists n :: n in jsons.values && NamespaceAbsent(jsons.values[n])
                                     && r.violation == NamespaceMissing(jsons.values[n].json.name, jsons.values[n].json.keyName)
    ensures r.Abort? ==> exists i :: FirstWith(Records(jsons), NamespaceAbsent, i) && r.violation == NamespaceAbsentReport(jsons.values[jsons.keys[i]])
  {
    SomeRecord(jsons, NamespaceAbsent);
    RecordsAreEntries(jsons);
    Check(Records(jsons), NamespaceAbsent, NamespaceAbsentReport, force)
  }

  /** Without force, test 5 aborts exactly when some one-line name or key is empty or starts with a dash that has a character after it. */
  lemma NamespacePresentAborts(jsons: Dict<string, ProjectInfo>)
    requires jsons.Valid()
    requires forall n :: n in jsons.values ==> '\n' !in jsons.values[n].json.name && '\n' !in jsons.values[n].json.keyName
    ensures AssertNamespacePresent(jsons, false).Abort? <==>
              exists n :: n in jsons.values && (LeadingDash(jsons.values[n].json.name) || LeadingDash(jsons.values[n].json.keyName))
  {
    forall n | n in jsons.values
      ensures NamespaceAbsent(jsons.values[n]) <==> LeadingDash(jsons.values[n].json.name) || LeadingDash(jsons.values[n].json.keyName)
    {
      NamespaceEmptyIff(jsons.values[n].json.name);
      NamespaceEmptyIff(jsons.values[n].json.keyName);
    }
  }

  /** Empty, or a dash followed by at least one more character. */
  predicate LeadingDash(s: string) {
    s == "" || (s[0] == '-' && |s| > 1)
  }

  predicate NamespacesDiffer(p: ProjectInfo) {
    Namespace(p.json.name) != Namespace(p.json.keyName)
  }

  function NamespacesDifferReport(p: ProjectInfo): Violation {
    NamespaceMismatch(p.json.name, p.json.keyName)
  }

  /** Test 6, `assert_namespace_consistency`: the project name and the project key share their namespace. */
  function AssertNamespaceConsistency(jsons: Dict<string, ProjectInfo>, force: bool): (r: CheckResult)
    requires jsons.Valid()
    ensures r.Passed? <==> forall n :: n in jsons.values ==> !NamespacesDiffer(jsons.values[n])
    ensures r.Abort? <==> !force && exists n :: n in jsons.values && NamespacesDiffer(jsons.values[n])
    ensures r.PassedForced? <==> force && exists n :: n in jsons.values && NamespacesDiffer(jsons.values[n])
    ensures r.Abort? ==> exists n :: n in jsons.values && NamespacesDiffer(jsons.values[n])
                                     && r.violation == NamespaceMismatch(jsons.values[n].json.name, jsons.values[n].json.keyName)
    ensures r.Abort? ==> exists i :: FirstWith(Records(jsons), NamespacesDiffer, i) && r.violation == NamespacesDifferReport(jsons.values[jsons.keys[i]])
  {
    SomeRecord(jsons, NamespacesDiffer);
    RecordsAreEntries(jsons);
    Check(Records(jsons), NamespacesDiffer, NamespacesDifferReport, force)
  }

  /**
    Test 7, `assert_valid_commit_author`: the ValueErrors of the resolver
    are the check's problem; the IndexError of a one-word git name escapes.
   */
  function AssertValidCommitAuthor(authorName: string, email: string, lookup: Authors.Query -> Authors.Response, force: bool): (r: CheckResult)
    ensures var res := Authors.ResolveCommitAuthor(authorName, email, lookup).user;
            && (r.Passed? <==> res.Success?)
            && (r.Crash? <==> res.Failure? && !Authors.IsValueError(res.error))
            && (r.Abort? <==> res.Failure? && Authors.IsValueError(res.error) && !force)
            && (r.PassedForced? <==> res.Failure? && Authors.IsValueError(res.error) && force)
            && (r.Abort? ==> r.violation == AuthorUnresolved(res.error))
  {
    match Authors.ResolveCommitAuthor(authorName, email, lookup).user
    case Success(_) => Passed
    case Failure(e) =>
      if Authors.IsValueError(e) then Verdict([AuthorUnresolved(e)], force) else Crash(IndexError)
  }

  /** The ZIP's base name differs from the project file's name before ".json". */
  predicate ProjectFileDiffers(p: ProjectInfo) {
    ZipBaseName(p.zip) != RPartitionHead(p.projectFile, ".json")
  }

  function ProjectFileReport(p: ProjectInfo): Violation {
    ProjectFileMismatch(ZipBaseName(p.zip), RPartitionHead(p.projectFile, ".json"))
  }

  /** Test 8, `assert_zip_contains_correct_project`: each project JSON is named after the ZIP it came from. */
  function AssertZipContainsCorrectProject(jsons: Dict<string, ProjectInfo>, force: bool): (r: CheckResult)
    requires jsons.Valid()
    ensures r.Passed? <==> forall n :: n in jsons.values ==> !ProjectFileDiffers(jsons.values[n])
    ensures r.Abort? <==> !force && exists n :: n in jsons.values && ProjectFileDiffers(jsons.values[n])
    ensures r.PassedForced? <==> force && exists n :: n in jsons.values && ProjectFileDiffers(jsons.values[n])
    ensures r.Abort? ==> r.violation.ProjectFileMismatch? && r.violation.zipName != r.violation.jsonName
    ensures r.Abort? ==> exists i :: FirstWith(Records(jsons), ProjectFileDiffers, i) && r.violation == ProjectFileReport(jsons.values[jsons.keys[i]])
  {
    SomeRecord(jsons, ProjectFileDiffers);
    Check(Records(jsons), ProjectFileDiffers, ProjectFileReport, force)
  }

  /** A project JSON "NAME.json" in "dir/NAME.deployment.zip" passes test 8. */
  lemma ProjectFileMatches(p: ProjectInfo, parent: string, name: string)
    requires '/' !in name
    requires parent == "" || parent[|parent| - 1] == '/'
    requires p.zip == parent + name + ".deployment.zip" && p.projectFile == name + ".json"
    ensures !ProjectFileDiffers(p)
  {
    var file := name + ".deployment.zip";
    assert '/' !in file by {
      assert forall k :: 0 <= k < |file| ==> file[k] == (if k < |name| then name[k] else ".deployment.zip"[k - |name|]);
    }
    assert p.zip == parent + file;
    DirBase(parent, file);
    RPartitionHeadSuffix(name, ".deployment.zip");
    assert ZipBaseName(p.zip) == name;
    RPartitionHeadSuffix(name, ".json");
  }

  predicate LacksCrossReferences(p: ProjectInfo) {
    p.json.crossReferences.None?
  }

  /** Test 9, `assert_cross_references_in_deployment_json`: every project JSON has the key "crossReferences". */
  function AssertCrossReferencesInDeploymentJson(jsons: Dict<string, ProjectInfo>, force: bool): (r: CheckResult)
    requires jsons.Valid()
    ensures r.Passed? <==> forall n :: n in jsons.values ==> !LacksCrossReferences(jsons.values[n])
    ensures r.Abort? <==> !force && exists n :: n in jsons.values && LacksCrossReferences(jsons.values[n])
    ensures r.PassedForced? <==> force && exists n :: n in jsons.values && LacksCrossReferences(jsons.values[n])
    ensures r.Abort? ==> r.violation == CrossReferencesMissing
  {
    SomeRecord(jsons, LacksCrossReferences);
    Check(Records(jsons), LacksCrossReferences, (p: ProjectInfo) => CrossReferencesMissing, force)
  }

  /** A cross-reference that names another project by id. */
  predicate IsExternal(c: CrossRef) {
    c.projectId.Some?
  }

  /** Scanning a cross-reference list: whether it holds an external reference, or the key that is missing from one. */
  function ScanReferences(refs: seq<CrossRef>): (r: Result<bool, Uncaught>)
    ensures r.Failure? <==> exists i :: 0 <= i < |refs| && IsExternal(refs[i]) && (refs[i].projectName.None? || refs[i].path.None?)
    ensures r.Success? ==> (r.value <==> exists i :: 0 <= i < |refs| && IsExternal(refs[i]))
    ensures r.Failure? ==> r.error == KeyError("projectName") || r.error == KeyError("path")
  {
    if |refs| == 0 then Success(false)
    else
      var c := refs[0];
      assert forall i :: 1 <= i < |refs| ==> refs[i] == refs[1..][i - 1];
      if IsExternal(c) && c.projectName.None? then Failure(KeyError("projectName"))
      else if IsExternal(c) && c.path.None? then Failure(KeyError("path"))
      else
        match ScanReferences(refs[1..])
        case Failure(e) => Failure(e)
        case Success(b) => Success(IsExternal(c) || b)
  }

  /** A project whose cross-references cannot be scanned. */
  predicate Unscannable(p: ProjectInfo) {
    p.json.crossReferences.None? || ScanReferences(p.json.crossReferences.value).Failure?
  }

  predicate HasExternal(p: ProjectInfo) {
    p.json.crossReferences.Some? && ScanReferences(p.json.crossReferences.value) == Success(true)
  }

  /** The keys, in order, of the projects that refer to another project, or the first uncaught KeyError. */
  function ExternalReferences(items: seq<(string, ProjectInfo)>): (r: Result<seq<string>, Uncaught>)
    ensures r.Failure? <==> exists i :: 0 <= i < |items| && Unscannable(items[i].1)
    ensures r.Success? ==> forall n :: n in r.value <==> exists i :: 0 <= i < |items| && HasExternal(items[i].1) && items[i].0 == n
  {
    if |items| == 0 then Success([])
    else
      var (n, p) := items[0];
      assert forall i :: 1 <= i < |items| ==> items[i] == items[1..][i - 1];
      if p.json.crossReferences.None? then Failure(KeyError("crossReferences"))
      else
        match ScanReferences(p.json.crossReferences.value)
        case Failure(e) => Failure(e)
        case Success(external) =>
          match ExternalReferences(items[1..])
          case Failure(e) => Failure(e)
          case Success(rest) =>
            assert forall i :: 0 <= i < |items[1..]| ==> items[1..][i] == items[i + 1];
            Success(if external then [n] + rest else rest)
  }

  /**
    Test 10, `check_no_external_project_references`: never aborts. Any
    cross-reference with a "projectId" makes it inconclusive, whatever the
    id is; a project without "crossReferences", or an external reference
    without "projectName" or "path", is a KeyError that escapes.
   */
  function CheckNoExternalProjectReferences(jsons: Dict<string, ProjectInfo>): (r: CheckResult)
    requires jsons.Valid()
    ensures r.Passed? || r.Inconclusive? || r.Crash?
    ensures r.Crash? <==> exists n :: n in jsons.values && Unscannable(jsons.values[n])
    ensures r.Inconclusive? <==> !r.Crash? && exists n :: n in jsons.values && HasExternal(jsons.values[n])
    ensures r.Inconclusive? ==> forall n :: n in r.projects <==> n in jsons.values && HasExternal(jsons.values[n])
  {
    SomeItem(jsons, Unscannable);
    SomeItem(jsons, HasExternal);
    match ExternalReferences(Items(jsons))
    case Failure(e) => Crash(e)
    case Success(names) =>
      ExternalNames(jsons, names);
      if |names| > 0 then Inconclusive(names) else Passed
  }

  /** Some entry of the registry has property `p` exactly when some item of `Items` has it. */
  lemma SomeItem(jsons: Dict<string, ProjectInfo>, p: ProjectInfo -> bool)
    requires jsons.Valid()
    ensures (exists i :: 0 <= i < |Items(jsons)| && p(Items(jsons)[i].1)) <==> (exists n :: n in jsons.values && p(jsons.values[n]))
  {
    var items := Items(jsons);
    if n :| n in jsons.values && p(jsons.values[n]) {
      var i :| 0 <= i < |jsons.keys| && jsons.keys[i] == n;
      assert p(items[i].1);
    }
  }

  lemma ExternalNames(jsons: Dict<string, ProjectInfo>, names: seq<string>)
    requires jsons.Valid()
    requires ExternalReferences(Items(jsons)) == Success(names)
    ensures forall n :: n in names <==> n in jsons.values && HasExternal(jsons.values[n])
    ensures |names| > 0 <==> exists n :: n in jsons.values && HasExternal(jsons.values[n])
  {
    var items := Items(jsons);
    if |names| > 0 {
      assert names[0] in names;
    }
    forall n | n in jsons.values && HasExternal(jsons.values[n])
      ensures n in names
    {
      var i :| 0 <= i < |jsons.keys| && jsons.keys[i] == n;
      assert items[i].0 == n && HasExternal(items[i].1);
    }
  }
}

=== FILE: dicts.dfy ===
/**
  Python dictionaries keep their keys in insertion order, and the checks of the
  deployment script report the FIRST offending entry in that order. This module
  models such a dictionary as the sequence of its keys plus the key/value map.
 */
module Dicts {

  datatype Dict<K(==), V> = Dict(keys: seq<K>, values: map<K, V>) {

    /** Keys are distinct and are exactly the keys of the map. */
    ghost predicate Valid() {
      && (forall i, j :: 0 <= i < j < |keys| ==> keys[i] != keys[j])
      && values.Keys == (set i | 0 <= i < |keys| :: keys[i])
    }
  }

  function Empty<K(==), V>(): (d: Dict<K, V>)
    ensures d.Valid() && |d.keys| == 0 && d.values == map[]
  {
    Dict([], map[])
  }

  /**
    `d[k] = v`: an existing key keeps its position and gets the new value,
    a new key is appended at the end.
   */
  function Put<K(==), V>(d: Dict<K, V>, k: K, v: V): (r: Dict<K, V>)
    requires d.Valid()
    ensures r.Valid()
    ensures r.values == d.values[k := v]
    ensures k in d.values ==> r.keys == d.keys
    ensures k !in d.values ==> r.keys == d.keys + [k]
  {
    if k in d.values then Dict(d.keys, d.values[k := v])
    else
      AppendKey(d.keys, k);
      Dict(d.keys + [k], d.values[k := v])
  }

  /** The key set of an extended key sequence. */
  lemma AppendKey<K>(keys: seq<K>, k: K)
    ensures (set i | 0 <= i < |keys + [k]| :: (keys + [k])[i]) == (set i | 0 <= i < |keys| :: keys[i]) + {k}
  {
    var ks := keys + [k];
    var before := set i | 0 <= i < |keys| :: keys[i];
    var after := set i | 0 <= i < |ks| :: ks[i];
    forall x | x in before
      ensures x in after
    {
      var i :| 0 <= i < |keys| && keys[i] == x;
      assert ks[i] == x;
    }
    assert ks[|keys|] == k;
  }

  /** `d.items()`: the key/value pairs in insertion order. */
  function Items<K(==), V>(d: Dict<K, V>): (items: seq<(K, V)>)
    requires d.Valid()
    ensures |items| == |d.keys|
    ensures forall i :: 0 <= i < |items| ==> items[i].0 == d.keys[i] && items[i].0 in d.values && items[i].1 == d.values[items[i].0]
  {
    seq(|d.keys|, i requires 0 <= i < |d.keys| => (d.keys[i], d.values[d.keys[i]]))
  }

  /** Every entry of the map occurs among the items, and the items are exactly the entries. */
  lemma ItemsAreEntries<K, V>(d: Dict<K, V>)
    requires d.Valid()
    ensures forall k :: k in d.values ==> (k, d.values[k]) in Items(d)
    ensures forall e :: e in Items(d) ==> e.0 in d.values && e.1 == d.values[e.0]
  {
    var items := Items(d);
    forall k | k in d.values
      ensures (k, d.values[k]) in items
    {
      var i :| 0 <= i < |d.keys| && d.keys[i] == k;
      assert items[i] == (k, d.values[k]);
    }
  }

  /** `{k: f(k, v) for k, v in d.items()}`: same keys in the same order, each value transformed. */
  function MapValues<K(==), V>(d: Dict<K, V>, f: (K, V) -> V): (r: Dict<K, V>)
    requires d.Valid()
    ensures r.Valid() && r.keys == d.keys && r.values.Keys == d.values.Keys
    ensures forall k :: k in d.values ==> r.values[k] == f(k, d.values[k])
  {
    Dict(d.keys, map k | k in d.values :: f(k, d.values[k]))
  }
}

=== FILE: pipeline.dfy ===
/**
  The classifiers of the horizontal deployment entry point: which server is
  the source and which the target, which changed files are configurations,
  whether a commit mixes release and content work, and which script each
  configuration is handed to.
 */
module Pipeline {
  import opened Base
  import opened Dicts
  import opened Text

  // ---------------------------------------------------------------------------
  // Servers

  datatype Server = Prod | Test | Dev | Tmpl | TmplTC

  /** The entries of `cb_server`. */
  function Url(s: Server): string {
    match s
    case Prod => "https://codebeamer-poc-prod.azurewebsites.net"
    case Test => "https://codebeamer-poc-test.azurewebsites.net"
    case Dev => "https://codebeamer-poc-dev.azurewebsites.net"
    case Tmpl => "https://codebeamer-poc-template-tmpl.azurewebsites.net"
    case TmplTC => "https://codebeamer-poc-template-tc.azurewebsites.net"
  }

  /** The five servers have five different addresses. */
  lemma UrlInjective(s: Server, t: Server)
    requires s != t
    ensures Url(s) != Url(t)
  {
    var u, v := Url(s), Url(t);
    if |u| == |v| {
      assert u[23] != v[23];
    }
  }

  /**
    `determine_source_stage`, with the environment variable
    `Build_Repository_Name` as `repo` (None when it is not set).
   */
  function DetermineSourceStage(repo: Option<string>): (s: Server)
    ensures s == TmplTC <==> repo == Some("cb-templates-tc")
    ensures s == Tmpl || s == TmplTC
  {
    if repo == Some("cb-templates-tc") then TmplTC else Tmpl
  }

  /**
    `determine_target_stage`, with `Build_Repository_Name` as `repo` and
    `Build_SourceBranchName` as `branch`; None stands for the empty target
    address of any other repository.
   */
  function DetermineTargetStage(repo: Option<string>, branch: Option<string>): (t: Option<Server>)
    ensures t.Some? <==> repo == Some("cb-templates-tmpl") || repo == Some("cb-templates-tc")
    ensures t == Some(Prod) <==> repo == Some("cb-templates-tmpl") && branch == Some("main")
    ensures t == Some(Tmpl) <==> repo == Some("cb-templates-tc") && branch == Some("main")
    ensures t == Some(Test) <==> repo == Some("cb-templates-tmpl") && branch != Some("main")
    ensures t == Some(Dev) <==> repo == Some("cb-templates-tc") && branch != Some("main")
  {
    if repo == Some("cb-templates-tmpl") then
      if branch != Some("main") then Some(Test) else Some(Prod)
    else if repo == Some("cb-templates-tc") then
      if branch != Some("main") then Some(Dev) else Some(Tmpl)
    else None
  }

  /** The target address: the server's address, or "" for any other repository. */
  function TargetUrl(t: Option<Server>): string {
    if t.Some? then Url(t.value) else ""
  }

  /** A deployment never writes into the server it reads from, whatever the repository and branch. */
  lemma TargetIsNeverSource(repo: Option<string>, branch: Option<string>)
    ensures TargetUrl(DetermineTargetStage(repo, branch)) != Url(DetermineSourceStage(repo))
  {
    var t := DetermineTargetStage(repo, branch);
    var s := DetermineSourceStage(repo);
    if t.Some? {
      assert t.value != s;
      UrlInjective(t.value, s);
    } else {
      assert |Url(s)| > 0;
    }
  }

  /** Only the production server of the template repository is written from `main` of "cb-templates-tmpl". */
  lemma ProductionOnlyFromMain(repo: Option<string>, branch: Option<string>)
    ensures DetermineTargetStage(repo, branch) == Some(Prod) ==> branch == Some("main")
  {
  }

  // ---------------------------------------------------------------------------
  // Changed files

  /** One entry of the commit diff: its change type and its path after the change (`b_path`). */
  datatype Diff = Diff(changeType: string, path: string)

  /** `modified_or_added`. */
  predicate ModifiedOrAdded(d: Diff) {
    d.changeType == "M" || d.changeType == "A"
  }

  /** The lower-cased path ends in ".yaml" or ".yml". */
  predicate IsConfigPath(path: string) {
    EndsWith(Lower(path), ".yaml") || EndsWith(Lower(path), ".yml")
  }

  predicate Selected(d: Diff) {
    ModifiedOrAdded(d) && IsConfigPath(d.path)
  }

  /**
    `files_in_diff`: the modified or added YAML files, each once, in the
    order of their first appearance in the diff.
   */
  function ConfigFiles(diffs: seq<Diff>): (files: Dict<string, bool>)
    ensures files.Valid()
    ensures forall f :: f in files.values <==> exists i :: 0 <= i < |diffs| && Selected(diffs[i]) && diffs[i].path == f
    ensures |files.keys| <= |diffs|
    decreases |diffs|
  {
    if |diffs| == 0 then Empty()
    else
      var prev := ConfigFiles(diffs[..|diffs| - 1]);
      var d := diffs[|diffs| - 1];
      assert forall i :: 0 <= i < |diffs| - 1 ==> diffs[..|diffs| - 1][i] == diffs[i];
      if Selected(d) then
        assert |prev.keys| <= |diffs| - 1;
        Put(prev, d.path, true)
      else prev
  }

  /** Some diff entry before index `n` is selected and has the path `f`. */
  predicate SelectedUpTo(diffs: seq<Diff>, f: string, n: int) {
    exists j :: 0 <= j < n && j < |diffs| && Selected(diffs[j]) && diffs[j].path == f
  }

  /** `f` is selected at some index before `g` is first selected. */
  predicate FirstBefore(diffs: seq<Diff>, f: string, g: string) {
    exists i :: 0 <= i < |diffs| && Selected(diffs[i]) && diffs[i].path == f && !SelectedUpTo(diffs, g, i)
  }

  /** Each file in `files` first appears in the diff before every later one. */
  predicate InFirstAppearanceOrder(diffs: seq<Diff>, files: seq<string>) {
    forall p, q :: 0 <= p < q < |files| ==> FirstBefore(diffs, files[p], files[q])
  }

  /** The selected files are kept in the order in which each first appears in the diff. */
  lemma {:induction false} ConfigFilesOrder(diffs: seq<Diff>)
    ensures InFirstAppearanceOrder(diffs, ConfigFiles(diffs).keys)
    decreases |diffs|
  {
    if |diffs| > 0 {
      var init := diffs[..|diffs| - 1];
      var d := diffs[|diffs| - 1];
      var prev := ConfigFiles(init);
      var keys := ConfigFiles(diffs).keys;
      ConfigFilesOrder(init);
      assert ConfigFiles(diffs) == (if Selected(d) then Put(prev, d.path, true) else prev);
      assert keys == prev.keys || (Selected(d) && d.path !in prev.values && keys == prev.keys + [d.path]);
      forall p, q | 0 <= p < q < |keys| ensures FirstBefore(diffs, keys[p], keys[q]) {
        if q < |prev.keys| {
          assert keys[p] == prev.keys[p] && keys[q] == prev.keys[q];
          assert InFirstAppearanceOrder(init, prev.keys);
          assert FirstBefore(init, prev.keys[p], prev.keys[q]);
          OrderKept(diffs, prev.keys[p], prev.keys[q]);
        } else {
          assert keys[q] == d.path;
          assert keys[p] == prev.keys[p] && keys[p] in prev.values;
          OrderNew(diffs, keys[p]);
        }
      }
    }
  }

  /** An order of first appearances among the earlier entries survives one more entry. */
  lemma OrderKept(diffs: seq<Diff>, f: string, g: string)
    requires 0 < |diffs| && FirstBefore(diffs[..|diffs| - 1], f, g)
    ensures FirstBefore(diffs, f, g)
  {
    var init := diffs[..|diffs| - 1];
    var i :| 0 <= i < |init| && Selected(init[i]) && init[i].path == f && !SelectedUpTo(init, g, i);
    PrefixUpTo(diffs, |diffs| - 1, g, i);
    assert diffs[i] == init[i];
  }

  /** A file selected from the earlier entries comes before the path of a last entry that is new. */
  lemma OrderNew(diffs: seq<Diff>, f: string)
    requires 0 < |diffs| && f in ConfigFiles(diffs[..|diffs| - 1]).values
    requires diffs[|diffs| - 1].path !in ConfigFiles(diffs[..|diffs| - 1]).values
    ensures FirstBefore(diffs, f, diffs[|diffs| - 1].path)
  {
    var init := diffs[..|diffs| - 1];
    var i :| 0 <= i < |init| && Selected(init[i]) && init[i].path == f;
    assert diffs[i] == init[i];
    NotSelectedUpTo(diffs, diffs[|diffs| - 1].path, i);
  }

  /** Up to an index inside a prefix, the prefix and the whole diff have the same selected paths. */
  lemma PrefixUpTo(diffs: seq<Diff>, n: nat, g: string, i: nat)
    requires i <= n <= |diffs|
    ensures SelectedUpTo(diffs[..n], g, i) <==> SelectedUpTo(diffs, g, i)
  {
    if SelectedUpTo(diffs, g, i) {
      var j :| 0 <= j < i && j < |diffs| && Selected(diffs[j]) && diffs[j].path == g;
      assert diffs[..n][j] == diffs[j];
    }
  }

  /** A path not among the files selected from the first `|diffs| - 1` entries is not selected before any index there. */
  lemma NotSelectedUpTo(diffs: seq<Diff>, g: string, i: nat)
    requires 0 < |diffs| && i < |diffs|
    requires g !in ConfigFiles(diffs[..|diffs| - 1]).values
    ensures !SelectedUpTo(diffs, g, i)
  {
    var init := diffs[..|diffs| - 1];
    forall j | 0 <= j < i ensures !(Selected(diffs[j]) && diffs[j].path == g) {
      assert init[j] == diffs[j];
    }
  }

  /** The lower-cased path mentions "content.". */
  predicate MentionsContent(path: string) {
    Contains(Lower(path), "content.")
  }

  /** The lower-cased path mentions "release.". */
  predicate MentionsRelease(path: string) {
    Contains(Lower(path), "release.")
  }

  /** The scan of `is_mixed_commit` from index `i` on, with the flags found so far. */
  function MixedScan(diffs: seq<Diff>, i: nat, content: bool, release: bool): (mixed: bool)
    requires i <= |diffs|
    ensures mixed <==> (content || exists k :: i <= k < |diffs| && MentionsContent(diffs[k].path))
                       && (release || exists k :: i <= k < |diffs| && !MentionsContent(diffs[k].path) && MentionsRelease(diffs[k].path))
    decreases |diffs| - i
  {
    if i == |diffs| then release && content
    else
      var p := diffs[i].path;
      if MentionsContent(p) then MixedScan(diffs, i + 1, true, release)
      else if MentionsRelease(p) then MixedScan(diffs, i + 1, content, true)
      else MixedScan(diffs, i + 1, content, release)
  }

  /**
    `is_mixed_commit`, over every entry of the diff (deleted files too): some
    path mentions "content." and another mentions "release." but not
    "content.". A single path that mentions both counts as content only.
   */
  function IsMixedCommit(diffs: seq<Diff>): (mixed: bool)
    ensures mixed <==> (exists k :: 0 <= k < |diffs| && MentionsContent(diffs[k].path))
                       && (exists k :: 0 <= k < |diffs| && !MentionsContent(diffs[k].path) && MentionsRelease(diffs[k].path))
  {
    MixedScan(diffs, 0, false, false)
  }

  /** A commit that touches one file is never mixed, even "release.content.yaml". */
  lemma SingleFileNotMixed(d: Diff)
    ensures !IsMixedCommit([d])
  {
  }

  // ---------------------------------------------------------------------------
  // Dispatch

  datatype Script = ReleaseScript | ContentScript | Ignored

  /** Which script a configuration goes to, by the lower-cased prefix of its file name. */
  function ScriptOf(path: string): (s: Script)
    ensures s == ReleaseScript <==> StartsWith(Lower(BaseName(path)), "release.")
    ensures s == ContentScript <==> !StartsWith(Lower(BaseName(path)), "release.") && StartsWith(Lower(BaseName(path)), "content.")
  {
    var name := Lower(BaseName(path));
    if StartsWith(name, "release.") then ReleaseScript
    else if StartsWith(name, "content.") then ContentScript
    else Ignored
  }

  /** One script run: the configuration and the script it was handed to. */
  datatype Run = Run(config: string, script: Script)

  /** The end of `main`. */
  datatype MainOutcome =
    | MixedPipeline                           // ValueError: release and content in one commit
    | YamlError(config: string, ran: seq<Run>)  // a configuration that does not load escapes the loop
    | Finished(ran: seq<Run>, exitCode: int)  // 1 when some script raised, 0 otherwise

  /** What the dispatch loop did: the script runs in order, the configuration that failed to load (if any), and whether some script raised. */
  datatype Dispatched = Dispatched(ran: seq<Run>, yamlError: Option<string>, failed: bool)

  /** The runs the files with a script get, in the order of the files: the loop when every configuration loads. */
  function Scripted(files: seq<string>, classify: string -> Script): (r: seq<Run>)
    ensures forall q :: 0 <= q < |r| ==> r[q].config in files && r[q].script != Ignored && r[q].script == classify(r[q].config)
    ensures forall k :: 0 <= k < |files| && classify(files[k]) != Ignored ==> Run(files[k], classify(files[k])) in r
  {
    if |files| == 0 then []
    else
      var rest := Scripted(files[1..], classify);
      assert forall f :: f in files[1..] ==> f in files;
      assert forall k :: 1 <= k < |files| ==> files[k] == files[1..][k - 1];
      (if classify(files[0]) == Ignored then [] else [Run(files[0], classify(files[0]))]) + rest
  }

  /** The first file's run, if it has a script, comes before the runs of the others. */
  lemma ScriptedCons(files: seq<string>, classify: string -> Script)
    requires |files| > 0
    ensures Scripted(files, classify)
            == (if classify(files[0]) == Ignored then [] else [Run(files[0], classify(files[0]))]) + Scripted(files[1..], classify)
  {
  }

  /** The runs of two stretches of files are those of the first followed by those of the second. */
  lemma {:induction false} ScriptedAppend(a: seq<string>, b: seq<string>, classify: string -> Script)
    ensures Scripted(a + b, classify) == Scripted(a, classify) + Scripted(b, classify)
  {
    if |a| > 0 {
      var c := a + b;
      assert c[0] == a[0];
      assert c[1..] == a[1..] + b;
      ScriptedCons(c, classify);
      ScriptedCons(a, classify);
      ScriptedAppend(a[1..], b, classify);
    } else {
      assert a + b == b;
    }
  }

  /** No file occurs twice. */
  predicate Distinct(files: seq<string>) {
    forall i, j :: 0 <= i < j < |files| ==> files[i] != files[j]
  }

  /** No configuration runs twice. */
  predicate RunsOnce(ran: seq<Run>) {
    forall p, q :: 0 <= p < q < |ran| ==> ran[p].config != ran[q].config
  }

  /** Distinct files run at most once each. */
  lemma {:induction false} ScriptedOnce(files: seq<string>, classify: string -> Script)
    requires Distinct(files)
    ensures RunsOnce(Scripted(files, classify))
  {
    if |files| > 0 {
      var tail := files[1..];
      assert Distinct(tail) by {
        forall i, j | 0 <= i < j < |tail| ensures tail[i] != tail[j] {
          assert tail[i] == files[i + 1] && tail[j] == files[j + 1];
        }
      }
      ScriptedOnce(tail, classify);
      var rest := Scripted(tail, classify);
      forall q | 0 <= q < |rest| ensures rest[q].config != files[0] {
        var k :| 0 <= k < |tail| && tail[k] == rest[q].config;
        assert tail[k] == files[k + 1];
      }
      var h := if classify(files[0]) == Ignored then [] else [Run(files[0], classify(files[0]))];
      ConsOnce(h, rest, files[0]);
    }
  }

  /** Putting runs of one configuration before runs of others keeps every configuration running once. */
  lemma ConsOnce(h: seq<Run>, rest: seq<Run>, f: string)
    requires |h| <= 1 && (forall p :: 0 <= p < |h| ==> h[p].config == f)
    requires RunsOnce(rest) && forall q :: 0 <= q < |rest| ==> rest[q].config != f
    ensures RunsOnce(h + rest)
  {
    var r := h + rest;
    forall p, q | 0 <= p < q < |r| ensures r[p].config != r[q].config {
      assert r[q] == rest[q - |h|];
      if p >= |h| {
        assert r[p] == rest[p - |h|];
      } else {
        assert r[p] == h[p];
      }
    }
  }

  /** `files[k]` is the first configuration from index `i` on that does not load. */
  ghost predicate FirstNotLoading(files: seq<string>, i: nat, loads: string -> bool, k: int) {
    i <= k < |files| && !loads(files[k]) && forall j :: i <= j < k ==> loads(files[j])
  }

  /**
    The dispatch loop over `files` from index `i` on: `classify` picks the
    script, `loads` says which configurations load, `succeeds` which script
    runs do not raise.
   */
  function DispatchFrom(files: seq<string>, i: nat, classify: string -> Script, loads: string -> bool, succeeds: Run -> bool): (d: Dispatched)
    requires i <= |files|
    ensures d.yamlError.Some? <==> exists k :: i <= k < |files| && !loads(files[k])
    ensures d.yamlError.Some? ==> exists k :: FirstNotLoading(files, i, loads, k) && d.yamlError.value == files[k]
                                               && d.ran == Scripted(files[i..k], classify)
    ensures d.yamlError.None? ==> d.ran == Scripted(files[i..], classify)
    ensures d.failed <==> SomeRaised(d.ran, succeeds)
    decreases |files| - i
  {
    if i == |files| then Dispatched([], None, false)
    else
      var f := files[i];
      if !loads(f) then
        assert files[i..i] == [];
        Dispatched([], Some(f), false)
      else
        var rest := DispatchFrom(files, i + 1, classify, loads, succeeds);
        var s := classify(f);
        var head := if s == Ignored then [] else [Run(f, s)];
        DispatchStep(files, i, rest.yamlError.Some?, classify, loads, rest.ran, rest.yamlError);
        SomeRaisedAppend(head, rest.ran, succeeds);
        assert SomeRaised(head, succeeds) <==> s != Ignored && !succeeds(Run(f, s)) by {
          if s != Ignored { assert head[0] == Run(f, s); }
        }
        Dispatched(head + rest.ran, rest.yamlError, (s != Ignored && !succeeds(Run(f, s))) || rest.failed)
  }

  /** Some script run raised. */
  predicate SomeRaised(ran: seq<Run>, succeeds: Run -> bool) {
    exists q :: 0 <= q < |ran| && !succeeds(ran[q])
  }

  lemma SomeRaisedAppend(a: seq<Run>, b: seq<Run>, succeeds: Run -> bool)
    ensures SomeRaised(a + b, succeeds) <==> SomeRaised(a, succeeds) || SomeRaised(b, succeeds)
  {
    if SomeRaised(b, succeeds) {
      var q :| 0 <= q < |b| && !succeeds(b[q]);
      assert (a + b)[|a| + q] == b[q];
    }
    if SomeRaised(a, succeeds) {
      var q :| 0 <= q < |a| && !succeeds(a[q]);
      assert (a + b)[q] == a[q];
    }
    if SomeRaised(a + b, succeeds) {
      var q :| 0 <= q < |a + b| && !succeeds((a + b)[q]);
      if q < |a| { assert (a + b)[q] == a[q]; } else { assert (a + b)[q] == b[q - |a|]; }
    }
  }

  /** Prepending a loading file to the rest of the loop prepends its run, if any. */
  lemma DispatchStep(files: seq<string>, i: nat, stopped: bool, classify: string -> Script, loads: string -> bool,
                     ran: seq<Run>, yamlError: Option<string>)
    requires i < |files| && loads(files[i]) && stopped == yamlError.Some?
    requires yamlError.Some? ==> exists k :: FirstNotLoading(files, i + 1, loads, k) && yamlError.value == files[k]
                                              && ran == Scripted(files[i + 1..k], classify)
    requires yamlError.None? ==> ran == Scripted(files[i + 1..], classify)
    ensures var head := if classify(files[i]) == Ignored then [] else [Run(files[i], classify(files[i]))];
            && (yamlError.Some? ==> exists k :: FirstNotLoading(files, i, loads, k) && yamlError.value == files[k]
                                                && head + ran == Scripted(files[i..k], classify))
            && (yamlError.None? ==> head + ran == Scripted(files[i..], classify))
  {
    if yamlError.Some? {
      var k :| FirstNotLoading(files, i + 1, loads, k) && yamlError.value == files[k] && ran == Scripted(files[i + 1..k], classify);
      assert files[i..k][0] == files[i] && files[i..k][1..] == files[i + 1..k];
      assert FirstNotLoading(files, i, loads, k);
    } else {
      assert files[i..][0] == files[i] && files[i..][1..] == files[i + 1..];
    }
  }

  /**
    The dispatch part of `main`: a mixed commit raises before any script
    runs; otherwise every selected configuration is loaded and handed to
    its script in order, and the exit code is 1 exactly when some script
    raised.
   */
  function RunMain(diffs: seq<Diff>, loads: string -> bool, succeeds: Run -> bool): (r: MainOutcome)
    ensures r.MixedPipeline? <==> IsMixedCommit(diffs)
    ensures r.YamlError? ==> r.config in ConfigFiles(diffs).values && !loads(r.config)
    ensures r.YamlError? ==> exists k :: FirstNotLoading(ConfigFiles(diffs).keys, 0, loads, k) && r.config == ConfigFiles(diffs).keys[k]
                                         && r.ran == Scripted(ConfigFiles(diffs).keys[..k], ScriptOf)
    ensures r.Finished? ==> forall f :: f in ConfigFiles(diffs).values ==> loads(f)
    ensures r.Finished? ==> r.ran == Scripted(ConfigFiles(diffs).keys, ScriptOf)
    ensures r.Finished? ==> RunsOnce(r.ran)
    ensures r.Finished? ==> forall q :: 0 <= q < |r.ran| ==> r.ran[q].config in ConfigFiles(diffs).values && r.ran[q].script == ScriptOf(r.ran[q].config) != Ignored
    ensures r.Finished? ==> forall f :: f in ConfigFiles(diffs).values && ScriptOf(f) != Ignored ==> Run(f, ScriptOf(f)) in r.ran
    ensures r.Finished? ==> (r.exitCode == 1 <==> SomeRaised(r.ran, succeeds))
    ensures r.Finished? ==> r.exitCode == 0 || r.exitCode == 1
  {
    if IsMixedCommit(diffs) then MixedPipeline
    else
      var files := ConfigFiles(diffs);
      var d := DispatchFrom(files.keys, 0, ScriptOf, loads, succeeds);
      assert files.keys[0..] == files.keys;
      assert forall f :: f in files.values ==> exists k :: 0 <= k < |files.keys| && files.keys[k] == f;
      if d.yamlError.Some? then
        assert forall k :: 0 <= k <= |files.keys| ==> files.keys[0..k] == files.keys[..k];
        YamlError(d.yamlError.value, d.ran)
      else
        ScriptedOnce(files.keys, ScriptOf);
        Finished(d.ran, if d.failed then 1 else 0)
  }
}

=== FILE: registry.dfy ===
/**
  The artifact registry of the horizontal deployment: `deployment_jsons` maps a
  project name to its info record, `deployment_zips` maps a deployment ZIP path
  to the projects found in it.
 */
module Registry {
  import opened Base
  import opened Dicts

  type Path = string

  /** One entry of a project's `crossReferences` list, reduced to the keys the checks read. */
  datatype CrossRef = CrossRef(projectId: Option<int>, projectName: Option<string>, path: Option<string>)

  /** The `project` object of a project JSON found inside a deployment ZIP. */
  datatype ProjectJson = ProjectJson(name: string, keyName: string, crossReferences: Option<seq<CrossRef>>)

  /**
    The info record kept per project. `deployed` stands for "deployment-result":
    true for a successful deployment, false for `None` (not yet deployed, or failed).
   */
  datatype ProjectInfo = ProjectInfo(
    name: string,
    id: int,
    originalId: int,
    deployed: bool,
    json: ProjectJson,
    zip: Path,
    projectFile: string)

  /**
    `deployment_zips` holds, per ZIP, the list of one-entry dictionaries
    `{name: info}`; those share the info records of `deployment_jsons`, so the
    model keeps only the project names.
   */
  datatype Registry = Registry(jsons: Dict<string, ProjectInfo>, zips: Dict<Path, seq<string>>) {
    ghost predicate Valid() {
      jsons.Valid() && zips.Valid()
    }
  }

  /** A project on the target server, as listed by `get_projects()`. */
  datatype RemoteProject = RemoteProject(name: string, id: int)

  /** The registry after `store_project_info`, and whether the ZIP was unknown (a `KeyError` after `deployment_jsons` was already updated). */
  datatype Stored = Stored(registry: Registry, zipMissing: bool)

  /**
    Records the project JSON `json` read from `fileName` inside the ZIP
    `commitFile`: a fresh info record (ids 0, no deployment result) replaces
    any earlier one of the same name, and the name is appended to the ZIP's list.
   */
  function StoreProjectInfo(reg: Registry, commitFile: Path, json: ProjectJson, fileName: string): (r: Stored)
    requires reg.Valid()
    ensures r.registry.Valid()
    ensures r.zipMissing <==> commitFile !in reg.zips.values
    ensures json.name in r.registry.jsons.values
    ensures var p := r.registry.jsons.values[json.name];
            && p.name == json.name && p.json == json && p.zip == commitFile && p.projectFile == fileName
            && p.id == 0 && p.originalId == 0 && !p.deployed
    ensures forall n :: n in reg.jsons.values && n != json.name ==>
              n in r.registry.jsons.values && r.registry.jsons.values[n] == reg.jsons.values[n]
    ensures r.registry.jsons.values.Keys == reg.jsons.values.Keys + {json.name}
    ensures json.name in reg.jsons.values ==> r.registry.jsons.keys == reg.jsons.keys
    ensures r.registry.zips.keys == reg.zips.keys
    ensures commitFile in reg.zips.values ==>
              r.registry.zips.values == reg.zips.values[commitFile := reg.zips.values[commitFile] + [json.name]]
    ensures commitFile !in reg.zips.values ==> r.registry.zips == reg.zips
  {
    var info := ProjectInfo(json.name, 0, 0, false, json, commitFile, fileName);
    var jsons := Put(reg.jsons, json.name, info);
    if commitFile in reg.zips.values then
      Stored(Registry(jsons, Put(reg.zips, commitFile, reg.zips.values[commitFile] + [json.name])), false)
    else
      Stored(Registry(jsons, reg.zips), true)
  }

  /**
    `get_projects_by_name`: registered projects that the target server lists
    under the same name take that server project's id; nothing but ids changes.
    Which id a project ends up with is stated by `ResolvedId`.
   */
  function GetProjectsByName(jsons: Dict<string, ProjectInfo>, server: seq<RemoteProject>): (r: Dict<string, ProjectInfo>)
    requires jsons.Valid()
    ensures r.Valid() && r.keys == jsons.keys && r.values.Keys == jsons.values.Keys
    ensures forall n :: n in jsons.values ==> r.values[n] == jsons.values[n].(id := r.values[n].id)
    decreases |server|
  {
    if |server| == 0 then jsons
    else
      var prev := GetProjectsByName(jsons, server[..|server| - 1]);
      var p := server[|server| - 1];
      if p.name in prev.values then Put(prev, p.name, prev.values[p.name].(id := p.id)) else prev
  }

  /** One step of the resolution: the last server project listed only touches the record of its own name. */
  lemma ResolveStep(jsons: Dict<string, ProjectInfo>, server: seq<RemoteProject>, n: string)
    requires jsons.Valid() && n in jsons.values && |server| > 0
    ensures var prev := GetProjectsByName(jsons, server[..|server| - 1]);
            var p := server[|server| - 1];
            GetProjectsByName(jsons, server).values[n]
              == if p.name == n then prev.values[n].(id := p.id) else prev.values[n]
  {
  }

  /** A registered project that the server does not list keeps its record. */
  lemma {:induction false} ResolvedUnlisted(jsons: Dict<string, ProjectInfo>, server: seq<RemoteProject>, n: string)
    requires jsons.Valid() && n in jsons.values
    requires forall k :: 0 <= k < |server| ==> server[k].name != n
    ensures GetProjectsByName(jsons, server).values[n] == jsons.values[n]
    decreases |server|
  {
    if |server| > 0 {
      var prefix := server[..|server| - 1];
      assert forall k :: 0 <= k < |prefix| ==> prefix[k] == server[k];
      ResolvedUnlisted(jsons, prefix, n);
      ResolveStep(jsons, server, n);
    }
  }

  /** A registered project that the server lists takes the id of the LAST server project of that name. */
  lemma {:induction false} ResolvedListed(jsons: Dict<string, ProjectInfo>, server: seq<RemoteProject>, n: string, k: nat)
    requires jsons.Valid() && n in jsons.values
    requires k < |server| && server[k].name == n
    requires forall k' :: k < k' < |server| ==> server[k'].name != n
    ensures GetProjectsByName(jsons, server).values[n] == jsons.values[n].(id := server[k].id)
    decreases |server|
  {
    var prefix := server[..|server| - 1];
    assert forall i :: 0 <= i < |prefix| ==> prefix[i] == server[i];
    ResolveStep(jsons, server, n);
    if k < |server| - 1 {
      ResolvedListed(jsons, prefix, n, k);
    }
  }

  /** `store_original_project_id`: every record's original id becomes its current id. */
  function StoreOriginalProjectId(jsons: Dict<string, ProjectInfo>): (r: Dict<string, ProjectInfo>)
    requires jsons.Valid()
    ensures r.Valid() && r.keys == jsons.keys && r.values.Keys == jsons.values.Keys
    ensures forall n :: n in jsons.values ==>
              r.values[n].originalId == jsons.values[n].id
              && r.values[n] == jsons.values[n].(originalId := r.values[n].originalId)
  {
    MapValues(jsons, (n: string, p: ProjectInfo) => p.(originalId := p.id))
  }

  /** `store_deployment_result`: the projects that came from `zipFilename` get `result`; no other record changes. */
  function StoreDeploymentResult(jsons: Dict<string, ProjectInfo>, zipFilename: Path, result: bool): (r: Dict<string, ProjectInfo>)
    requires jsons.Valid()
    ensures r.Valid() && r.keys == jsons.keys && r.values.Keys == jsons.values.Keys
    ensures forall n :: n in jsons.values && jsons.values[n].zip == zipFilename ==>
              r.values[n].deployed == result
              && r.values[n] == jsons.values[n].(deployed := r.values[n].deployed)
    ensures forall n :: n in jsons.values && jsons.values[n].zip != zipFilename ==>
              r.values[n] == jsons.values[n]
  {
    MapValues(jsons, (n: string, p: ProjectInfo) => if p.zip == zipFilename then p.(deployed := result) else p)
  }

  /** Index of the last server project named `n`, when there is one. */
  function LastNamed(server: seq<RemoteProject>, n: string): (k: int)
    requires exists k :: 0 <= k < |server| && server[k].name == n
    ensures 0 <= k < |server| && server[k].name == n
    ensures forall k' :: k < k' < |server| ==> server[k'].name != n
  {
    if server[|server| - 1].name == n then |server| - 1
    else
      assert forall k :: 0 <= k < |server| && server[k].name == n ==> k < |server| - 1;
      assert server[..|server| - 1][0] == server[0];
      var k :| 0 <= k < |server| && server[k].name == n;
      assert server[..|server| - 1][k] == server[k];
      LastNamed(server[..|server| - 1], n)
  }

  /** Copying the current ids a second time changes nothing. */
  lemma StoreOriginalProjectIdIdempotent(jsons: Dict<string, ProjectInfo>)
    requires jsons.Valid()
    ensures StoreOriginalProjectId(StoreOriginalProjectId(jsons)) == StoreOriginalProjectId(jsons)
  {
    var once := StoreOriginalProjectId(jsons);
    var twice := StoreOriginalProjectId(once);
    assert twice.values == once.values;
  }

  /**
    The post-processing reads an original id of 0 as "new or renamed project".
    Starting from freshly stored records (id 0) and a server whose ids are
    positive, that reading is exact: after resolving the ids and copying them,
    a project's original id is 0 iff the server lists no project of that name.
   */
  lemma OriginalIdZeroIffNotOnServer(jsons: Dict<string, ProjectInfo>, server: seq<RemoteProject>, n: string)
    requires jsons.Valid()
    requires n in jsons.values && jsons.values[n].id == 0
    requires forall k :: 0 <= k < |server| ==> server[k].id > 0
    ensures var r := StoreOriginalProjectId(GetProjectsByName(jsons, server));
            r.values[n].originalId == 0 <==> forall k :: 0 <= k < |server| ==> server[k].name != n
  {
    if exists k :: 0 <= k < |server| && server[k].name == n {
      ResolvedListed(jsons, server, n, LastNamed(server, n));
    } else {
      ResolvedUnlisted(jsons, server, n);
    }
  }
}

=== FILE: release.dfy ===
/**
  Release planning: which steps a release of a project runs on which branch,
  the names of the baselines and export paths it creates, and the
  dependency loop of a full deployment. Every server call is an action of
  the resulting plan.
 */
module Release {
  import opened Base
  import opened Dicts
  import opened Text

  /** A YAML scalar, as far as `is True` can tell them apart. */
  datatype Value = Bool(b: bool) | Int(i: int) | Str(s: string) | Null

  /** The parts of a `release.yaml` the planning reads; a key that is absent is None. */
  datatype ReleaseYaml = ReleaseYaml(
    project: string,
    version: string,                  // project_version
    deployDependencies: Option<Value>,
    exclude: Option<Value>)           // exclude_from_productive_deployment

  datatype Side = SourceServer | TargetServer

  /** A server call of the release. */
  datatype Action =
    | Baseline(side: Side, project: string, name: string)
    | Export(project: string, path: string, withDependencies: Value)  // template and deployment zips, uploaded under `path`
    | Deploy(project: string, version: string)                         // horizontal deployment of the version's zip, trackers made templates
    | PublishBase(project: string, version: string)                    // template.deployment.zip, template.zip, projectBase.zip

  // ---------------------------------------------------------------------------
  // Names

  /** `_get_project_path`. */
  function ProjectPath(project: string, version: string): string {
    "exports/" + project + "/" + version
  }

  /** The name `_create_baseline` gives a baseline. */
  function BaselineName(version: string, suffix: string): string {
    version + "-" + suffix
  }

  /** The version every project of a full deployment is released under. */
  function TcVersion(version: string): string {
    version + " - TC Bundle"
  }

  /** Reading an export path back into project and version. */
  function ParseProjectPath(path: string): (r: Option<(string, string)>)
    ensures r.Some? ==> StartsWith(path, "exports/") && '/' !in r.value.0
  {
    if StartsWith(path, "exports/") && '/' in path[8..] then Some((Before(path[8..], '/'), After(path[8..], '/')))
    else None
  }

  /** A project name without '/' and any version can be read back from the export path. */
  lemma ProjectPathRoundTrip(project: string, version: string)
    requires '/' !in project
    ensures ParseProjectPath(ProjectPath(project, version)) == Some((project, version))
  {
    var path := ProjectPath(project, version);
    var rest := project + "/" + version;
    assert path == "exports/" + rest;
    assert path[8..] == rest;
    assert rest[|project|] == '/';
    var b := Before(rest, '/');
    assert forall k :: 0 <= k < |project| ==> rest[k] == project[k];
    assert b == project;
    assert rest == b + ['/'] + version;
  }

  /** Two baselines of one version with different suffixes have different names. */
  lemma BaselineNameInjective(version: string, a: string, b: string)
    requires BaselineName(version, a) == BaselineName(version, b)
    ensures a == b
  {
    assert BaselineName(version, a)[|version| + 1..] == a;
    assert BaselineName(version, b)[|version| + 1..] == b;
  }

  // ---------------------------------------------------------------------------
  // The single path

  predicate OnMain(branch: Option<string>) {
    branch == Some("main")
  }

  /** `exclude_from_productive_deployment` is exactly the boolean True. */
  predicate Excluded(y: ReleaseYaml) {
    y.exclude == Some(Bool(true))
  }

  /** `create_release_artifacts`. */
  function Artifacts(y: ReleaseYaml): seq<Action> {
    [Baseline(SourceServer, y.project, BaselineName(y.version, "pre release")),
     Export(y.project, ProjectPath(y.project, y.version), y.deployDependencies.GetOr(Bool(false))),
     Baseline(SourceServer, y.project, BaselineName(y.version, "post release"))]
  }

  /** `deploy_codebeamer_project`: the pre-deployment baseline only when the target already has the project. */
  function DeploySteps(y: ReleaseYaml, targetHas: string -> bool): seq<Action> {
    (if targetHas(y.project) then [Baseline(TargetServer, y.project, BaselineName(y.version, "pre deployment"))] else [])
    + [Deploy(y.project, y.version), Baseline(TargetServer, y.project, BaselineName(y.version, "post deployment"))]
  }

  predicate HasExport(actions: seq<Action>) {
    exists k :: 0 <= k < |actions| && actions[k].Export?
  }

  predicate HasDeploy(actions: seq<Action>) {
    exists k :: 0 <= k < |actions| && actions[k].Deploy?
  }

  predicate HasPublish(actions: seq<Action>) {
    exists k :: 0 <= k < |actions| && actions[k].PublishBase?
  }

  /**
    `release_and_deploy_single_codebeamer_project`: artifacts are exported
    off main, the project is deployed unless deployment is off or it is
    excluded from production on main, and on main the deployed artifacts are
    published to the source project. Every step concerns this project.
   */
  function SinglePlan(y: ReleaseYaml, branch: Option<string>, deployProject: bool, targetHas: string -> bool): (r: seq<Action>)
    ensures forall k :: 0 <= k < |r| ==> r[k].project == y.project
    ensures forall k :: 0 <= k < |r| && r[k].Deploy? ==>
              r[k] == Deploy(y.project, y.version) && deployProject && !(OnMain(branch) && Excluded(y))
  {
    ExportPart(y, branch) + DeployPart(y, branch, deployProject, targetHas) + PublishPart(y, branch)
  }

  function ExportPart(y: ReleaseYaml, branch: Option<string>): seq<Action> {
    if !OnMain(branch) then Artifacts(y) else []
  }

  function DeployPart(y: ReleaseYaml, branch: Option<string>, deployProject: bool, targetHas: string -> bool): seq<Action> {
    if deployProject && !(OnMain(branch) && Excluded(y)) then DeploySteps(y, targetHas) else []
  }

  function PublishPart(y: ReleaseYaml, branch: Option<string>): seq<Action> {
    if OnMain(branch) then [PublishBase(y.project, y.version)] else []
  }

  /** An action of a three-part plan comes from one of its parts. */
  lemma InParts(a: seq<Action>, d: seq<Action>, p: seq<Action>)
    ensures forall k :: 0 <= k < |a| ==> (a + d + p)[k] == a[k]
    ensures forall k :: 0 <= k < |d| ==> (a + d + p)[|a| + k] == d[k]
    ensures forall k :: 0 <= k < |p| ==> (a + d + p)[|a| + |d| + k] == p[k]
  {
  }

  /** Release artifacts are exported iff the branch is not main. */
  lemma SinglePlanExports(y: ReleaseYaml, branch: Option<string>, deployProject: bool, targetHas: string -> bool)
    ensures HasExport(SinglePlan(y, branch, deployProject, targetHas)) <==> !OnMain(branch)
  {
    var a, d, p := ExportPart(y, branch), DeployPart(y, branch, deployProject, targetHas), PublishPart(y, branch);
    InParts(a, d, p);
    if !OnMain(branch) {
      assert (a + d + p)[1].Export?;
    } else {
      assert forall k :: 0 <= k < |d| ==> !d[k].Export?;
      assert |a| == 0;
    }
  }

  /** The project is deployed iff deployment is on and it is not excluded from production on main. */
  lemma SinglePlanDeploys(y: ReleaseYaml, branch: Option<string>, deployProject: bool, targetHas: string -> bool)
    ensures HasDeploy(SinglePlan(y, branch, deployProject, targetHas)) <==> deployProject && !(OnMain(branch) && Excluded(y))
  {
    var a, d, p := ExportPart(y, branch), DeployPart(y, branch, deployProject, targetHas), PublishPart(y, branch);
    InParts(a, d, p);
    if deployProject && !(OnMain(branch) && Excluded(y)) {
      assert (a + d + p)[|a| + |d| - 2].Deploy?;
    }
  }

  /** The deployed artifacts are published to the source project iff the branch is main. */
  lemma SinglePlanPublishes(y: ReleaseYaml, branch: Option<string>, deployProject: bool, targetHas: string -> bool)
    ensures HasPublish(SinglePlan(y, branch, deployProject, targetHas)) <==> OnMain(branch)
  {
    var a, d, p := ExportPart(y, branch), DeployPart(y, branch, deployProject, targetHas), PublishPart(y, branch);
    InParts(a, d, p);
    if OnMain(branch) {
      assert (a + d + p)[|a| + |d|].PublishBase?;
    } else {
      assert forall k :: 0 <= k < |d| ==> !d[k].PublishBase?;
    }
  }

  /** Deployment is on and the project is not excluded from production on main. */
  predicate Deploying(y: ReleaseYaml, branch: Option<string>, deployProject: bool) {
    deployProject && !(OnMain(branch) && Excluded(y))
  }

  /**
    Off main the plan opens with the release on the source server: the
    "VERSION-pre release" baseline, the export uploaded under
    "exports/PROJECT/VERSION" with the `deploy_dependencies` flag (False when
    absent), then the "VERSION-post release" baseline.
   */
  lemma SinglePlanReleaseSteps(y: ReleaseYaml, branch: Option<string>, deployProject: bool, targetHas: string -> bool)
    requires !OnMain(branch)
    ensures var r := SinglePlan(y, branch, deployProject, targetHas);
            && |r| >= 3
            && r[0] == Baseline(SourceServer, y.project, BaselineName(y.version, "pre release"))
            && r[1] == Export(y.project, ProjectPath(y.project, y.version), y.deployDependencies.GetOr(Bool(false)))
            && r[2] == Baseline(SourceServer, y.project, BaselineName(y.version, "post release"))
  {
    InParts(ExportPart(y, branch), DeployPart(y, branch, deployProject, targetHas), PublishPart(y, branch));
  }

  /**
    A deployment follows the release steps (if any) on the target server:
    the "VERSION-pre deployment" baseline iff the target already has the
    project, the deployment, then the "VERSION-post deployment" baseline;
    only the publication on main comes after it.
   */
  lemma SinglePlanDeploySteps(y: ReleaseYaml, branch: Option<string>, deployProject: bool, targetHas: string -> bool)
    requires Deploying(y, branch, deployProject)
    ensures var r := SinglePlan(y, branch, deployProject, targetHas);
            var n := if OnMain(branch) then 0 else 3;
            var m := if targetHas(y.project) then 1 else 0;
            && |r| == n + m + 2 + (if OnMain(branch) then 1 else 0)
            && (targetHas(y.project) ==> r[n] == Baseline(TargetServer, y.project, BaselineName(y.version, "pre deployment")))
            && r[n + m] == Deploy(y.project, y.version)
            && r[n + m + 1] == Baseline(TargetServer, y.project, BaselineName(y.version, "post deployment"))
  {
    InParts(ExportPart(y, branch), DeployPart(y, branch, deployProject, targetHas), PublishPart(y, branch));
  }

  /** On main the plan ends by publishing the deployed artifacts; without a deployment that is all it does. */
  lemma SinglePlanMainSteps(y: ReleaseYaml, branch: Option<string>, deployProject: bool, targetHas: string -> bool)
    requires OnMain(branch)
    ensures var r := SinglePlan(y, branch, deployProject, targetHas);
            && |r| > 0 && r[|r| - 1] == PublishBase(y.project, y.version)
            && (!Deploying(y, branch, deployProject) ==> r == [PublishBase(y.project, y.version)])
  {
  }

  /**
    A baseline the single path may create: one of the two release baselines
    on the source server, off main, or one of the two deployment baselines
    on the target server, when deploying, the first only where the target
    already has the project.
   */
  predicate AllowedBaseline(y: ReleaseYaml, branch: Option<string>, deployProject: bool, targetHas: string -> bool, x: Action)
    requires x.Baseline?
  {
    if x.side == SourceServer then
      !OnMain(branch)
      && (x.name == BaselineName(y.version, "pre release") || x.name == BaselineName(y.version, "post release"))
    else
      Deploying(y, branch, deployProject)
      && ((x.name == BaselineName(y.version, "pre deployment") && targetHas(y.project))
          || x.name == BaselineName(y.version, "post deployment"))
  }

  /** Every baseline in `r` may be created. */
  predicate OnlyAllowedBaselines(y: ReleaseYaml, branch: Option<string>, deployProject: bool, targetHas: string -> bool, r: seq<Action>) {
    forall k :: 0 <= k < |r| && r[k].Baseline? ==> AllowedBaseline(y, branch, deployProject, targetHas, r[k])
  }

  /** Baselines allowed in two plans are allowed in the two run one after the other. */
  lemma OnlyAllowedConcat(y: ReleaseYaml, branch: Option<string>, deployProject: bool, targetHas: string -> bool,
                          r1: seq<Action>, r2: seq<Action>)
    requires OnlyAllowedBaselines(y, branch, deployProject, targetHas, r1)
    requires OnlyAllowedBaselines(y, branch, deployProject, targetHas, r2)
    ensures OnlyAllowedBaselines(y, branch, deployProject, targetHas, r1 + r2)
  {
    forall k | 0 <= k < |r1 + r2| && (r1 + r2)[k].Baseline?
      ensures AllowedBaseline(y, branch, deployProject, targetHas, (r1 + r2)[k])
    {
      if k < |r1| {
        assert (r1 + r2)[k] == r1[k];
      } else {
        assert (r1 + r2)[k] == r2[k - |r1|];
      }
    }
  }

  /** The single path creates only the allowed baselines. */
  lemma SinglePlanBaselines(y: ReleaseYaml, branch: Option<string>, deployProject: bool, targetHas: string -> bool)
    ensures OnlyAllowedBaselines(y, branch, deployProject, targetHas, SinglePlan(y, branch, deployProject, targetHas))
  {
    var a, d, p := ExportPart(y, branch), DeployPart(y, branch, deployProject, targetHas), PublishPart(y, branch);
    assert OnlyAllowedBaselines(y, branch, deployProject, targetHas, a);
    assert OnlyAllowedBaselines(y, branch, deployProject, targetHas, d);
    assert OnlyAllowedBaselines(y, branch, deployProject, targetHas, p);
    OnlyAllowedConcat(y, branch, deployProject, targetHas, a, d);
    OnlyAllowedConcat(y, branch, deployProject, targetHas, a + d, p);
  }

  /** Every release either exports new artifacts or publishes the deployed ones, never both. */
  lemma ExportXorPublish(y: ReleaseYaml, branch: Option<string>, deployProject: bool, targetHas: string -> bool)
    ensures HasExport(SinglePlan(y, branch, deployProject, targetHas)) != HasPublish(SinglePlan(y, branch, deployProject, targetHas))
  {
    SinglePlanExports(y, branch, deployProject, targetHas);
    SinglePlanPublishes(y, branch, deployProject, targetHas);
  }

  // ---------------------------------------------------------------------------
  // The full path

  /** A `release.y*ml` file found by the directory scan, already parsed. */
  datatype YamlFile = YamlFile(path: string, config: ReleaseYaml)

  /** `files[i]` is the last file of the scan that configures `project`. */
  predicate LastFor(files: seq<YamlFile>, project: string, i: int) {
    0 <= i < |files| && files[i].config.project == project
    && forall j :: i < j < |files| ==> files[j].config.project != project
  }

  /** `m` maps exactly the projects the scan configures. */
  ghost predicate CoversScan(files: seq<YamlFile>, m: Dict<string, YamlFile>) {
    forall p :: p in m.values <==> exists i :: 0 <= i < |files| && files[i].config.project == p
  }

  /** `m` maps each project to the last file of the scan that configures it. */
  ghost predicate LastWins(files: seq<YamlFile>, m: Dict<string, YamlFile>) {
    forall p :: p in m.values ==> exists i :: LastFor(files, p, i) && m.values[p] == files[i]
  }

  /** `get_yaml_to_project_name_mapping` before its emptiness check: project name to the file that configures it, later files winning. */
  function YamlMap(files: seq<YamlFile>): (m: Dict<string, YamlFile>)
    ensures m.Valid() && CoversScan(files, m) && LastWins(files, m)
    ensures |m.keys| == 0 <==> |files| == 0
  {
    if |files| == 0 then Empty()
    else
      var prev := YamlMap(files[..|files| - 1]);
      var f := files[|files| - 1];
      CoversStep(files, prev);
      LastWinsStep(files, prev);
      NonEmptyPut(prev, f.config.project, f);
      Put(prev, f.config.project, f)
  }

  /** A Put onto a valid dictionary leaves at least one key. */
  lemma NonEmptyPut(d: Dict<string, YamlFile>, k: string, v: YamlFile)
    requires d.Valid()
    ensures |Put(d, k, v).keys| > 0
  {
    if k in d.values {
      assert d.keys[0] in d.values;
    }
  }

  /** Adding the last file of the scan adds its project to the mapped ones. */
  lemma CoversStep(files: seq<YamlFile>, prev: Dict<string, YamlFile>)
    requires |files| > 0 && prev.Valid() && CoversScan(files[..|files| - 1], prev)
    ensures CoversScan(files, Put(prev, files[|files| - 1].config.project, files[|files| - 1]))
  {
    var init := files[..|files| - 1];
    var m := Put(prev, files[|files| - 1].config.project, files[|files| - 1]);
    forall p | exists i :: 0 <= i < |files| && files[i].config.project == p
      ensures p in m.values
    {
      var i :| 0 <= i < |files| && files[i].config.project == p;
      if i < |init| { assert init[i].config.project == p; }
    }
    forall p | p in prev.values
      ensures exists i :: 0 <= i < |files| && files[i].config.project == p
    {
      var i :| 0 <= i < |init| && init[i].config.project == p;
      assert files[i] == init[i];
    }
  }

  /** A later file for the same project overwrites the earlier mapping; other projects keep their last file. */
  lemma LastWinsStep(files: seq<YamlFile>, prev: Dict<string, YamlFile>)
    requires |files| > 0 && prev.Valid() && LastWins(files[..|files| - 1], prev)
    ensures LastWins(files, Put(prev, files[|files| - 1].config.project, files[|files| - 1]))
  {
    var init := files[..|files| - 1];
    var f := files[|files| - 1];
    var m := Put(prev, f.config.project, f);
    forall p | p in m.values
      ensures exists i :: LastFor(files, p, i) && m.values[p] == files[i]
    {
      if p == f.config.project {
        assert LastFor(files, p, |files| - 1);
      } else {
        var i :| LastFor(init, p, i) && prev.values[p] == init[i];
        assert files[i] == init[i];
        assert LastFor(files, p, i);
      }
    }
  }

  /** Every mapped file configures the project it is mapped under. */
  lemma ConfiguresWellMapped(files: seq<YamlFile>, m: Dict<string, YamlFile>)
    requires LastWins(files, m)
    ensures WellMapped(m)
  {
    forall p | p in m.values
      ensures m.values[p].config.project == p
    {
      var i :| LastFor(files, p, i) && m.values[p] == files[i];
    }
  }

  datatype ReleaseError =
    | NoReleaseFiles          // ValueError: the scan found no release.y*ml
    | NoYamlFor(name: string) // KeyError: a dependency without a release file

  /** What the dependency loop needs: the full project's id, the source server's project names by id, the file map, the bundle version, the branch and the target server's projects. */
  datatype Context = Context(
    fullId: int,
    nameOf: int -> string,
    yamls: Dict<string, YamlFile>,
    version: string,
    branch: Option<string>,
    targetHas: string -> bool)

  predicate WellMapped(yamls: Dict<string, YamlFile>) {
    forall p :: p in yamls.values ==> yamls.values[p].config.project == p
  }

  /** The dependencies other than the full project itself. */
  function Others(deps: seq<int>, i: nat, fullId: int): (r: seq<int>)
    requires i <= |deps|
    ensures forall x :: x in r <==> x in deps[i..] && x != fullId
    decreases |deps| - i
  {
    if i == |deps| then []
    else
      var rest := Others(deps, i + 1, fullId);
      assert deps[i..] == [deps[i]] + deps[i + 1..];
      if deps[i] == fullId then rest else [deps[i]] + rest
  }

  /** The steps run for one dependent: its release without deployment, and a pre-deployment baseline where the target has it. */
  function DependentSteps(cfg: ReleaseYaml, ctx: Context): (r: seq<Action>)
    ensures !HasDeploy(r)
    ensures forall k :: 0 <= k < |r| ==> r[k].project == cfg.project
    ensures var n := if OnMain(ctx.branch) then 1 else 3;
            |r| == n + (if ctx.targetHas(cfg.project) then 1 else 0)
    ensures !OnMain(ctx.branch) ==>
              && r[0] == Baseline(SourceServer, cfg.project, BaselineName(cfg.version, "pre release"))
              && r[1] == Export(cfg.project, ProjectPath(cfg.project, cfg.version), cfg.deployDependencies.GetOr(Bool(false)))
              && r[2] == Baseline(SourceServer, cfg.project, BaselineName(cfg.version, "post release"))
    ensures OnMain(ctx.branch) ==> r[0] == PublishBase(cfg.project, cfg.version)
    ensures ctx.targetHas(cfg.project) ==>
              r[|r| - 1] == Baseline(TargetServer, cfg.project, BaselineName(cfg.version, "pre deployment"))
  {
    var single := SinglePlan(cfg, ctx.branch, false, ctx.targetHas);
    var pre := if ctx.targetHas(cfg.project) then [Baseline(TargetServer, cfg.project, BaselineName(cfg.version, "pre deployment"))] else [];
    assert forall k :: 0 <= k < |single| ==> (single + pre)[k] == single[k];
    assert forall k :: 0 <= k < |pre| ==> (single + pre)[|single| + k] == pre[k];
    if OnMain(ctx.branch) then
      SinglePlanMainSteps(cfg, ctx.branch, false, ctx.targetHas);
      single + pre
    else
      SinglePlanReleaseSteps(cfg, ctx.branch, false, ctx.targetHas);
      single + pre
  }

  /** The dependency loop: the steps run, the dependents' configurations (for the later baselines), and the KeyError that ends it. */
  datatype DepRun = DepRun(actions: seq<Action>, processed: seq<ReleaseYaml>, error: Option<ReleaseError>)

  /** The steps of the processed dependents, one after the other. */
  function StepsOf(processed: seq<ReleaseYaml>, ctx: Context): seq<Action>
    decreases |processed|
  {
    if |processed| == 0 then [] else DependentSteps(processed[0], ctx) + StepsOf(processed[1..], ctx)
  }

  /** `processed` holds the release configurations of the dependencies `ids`, in order, under the bundle version. */
  predicate ProcessedAre(processed: seq<ReleaseYaml>, ids: seq<int>, ctx: Context) {
    && |processed| == |ids|
    && forall q :: 0 <= q < |ids| ==>
         ctx.nameOf(ids[q]) in ctx.yamls.values && processed[q] == ctx.yamls.values[ctx.nameOf(ids[q])].config.(version := ctx.version)
  }

  /** Dependency `k` is another project that has no release file. */
  predicate MissingAt(deps: seq<int>, k: int, ctx: Context) {
    0 <= k < |deps| && deps[k] != ctx.fullId && ctx.nameOf(deps[k]) !in ctx.yamls.values
  }

  /** From index `i` on, the first dependency without a release file is at `m`, or there is none and `m` is the end. */
  predicate StopsAt(deps: seq<int>, i: nat, m: int, ctx: Context) {
    && i <= m <= |deps|
    && (forall k :: i <= k < m ==> !MissingAt(deps, k, ctx))
    && (m < |deps| ==> MissingAt(deps, m, ctx))
  }

  /**
    The loop from `i` on stops at the first missing release file, with the
    KeyError for it, after processing exactly the other dependencies before it.
   */
  ghost predicate Explains(deps: seq<int>, i: nat, ctx: Context, r: DepRun) {
    exists m :: StopsAt(deps, i, m, ctx)
                && r.error == (if m < |deps| then Some(NoYamlFor(ctx.nameOf(deps[m]))) else None)
                && ProcessedAre(r.processed, Others(deps[..m], i, ctx.fullId), ctx)
  }

  /**
    `Dependents` in terms of the dependencies from index `i` on and the steps
    of the configurations it processes.
   */
  function DependencyLoop(deps: seq<int>, i: nat, ctx: Context): (r: DepRun)
    requires i <= |deps| && WellMapped(ctx.yamls)
    ensures Explains(deps, i, ctx, r)
    ensures r.actions == StepsOf(r.processed, ctx)
    decreases |deps| - i
  {
    if i == |deps| then
      assert deps[..|deps|] == deps;
      assert StopsAt(deps, i, |deps|, ctx);
      DepRun([], [], None)
    else if deps[i] == ctx.fullId then
      var rest := DependencyLoop(deps, i + 1, ctx);
      SkipOwn(deps, i, ctx, rest);
      rest
    else
      var n := ctx.nameOf(deps[i]);
      if n !in ctx.yamls.values then
        assert StopsAt(deps, i, i, ctx);
        assert Others(deps[..i], i, ctx.fullId) == [];
        DepRun([], [], Some(NoYamlFor(n)))
      else
        var cfg := ctx.yamls.values[n].config.(version := ctx.version);
        var own := DependentSteps(cfg, ctx);
        var rest := DependencyLoop(deps, i + 1, ctx);
        TakeDependent(deps, i, ctx, cfg, rest, own + rest.actions);
        DepRun(own + rest.actions, [cfg] + rest.processed, rest.error)
  }

  /**
    The dependency loop from index `i` on: it raises the KeyError of the
    first dependency without a release file, after running the dependents
    before it; the full project itself is skipped.
   */
  function Dependents(deps: seq<int>, i: nat, ctx: Context): (r: DepRun)
    requires i <= |deps| && WellMapped(ctx.yamls)
    ensures Explains(deps, i, ctx, r)
    ensures r.actions == StepsOf(r.processed, ctx)
    ensures !HasDeploy(r.actions)
    ensures forall q :: 0 <= q < |r.processed| ==> r.processed[q].version == ctx.version
    ensures r.error.None? <==> forall k :: i <= k < |deps| && deps[k] != ctx.fullId ==> ctx.nameOf(deps[k]) in ctx.yamls.values
    ensures r.error.Some? ==> exists k :: i <= k < |deps| && deps[k] != ctx.fullId && ctx.nameOf(deps[k]) !in ctx.yamls.values
                                          && r.error == Some(NoYamlFor(ctx.nameOf(deps[k])))
    ensures r.error.None? ==> |r.processed| == |Others(deps, i, ctx.fullId)|
                              && forall q :: 0 <= q < |r.processed| ==> r.processed[q].project == ctx.nameOf(Others(deps, i, ctx.fullId)[q])
  {
    var r := DependencyLoop(deps, i, ctx);
    ExplainedFacts(deps, i, ctx, r);
    StepsNeverDeploy(r.processed, ctx);
    r
  }

  /** What the stop index tells about the loop's error and the configurations it processed. */
  lemma ExplainedFacts(deps: seq<int>, i: nat, ctx: Context, r: DepRun)
    requires i <= |deps| && WellMapped(ctx.yamls) && Explains(deps, i, ctx, r)
    ensures forall q :: 0 <= q < |r.processed| ==> r.processed[q].version == ctx.version
    ensures r.error.None? <==> forall k :: i <= k < |deps| && deps[k] != ctx.fullId ==> ctx.nameOf(deps[k]) in ctx.yamls.values
    ensures r.error.Some? ==> exists k :: i <= k < |deps| && deps[k] != ctx.fullId && ctx.nameOf(deps[k]) !in ctx.yamls.values
                                          && r.error == Some(NoYamlFor(ctx.nameOf(deps[k])))
    ensures r.error.None? ==> |r.processed| == |Others(deps, i, ctx.fullId)|
                              && forall q :: 0 <= q < |r.processed| ==> r.processed[q].project == ctx.nameOf(Others(deps, i, ctx.fullId)[q])
  {
    var m :| StopsAt(deps, i, m, ctx)
             && r.error == (if m < |deps| then Some(NoYamlFor(ctx.nameOf(deps[m]))) else None)
             && ProcessedAre(r.processed, Others(deps[..m], i, ctx.fullId), ctx);
    if m < |deps| {
      assert MissingAt(deps, m, ctx);
    } else {
      assert deps[..m] == deps;
      forall k | i <= k < |deps| && deps[k] != ctx.fullId ensures ctx.nameOf(deps[k]) in ctx.yamls.values {
        assert !MissingAt(deps, k, ctx);
      }
      var ids := Others(deps, i, ctx.fullId);
      forall q | 0 <= q < |r.processed| ensures r.processed[q].project == ctx.nameOf(ids[q]) {
        assert ctx.nameOf(ids[q]) in ctx.yamls.values;
      }
    }
  }

  /** The dependents' steps never deploy. */
  lemma {:induction false} StepsNeverDeploy(processed: seq<ReleaseYaml>, ctx: Context)
    ensures !HasDeploy(StepsOf(processed, ctx))
    decreases |processed|
  {
    if |processed| > 0 {
      var own := DependentSteps(processed[0], ctx);
      var rest := StepsOf(processed[1..], ctx);
      StepsNeverDeploy(processed[1..], ctx);
      var all: seq<Action> := own + rest;
      assert StepsOf(processed, ctx) == all;
      forall k | 0 <= k < |all| ensures !all[k].Deploy? {
        if k < |own| {
          assert all[k] == own[k];
          assert !HasDeploy(own);
        } else {
          assert all[k] == rest[k - |own|];
        }
      }
    }
  }

  /** The full project itself is skipped: the loop from the next index explains the loop from here. */
  lemma SkipOwn(deps: seq<int>, i: nat, ctx: Context, r: DepRun)
    requires i < |deps| && deps[i] == ctx.fullId && Explains(deps, i + 1, ctx, r)
    ensures Explains(deps, i, ctx, r)
  {
    var m :| StopsAt(deps, i + 1, m, ctx)
             && r.error == (if m < |deps| then Some(NoYamlFor(ctx.nameOf(deps[m]))) else None)
             && ProcessedAre(r.processed, Others(deps[..m], i + 1, ctx.fullId), ctx);
    assert deps[..m][i] == deps[i];
    assert Others(deps[..m], i, ctx.fullId) == Others(deps[..m], i + 1, ctx.fullId);
    assert !MissingAt(deps, i, ctx);
    assert StopsAt(deps, i, m, ctx);
  }

  /** A dependent with a release file is processed first, then the rest of the loop. */
  lemma TakeDependent(deps: seq<int>, i: nat, ctx: Context, cfg: ReleaseYaml, rest: DepRun, actions: seq<Action>)
    requires i < |deps| && deps[i] != ctx.fullId && ctx.nameOf(deps[i]) in ctx.yamls.values
    requires cfg == ctx.yamls.values[ctx.nameOf(deps[i])].config.(version := ctx.version)
    requires Explains(deps, i + 1, ctx, rest) && rest.actions == StepsOf(rest.processed, ctx)
    ensures Explains(deps, i, ctx, DepRun(actions, [cfg] + rest.processed, rest.error))
    ensures StepsOf([cfg] + rest.processed, ctx) == DependentSteps(cfg, ctx) + rest.actions
  {
    var m :| StopsAt(deps, i + 1, m, ctx)
             && rest.error == (if m < |deps| then Some(NoYamlFor(ctx.nameOf(deps[m]))) else None)
             && ProcessedAre(rest.processed, Others(deps[..m], i + 1, ctx.fullId), ctx);
    assert deps[..m][i] == deps[i];
    var ids := Others(deps[..m], i, ctx.fullId);
    assert ids == [deps[i]] + Others(deps[..m], i + 1, ctx.fullId);
    assert !MissingAt(deps, i, ctx);
    assert StopsAt(deps, i, m, ctx);
    ConsProcessed(cfg, rest.processed, deps[i], Others(deps[..m], i + 1, ctx.fullId), ctx);
    assert ([cfg] + rest.processed)[1..] == rest.processed;
  }

  lemma ConsProcessed(cfg: ReleaseYaml, processed: seq<ReleaseYaml>, id: int, ids: seq<int>, ctx: Context)
    requires ctx.nameOf(id) in ctx.yamls.values && cfg == ctx.yamls.values[ctx.nameOf(id)].config.(version := ctx.version)
    requires ProcessedAre(processed, ids, ctx)
    ensures ProcessedAre([cfg] + processed, [id] + ids, ctx)
  {
    var p2 := [cfg] + processed;
    var i2 := [id] + ids;
    forall q | 0 <= q < |i2|
      ensures ctx.nameOf(i2[q]) in ctx.yamls.values && p2[q] == ctx.yamls.values[ctx.nameOf(i2[q])].config.(version := ctx.version)
    {
      if q > 0 {
        assert p2[q] == processed[q - 1] && i2[q] == ids[q - 1];
      }
    }
  }

  /** The baselines made after the full deployment, one per dependent, in the loop's order. */
  function PostBaselines(processed: seq<ReleaseYaml>): (r: seq<Action>)
    ensures |r| == |processed|
    ensures forall q :: 0 <= q < |r| ==> r[q] == Baseline(TargetServer, processed[q].project, BaselineName(processed[q].version, "post deployment"))
  {
    seq(|processed|, q requires 0 <= q < |processed| =>
      Baseline(TargetServer, processed[q].project, BaselineName(processed[q].version, "post deployment")))
  }

  /** The outcome of a release: the actions run, and the exception that ended it, if any. */
  datatype Plan = Plan(actions: seq<Action>, error: Option<ReleaseError>)

  /** Every deployment in `actions` is `t`. */
  predicate DeploysOnly(actions: seq<Action>, t: Action) {
    forall k :: 0 <= k < |actions| && actions[k].Deploy? ==> actions[k] == t
  }

  /** `s` ends with `t`. */
  predicate EndsWith(s: seq<Action>, t: seq<Action>) {
    |t| <= |s| && s[|s| - |t|..] == t
  }

  /** One post-deployment baseline per dependency id, named by the source server, in order. */
  function PostFor(ids: seq<int>, nameOf: int -> string, version: string): (r: seq<Action>)
    ensures |r| == |ids|
    ensures forall q :: 0 <= q < |ids| ==> r[q] == Baseline(TargetServer, nameOf(ids[q]), BaselineName(version, "post deployment"))
  {
    seq(|ids|, q requires 0 <= q < |ids| => Baseline(TargetServer, nameOf(ids[q]), BaselineName(version, "post deployment")))
  }

  /** The dependency loop, the full project's own release under the bundle version, and the post-deployment baselines. */
  function FullRun(y: ReleaseYaml, yamls: Dict<string, YamlFile>, deps: seq<int>, fullId: int, nameOf: int -> string,
                   branch: Option<string>, targetHas: string -> bool): (r: Plan)
    requires WellMapped(yamls)
    ensures r.error.None? <==> forall k :: 0 <= k < |deps| && deps[k] != fullId ==> nameOf(deps[k]) in yamls.values
    ensures !(OnMain(branch) && Excluded(y)) || !HasDeploy(r.actions)
    ensures r.error.None? ==> (HasDeploy(r.actions) <==> !(OnMain(branch) && Excluded(y)))
    ensures DeploysOnly(r.actions, Deploy(y.project, TcVersion(y.version)))
    ensures r.error.None? ==> EndsWith(r.actions, PostFor(Others(deps, 0, fullId), nameOf, TcVersion(y.version)))
  {
    var ctx := Context(fullId, nameOf, yamls, TcVersion(y.version), branch, targetHas);
    var dr := Dependents(deps, 0, ctx);
    if dr.error.Some? then
      NoDeployOnly(dr.actions, Deploy(y.project, TcVersion(y.version)));
      Plan(dr.actions, dr.error)
    else
      var yt := y.(version := TcVersion(y.version));
      var own := SinglePlan(yt, branch, true, targetHas);
      var post := PostBaselines(dr.processed);
      SinglePlanDeploys(yt, branch, true, targetHas);
      DeploysOf(dr.actions, own, post, Deploy(y.project, yt.version), !(OnMain(branch) && Excluded(y)));
      PostBaselinesFor(dr.processed, Others(deps, 0, fullId), nameOf, yt.version);
      ConcatEndsWith(dr.actions + own, post);
      Plan(dr.actions + own + post, None)
  }

  lemma NoDeployOnly(a: seq<Action>, t: Action)
    requires !HasDeploy(a)
    ensures DeploysOnly(a, t)
  {
  }

  /** The deployments of a three-part plan are those of its middle part when the others deploy nothing. */
  lemma DeploysOf(a: seq<Action>, own: seq<Action>, post: seq<Action>, t: Action, ok: bool)
    requires !HasDeploy(a)
    requires forall k :: 0 <= k < |post| ==> !post[k].Deploy?
    requires forall k :: 0 <= k < |own| && own[k].Deploy? ==> own[k] == t && ok
    ensures DeploysOnly(a + own + post, t)
    ensures !ok ==> !HasDeploy(a + own + post)
    ensures HasDeploy(own) ==> HasDeploy(a + own + post)
  {
    var x := a + own + post;
    InParts(a, own, post);
    if HasDeploy(own) {
      var k :| 0 <= k < |own| && own[k].Deploy?;
      assert x[|a| + k] == own[k];
    }
    forall k | 0 <= k < |x|
      ensures x[k].Deploy? ==> x[k] == t && ok
    {
      if k < |a| {
        assert x[k] == a[k];
      } else if k < |a| + |own| {
        assert x[k] == own[k - |a|];
      } else {
        assert x[k] == post[k - |a| - |own|];
      }
    }
  }

  /** The post-deployment baselines of dependents processed under one version are one per remaining dependency. */
  lemma PostBaselinesFor(processed: seq<ReleaseYaml>, ids: seq<int>, nameOf: int -> string, version: string)
    requires |processed| == |ids|
    requires forall q :: 0 <= q < |processed| ==> processed[q].project == nameOf(ids[q]) && processed[q].version == version
    ensures PostBaselines(processed) == PostFor(ids, nameOf, version)
  {
  }

  lemma ConcatEndsWith(x: seq<Action>, t: seq<Action>)
    ensures EndsWith(x + t, t)
  {
    assert (x + t)[|x|..] == t;
  }

  /** `release_and_deploy_full_tc_codebeamer_project`. */
  function FullPlan(y: ReleaseYaml, files: seq<YamlFile>, deps: seq<int>, fullId: int, nameOf: int -> string,
                    branch: Option<string>, targetHas: string -> bool): (r: Plan)
    ensures |files| == 0 ==> r == Plan([], Some(NoReleaseFiles))
    ensures r.error.None? <==> |files| > 0 && forall k :: 0 <= k < |deps| && deps[k] != fullId ==> nameOf(deps[k]) in YamlMap(files).values
    ensures !(OnMain(branch) && Excluded(y)) || !HasDeploy(r.actions)
    ensures r.error.None? ==> (HasDeploy(r.actions) <==> !(OnMain(branch) && Excluded(y)))
    ensures DeploysOnly(r.actions, Deploy(y.project, TcVersion(y.version)))
    ensures r.error.None? ==> EndsWith(r.actions, PostFor(Others(deps, 0, fullId), nameOf, TcVersion(y.version)))
  {
    var yamls := YamlMap(files);
    if |yamls.keys| == 0 then Plan([], Some(NoReleaseFiles))
    else
      ConfiguresWellMapped(files, yamls);
      FullRun(y, yamls, deps, fullId, nameOf, branch, targetHas)
  }

  /**
    `release_and_deploy_codebeamer_project`: the key `deploy_dependencies`,
    whatever its value, selects the full path. Only the project itself is
    ever deployed, and on main nothing of a project excluded from
    production.
   */
  function ReleaseAndDeploy(y: ReleaseYaml, files: seq<YamlFile>, deps: seq<int>, fullId: int, nameOf: int -> string,
                            branch: Option<string>, targetHas: string -> bool): (r: Plan)
    ensures y.deployDependencies.None? ==> r.error.None?
    ensures r.error.None? ==> (HasDeploy(r.actions) <==> !(OnMain(branch) && Excluded(y)))
    ensures y.deployDependencies.Some? ==> r == FullPlan(y, files, deps, fullId, nameOf, branch, targetHas)
    ensures forall k :: 0 <= k < |r.actions| && r.actions[k].Deploy? ==> r.actions[k].project == y.project
    ensures OnMain(branch) && Excluded(y) ==> !HasDeploy(r.actions)
  {
    if y.deployDependencies.Some? then FullPlan(y, files, deps, fullId, nameOf, branch, targetHas)
    else
      SinglePlanDeploys(y, branch, true, targetHas);
      Plan(SinglePlan(y, branch, true, targetHas), None)
  }
}

=== FILE: text.dfy ===
/**
  The handful of Python string operations the pipeline relies on, with their
  exact edge cases: `in`, `split`, `strip`, `lower`, `rpartition`, `startswith`,
  `endswith` and the POSIX `os.path.split` / `os.path.basename`.
 */
module Text {

  /** `str.isspace()`: the separators of `str.split()` and `str.strip()` without argument. */
  predicate IsSpace(c: char) {
    || ('\t' <= c <= '\r')
    || ('\U{001c}' <= c <= '\U{001f}')
    || c == ' '
    || c == '\U{0085}'
    || c == '\U{00a0}'
    || c == '\U{1680}'
    || ('\U{2000}' <= c <= '\U{200a}')
    || c == '\U{2028}'
    || c == '\U{2029}'
    || c == '\U{202f}'
    || c == '\U{205f}'
    || c == '\U{3000}'
  }

  predicate IsAsciiDigit(c: char) {
    '0' <= c <= '9'
  }

  /** The character class `[A-Za-z0-9]`. */
  predicate IsAsciiAlnum(c: char) {
    ('A' <= c <= 'Z') || ('a' <= c <= 'z') || IsAsciiDigit(c)
  }

  function LowerChar(c: char): char {
    if 'A' <= c <= 'Z' then (c as int + 32) as char else c
  }

  /** `s.lower()` on ASCII letters; every other character is kept. */
  function Lower(s: string): (r: string)
    ensures |r| == |s|
    ensures forall i :: 0 <= i < |s| ==> r[i] == LowerChar(s[i])
  {
    seq(|s|, i requires 0 <= i < |s| => LowerChar(s[i]))
  }

  predicate StartsWith(s: string, prefix: string) {
    |prefix| <= |s| && s[..|prefix|] == prefix
  }

  predicate EndsWith(s: string, suffix: string) {
    |suffix| <= |s| && s[|s| - |suffix|..] == suffix
  }

  /** `pat` occurs in `s` starting at index `j`. */
  predicate OccursAt(s: string, pat: string, j: int) {
    0 <= j && j + |pat| <= |s| && s[j..j + |pat|] == pat
  }

  /** `pat in s` for a substring `pat`. */
  predicate Contains(s: string, pat: string) {
    exists j :: 0 <= j <= |s| - |pat| && OccursAt(s, pat, j)
  }

  /** Index of the first `c` in `s`, or `|s|` when there is none. */
  function IndexOf(s: string, c: char): (i: nat)
    ensures i <= |s|
    ensures i < |s| ==> s[i] == c
    ensures forall k :: 0 <= k < i ==> s[k] != c
  {
    if |s| == 0 then 0
    else if s[0] == c then 0
    else 1 + IndexOf(s[1..], c)
  }

  /** `s.split(c)[0]`: the text before the first `c`, or all of `s`. */
  function Before(s: string, c: char): (r: string)
    ensures c !in r
    ensures StartsWith(s, r)
    ensures |r| < |s| ==> s[|r|] == c
  {
    s[..IndexOf(s, c)]
  }

  /** The text after the first `c`, or "" when `c` does not occur; `s.split(c)[1]` is `Before(After(s, c), c)`. */
  function After(s: string, c: char): (r: string)
    ensures c in s ==> s == Before(s, c) + [c] + r
    ensures c !in s ==> r == ""
  {
    var i := IndexOf(s, c);
    if i < |s| then
      assert s == s[..i] + [c] + s[i + 1..];
      s[i + 1..]
    else ""
  }

  /** Index of the last `c` in `s`, or -1. */
  function LastIndexOf(s: string, c: char): (i: int)
    ensures -1 <= i < |s|
    ensures i >= 0 ==> s[i] == c
    ensures forall k :: i < k < |s| ==> s[k] != c
  {
    if |s| == 0 then -1
    else if s[|s| - 1] == c then |s| - 1
    else LastIndexOf(s[..|s| - 1], c)
  }

  /** The end of the line that contains index `i`: the next newline at or after `i`, or `|s|`. */
  function LineEnd(s: string, i: nat): (e: nat)
    requires i <= |s|
    ensures i <= e <= |s|
    ensures e < |s| ==> s[e] == '\n'
    ensures forall k :: i <= k < e ==> s[k] != '\n'
    decreases |s| - i
  {
    if i == |s| || s[i] == '\n' then i else LineEnd(s, i + 1)
  }

  /** Highest `k <= j` at which `pat` occurs, or -1. */
  function RFindFrom(s: string, pat: string, j: int): (r: int)
    requires -1 <= j
    ensures -1 <= r <= j
    ensures r >= 0 ==> OccursAt(s, pat, r)
    ensures forall k :: r < k <= j ==> !OccursAt(s, pat, k)
    decreases j + 1
  {
    if j < 0 then -1
    else if OccursAt(s, pat, j) then j
    else RFindFrom(s, pat, j - 1)
  }

  /** `s.rfind(pat)`. */
  function RFind(s: string, pat: string): (r: int)
    ensures r >= 0 ==> OccursAt(s, pat, r)
    ensures forall k :: r < k ==> !OccursAt(s, pat, k)
    ensures r < 0 ==> r == -1
  {
    if |pat| > |s| then -1 else RFindFrom(s, pat, |s| - |pat|)
  }

  /**
    `s.rpartition(sep)[0]`: the text before the LAST occurrence of `sep`,
    or "" when `sep` does not occur (Python rejects an empty separator).
   */
  function RPartitionHead(s: string, sep: string): (r: string)
    requires |sep| > 0
    ensures Contains(s, sep) ==>
              exists j :: OccursAt(s, sep, j) && r == s[..j] && forall k :: j < k ==> !OccursAt(s, sep, k)
    ensures !Contains(s, sep) ==> r == ""
  {
    var j := RFind(s, sep);
    if j >= 0 then s[..j]
    else
      assert forall k :: 0 <= k <= |s| - |sep| ==> !OccursAt(s, sep, k);
      ""
  }

  /** Index of the first character at or after `i` that is not whitespace, or `|s|`. */
  function SkipSpace(s: string, i: nat): (j: nat)
    requires i <= |s|
    ensures i <= j <= |s|
    ensures forall k :: i <= k < j ==> IsSpace(s[k])
    ensures j < |s| ==> !IsSpace(s[j])
    decreases |s| - i
  {
    if i == |s| || !IsSpace(s[i]) then i else SkipSpace(s, i + 1)
  }

  /** Index of the first whitespace character at or after `i`, or `|s|`. */
  function SkipWord(s: string, i: nat): (j: nat)
    requires i <= |s|
    ensures i <= j <= |s|
    ensures forall k :: i <= k < j ==> !IsSpace(s[k])
    ensures j < |s| ==> IsSpace(s[j])
    decreases |s| - i
  {
    if i == |s| || IsSpace(s[i]) then i else SkipWord(s, i + 1)
  }

  /** The end of `s[..j]` once trailing whitespace is dropped. */
  function TrimEnd(s: string, j: nat): (e: nat)
    requires j <= |s|
    ensures e <= j
    ensures forall k :: e <= k < j ==> IsSpace(s[k])
    ensures e > 0 ==> !IsSpace(s[e - 1])
  {
    if j == 0 || !IsSpace(s[j - 1]) then j else TrimEnd(s, j - 1)
  }

  /** `s.strip()`: `s` without its leading and trailing whitespace. */
  function Strip(s: string): (r: string)
    ensures exists a, b :: 0 <= a <= b <= |s| && r == s[a..b]
                           && (forall k :: 0 <= k < a ==> IsSpace(s[k]))
                           && (forall k :: b <= k < |s| ==> IsSpace(s[k]))
    ensures r == "" || (!IsSpace(r[0]) && !IsSpace(r[|r| - 1]))
  {
    var a := SkipSpace(s, 0);
    if a == |s| then
      assert s[a..a] == "";
      ""
    else
      var b := TrimEnd(s, |s|);
      assert a < b;
      s[a..b]
  }

  /** A non-empty run of characters none of which is whitespace. */
  predicate IsWord(w: string) {
    |w| > 0 && forall k :: 0 <= k < |w| ==> !IsSpace(w[k])
  }

  /** `s.split()`: the maximal runs of non-whitespace characters, in order. */
  function Words(s: string): (ws: seq<string>)
    ensures forall i :: 0 <= i < |ws| ==> IsWord(ws[i])
    ensures |ws| == 0 <==> forall k :: 0 <= k < |s| ==> IsSpace(s[k])
    decreases |s|
  {
    var a := SkipSpace(s, 0);
    if a == |s| then []
    else
      var b := SkipWord(s, a);
      [s[a..b]] + Words(s[b..])
  }

  /** `"".join(ch for ch in s if not ch.isdigit())` on ASCII digits. */
  function RemoveDigits(s: string): (r: string)
    ensures |r| <= |s|
    ensures forall c :: c in r <==> c in s && !IsAsciiDigit(c)
  {
    if |s| == 0 then ""
    else if IsAsciiDigit(s[0]) then RemoveDigits(s[1..])
    else [s[0]] + RemoveDigits(s[1..])
  }

  /** `s.rstrip(c)` for a single character `c`. */
  function RStripChar(s: string, c: char): (r: string)
    ensures StartsWith(s, r)
    ensures forall k :: |r| <= k < |s| ==> s[k] == c
    ensures r == "" || r[|r| - 1] != c
  {
    if |s| == 0 || s[|s| - 1] != c then s else RStripChar(s[..|s| - 1], c)
  }

  /** `posixpath.basename(p)`, which is also `posixpath.split(p)[1]`: the text after the last slash. */
  function BaseName(p: string): (r: string)
    ensures '/' !in r
    ensures EndsWith(p, r)
    ensures |r| < |p| ==> p[|p| - |r| - 1] == '/'
  {
    p[LastIndexOf(p, '/') + 1..]
  }

  /**
    `posixpath.split(p)[0]` (equal to `posixpath.dirname(p)`): the text up to the
    last slash, with trailing slashes removed unless it consists of slashes only.
   */
  function DirName(p: string): (r: string)
    ensures StartsWith(p, r)
  {
    var head := p[..LastIndexOf(p, '/') + 1];
    var stripped := RStripChar(head, '/');
    if stripped != "" then stripped else head
  }

  /** For `dir/file` with a plain file name and a directory that does not end in a slash, `split` gives back both parts. */
  lemma SplitJoin(dir: string, file: string)
    requires '/' !in file
    requires dir != "" && dir[|dir| - 1] != '/'
    ensures BaseName(dir + "/" + file) == file
    ensures DirName(dir + "/" + file) == dir
  {
    var p := dir + "/" + file;
    assert p[|dir|] == '/';
    var i := LastIndexOf(p, '/');
    assert i == |dir|;
    var head := p[..i + 1];
    assert head == dir + "/";
    assert head[|dir| - 1] != '/';
    assert RStripChar(head, '/') == RStripChar(dir, '/');
    assert RStripChar(dir, '/') == dir;
  }
}

=== FILE: trackers.dfy ===
/**
  Reconciliation of a project's trackers with a configuration file: trackers
  on the server that the configuration does not mention, renames by id,
  creation of configured trackers from their source trackers, inheritance
  and reference-field checks, and the error count that decides the run.
  Remote calls are inputs; their effects are recorded as events.
 */
module Trackers {
  import opened Base

  // ---------------------------------------------------------------------------
  // Configuration and server state

  /** A YAML or JSON scalar that is compared with an id exactly as written. */
  datatype Scalar = Str(s: string) | Num(n: int)

  /** The `source` block of a tracker entry; `project` is `source_project`. */
  datatype Source = Source(tracker: string, project: Option<string>)

  /** One entry of the configuration's `trackers` list. */
  datatype ConfigEntry = ConfigEntry(
    name: string,
    id: Option<int>,
    key: Option<string>,
    source: Option<Source>,
    allowUpstream: bool)  // `allow_upstream_to_other_project`, False when absent

  datatype Config = Config(project: string, category: Option<string>, trackers: seq<ConfigEntry>)

  /** A tracker as `get_trackers()` lists it. */
  datatype Listed = Listed(name: string, id: int)

  /** What the tracker API reports for a tracker id. */
  datatype TrackerApi = TrackerApi(hidden: bool, templateName: Option<Scalar>, projectId: int)

  /** A source tracker found by name. */
  datatype SourceTracker = SourceTracker(id: int, keyName: string)

  /** A field configuration of a tracker; absent attributes are None. */
  datatype Field = Field(fieldName: string, refType: Option<string>, trackerFilter: Option<seq<string>>)

  /**
    The server as the run sees it: the project's id and name, its tracker
    listing before the run and the one `config_vs_server` reads after the
    renames of `server_vs_config`, the tracker API by id, which projects exist,
    how a source tracker is found (in the named project, or in the project
    itself for None), the project categories, and the tracker listing and
    field configurations seen by the final reference check.
   */
  datatype Remote = Remote(
    projectExists: bool,
    projectId: int,
    projectName: string,
    listing: seq<Listed>,
    renamedListing: seq<Listed>,
    api: int -> TrackerApi,
    hasProject: string -> bool,
    lookup: (Option<string>, string) -> Option<SourceTracker>,
    categories: seq<string>,
    finalListing: seq<Listed>,
    fields: int -> seq<Field>)

  /** A change made on the server. */
  datatype Event =
    | ProjectCreated(name: string)
    | Renamed(trackerId: int, name: string)
    | Created(name: string, key: string, templateId: int)

  /** A configuration block printed for a tracker the configuration does not mention. */
  datatype MissingBlock = MissingBlock(name: string, id: int)

  /** One increment of `error_counter`. */
  datatype TrackerError =
    | MissingTrackers(blocks: seq<MissingBlock>)  // once, however many blocks
    | NoSource(entry: string)
    | ForeignTracker(trackerId: int)
    | InheritanceBroken(trackerId: int)
    | InvalidReference(tracker: string, field: Field)

  /** An exception other than the final one. */
  datatype Fatal =
    | UnknownCategory(category: string)  // ValueError
    | ProjectNotFound(project: string)
    | TrackerNotFound(tracker: string)

  // ---------------------------------------------------------------------------
  // server_vs_config

  predicate NameInConfig(cfg: seq<ConfigEntry>, n: string) {
    exists i :: 0 <= i < |cfg| && cfg[i].name == n
  }

  predicate IdInConfig(cfg: seq<ConfigEntry>, id: int) {
    exists i :: 0 <= i < |cfg| && cfg[i].id == Some(id)
  }

  /** The name of the first configuration entry with the given id. */
  function FirstNameWithId(cfg: seq<ConfigEntry>, id: int): (n: string)
    requires IdInConfig(cfg, id)
    ensures exists i :: 0 <= i < |cfg| && cfg[i].id == Some(id) && cfg[i].name == n
                        && forall j :: 0 <= j < i ==> cfg[j].id != Some(id)
  {
    if cfg[0].id == Some(id) then cfg[0].name
    else
      assert IdInConfig(cfg[1..], id) by {
        var i :| 0 <= i < |cfg| && cfg[i].id == Some(id);
        assert cfg[1..][i - 1] == cfg[i];
      }
      var n := FirstNameWithId(cfg[1..], id);
      assert forall i :: 1 <= i < |cfg| ==> cfg[i] == cfg[1..][i - 1];
      n
  }

  /** A listed tracker the configuration does not mention by name, id or visibility. */
  predicate IsMissing(cfg: seq<ConfigEntry>, api: int -> TrackerApi, t: Listed) {
    !NameInConfig(cfg, t.name) && !IdInConfig(cfg, t.id) && !api(t.id).hidden
  }

  /** A listed tracker whose name is not configured but whose id is: it takes the configured name. */
  predicate IsRenamed(cfg: seq<ConfigEntry>, t: Listed) {
    !NameInConfig(cfg, t.name) && IdInConfig(cfg, t.id)
  }

  /** The result of `server_vs_config`: the missing blocks and the renames, in listing order. */
  datatype ServerPass = ServerPass(missing: seq<MissingBlock>, renames: seq<Event>)

  /** `server_vs_config` over the listing from index `i` on. */
  function ServerVsConfig(cfg: seq<ConfigEntry>, api: int -> TrackerApi, listing: seq<Listed>, i: nat): (r: ServerPass)
    requires i <= |listing|
    ensures forall b :: b in r.missing <==> exists k :: i <= k < |listing| && IsMissing(cfg, api, listing[k]) && b == MissingBlock(listing[k].name, listing[k].id)
    ensures forall e :: e in r.renames <==> exists k :: i <= k < |listing| && IsRenamed(cfg, listing[k])
                                                      && e == Renamed(listing[k].id, FirstNameWithId(cfg, listing[k].id))
    decreases |listing| - i
  {
    if i == |listing| then ServerPass([], [])
    else
      var t := listing[i];
      var rest := ServerVsConfig(cfg, api, listing, i + 1);
      if NameInConfig(cfg, t.name) then rest
      else if !IdInConfig(cfg, t.id) && !api(t.id).hidden then ServerPass([MissingBlock(t.name, t.id)] + rest.missing, rest.renames)
      else if IdInConfig(cfg, t.id) then ServerPass(rest.missing, [Renamed(t.id, FirstNameWithId(cfg, t.id))] + rest.renames)
      else rest
  }

  /** Trackers whose names appear in the configuration are never renamed or reported. */
  lemma ConfiguredNamesUntouched(cfg: seq<ConfigEntry>, api: int -> TrackerApi, listing: seq<Listed>, k: nat)
    requires k < |listing| && NameInConfig(cfg, listing[k].name)
    requires forall j :: 0 <= j < |listing| && j != k ==> listing[j].id != listing[k].id
    ensures MissingBlock(listing[k].name, listing[k].id) !in ServerVsConfig(cfg, api, listing, 0).missing
    ensures forall n :: Renamed(listing[k].id, n) !in ServerVsConfig(cfg, api, listing, 0).renames
  {
  }

  // ---------------------------------------------------------------------------
  // config_vs_server

  predicate Listed_(listing: seq<Listed>, n: string) {
    exists k :: 0 <= k < |listing| && listing[k].name == n
  }

  /** The first listed tracker with the given name. */
  function FirstNamed(listing: seq<Listed>, n: string): (t: Listed)
    requires Listed_(listing, n)
    ensures exists k :: 0 <= k < |listing| && listing[k] == t && forall j :: 0 <= j < k ==> listing[j].name != n
    ensures t.name == n
  {
    if listing[0].name == n then listing[0]
    else
      assert Listed_(listing[1..], n) by {
        var k :| 0 <= k < |listing| && listing[k].name == n;
        assert listing[1..][k - 1] == listing[k];
      }
      var t := FirstNamed(listing[1..], n);
      assert forall k :: 1 <= k < |listing| ==> listing[k] == listing[1..][k - 1];
      t
  }

  /** `check_inheritance`: an error iff the tracker's template has a name and that name is not the source tracker's id. */
  function CheckInheritance(api: int -> TrackerApi, sourceId: int, trackerId: int): (errs: seq<TrackerError>)
    ensures |errs| <= 1
    ensures |errs| == 1 <==> api(trackerId).templateName.Some? && api(trackerId).templateName.value != Num(sourceId)
    ensures |errs| == 1 ==> errs[0] == InheritanceBroken(trackerId)
  {
    var t := api(trackerId).templateName;
    if t.Some? && t.value != Num(sourceId) then [InheritanceBroken(trackerId)] else []
  }

  /** A template name written as a string never equals an id, so it always counts as broken inheritance. */
  lemma TemplateNameAsString(api: int -> TrackerApi, sourceId: int, trackerId: int, s: string)
    requires api(trackerId).templateName == Some(Str(s))
    ensures CheckInheritance(api, sourceId, trackerId) == [InheritanceBroken(trackerId)]
  {
  }

  /** What `config_vs_server` needs from the server. */
  datatype Context = Context(
    projectId: int,
    existing: seq<Listed>,
    api: int -> TrackerApi,
    hasProject: string -> bool,
    lookup: (Option<string>, string) -> Option<SourceTracker>)

  /** The loop state of `config_vs_server`: the two caches, the errors and events so far, and whether the loop ended early. */
  datatype Pass = Pass(
    projects: set<string>,
    cache: map<string, SourceTracker>,
    errors: seq<TrackerError>,
    events: seq<Event>,
    fatal: Option<Fatal>,
    stopped: bool)

  /** The source project only counts when it is given and not empty. */
  function SourceProject(src: Source): (p: Option<string>)
    ensures p.Some? <==> src.project.Some? && src.project.value != ""
    ensures p.Some? ==> p == src.project
  {
    if src.project.Some? && src.project.value != "" then src.project else None
  }

  /** What one entry does once its source tracker is known. */
  function Apply(st: Pass, e: ConfigEntry, source: SourceTracker, ctx: Context): (r: Pass)
    ensures r.projects == st.projects && r.cache == st.cache && r.fatal == st.fatal && r.stopped == st.stopped
    ensures !Listed_(ctx.existing, e.name) && e.id.None? ==>
              r.errors == st.errors && r.events == st.events + [Created(e.name, e.key.GetOr(source.keyName), source.id)]
    ensures !Listed_(ctx.existing, e.name) && e.id.Some? && ctx.api(e.id.value).projectId != ctx.projectId ==>
              r.errors == st.errors + [ForeignTracker(e.id.value)] && r.events == st.events
    ensures !Listed_(ctx.existing, e.name) && e.id.Some? && ctx.api(e.id.value).projectId == ctx.projectId ==>
              r.errors == st.errors + CheckInheritance(ctx.api, source.id, e.id.value)
              && r.events == st.events + [Renamed(e.id.value, e.name)]
    ensures Listed_(ctx.existing, e.name) ==>
              r.errors == st.errors + CheckInheritance(ctx.api, source.id, FirstNamed(ctx.existing, e.name).id)
              && r.events == st.events
  {
    if !Listed_(ctx.existing, e.name) then
      if e.id.None? then
        st.(events := st.events + [Created(e.name, e.key.GetOr(source.keyName), source.id)])
      else if ctx.api(e.id.value).projectId != ctx.projectId then
        st.(errors := st.errors + [ForeignTracker(e.id.value)])
      else
        st.(errors := st.errors + CheckInheritance(ctx.api, source.id, e.id.value),
            events := st.events + [Renamed(e.id.value, e.name)])
    else
      st.(errors := st.errors + CheckInheritance(ctx.api, source.id, FirstNamed(ctx.existing, e.name).id))
  }

  /** The source project is known from an earlier entry, exists on the server, or is not given. */
  predicate ProjectAvailable(st: Pass, p: Option<string>, ctx: Context) {
    p.None? || p.value in st.projects || ctx.hasProject(p.value)
  }

  /** The project cache after a source project has been fetched. */
  function WithProject(projects: set<string>, p: Option<string>): (r: set<string>)
    ensures forall q :: q in r <==> q in projects || p == Some(q)
  {
    if p.Some? then projects + {p.value} else projects
  }

  /**
    One iteration of the `config_vs_server` loop: an entry without a source
    ends the loop with one error; a source project that cannot be fetched,
    or a source tracker that is neither cached nor found, ends the run; a
    source tracker looked up for the first time is cached; then `Apply`
    does the entry's work.
   */
  function Step(st: Pass, e: ConfigEntry, ctx: Context): (r: Pass)
    requires !st.stopped && st.fatal.None?
    ensures e.source.None? ==> r == st.(errors := st.errors + [NoSource(e.name)], stopped := true)
    ensures e.source.Some? ==> (r.stopped <==> r.fatal.Some?)
    ensures r.stopped || r.fatal.None?
    ensures |st.errors| <= |r.errors| && r.errors[..|st.errors|] == st.errors
    ensures e.source.Some? && e.source.value.tracker in st.cache && !r.stopped ==>
              r == Apply(st.(projects := r.projects), e, st.cache[e.source.value.tracker], ctx)
    ensures e.source.Some? && !ProjectAvailable(st, SourceProject(e.source.value), ctx) ==>
              r.fatal == Some(ProjectNotFound(SourceProject(e.source.value).value))
              && r.errors == st.errors && r.events == st.events
    ensures e.source.Some? && ProjectAvailable(st, SourceProject(e.source.value), ctx) ==>
              var src := e.source.value;
              var p := SourceProject(src);
              var projects := WithProject(st.projects, p);
              && (src.tracker in st.cache ==> r == Apply(st.(projects := projects), e, st.cache[src.tracker], ctx))
              && (src.tracker !in st.cache && ctx.lookup(p, src.tracker).None? ==>
                    r.fatal == Some(TrackerNotFound(src.tracker)) && r.errors == st.errors && r.events == st.events)
              && (src.tracker !in st.cache && ctx.lookup(p, src.tracker).Some? ==>
                    var t := ctx.lookup(p, src.tracker).value;
                    r == Apply(st.(projects := projects, cache := st.cache[src.tracker := t]), e, t, ctx))
  {
    match e.source
    case None => st.(errors := st.errors + [NoSource(e.name)], stopped := true)
    case Some(src) =>
      var project := SourceProject(src);
      if project.Some? && project.value !in st.projects && !ctx.hasProject(project.value) then
        st.(fatal := Some(ProjectNotFound(project.value)), stopped := true)
      else
        var projects := if project.Some? then st.projects + {project.value} else st.projects;
        if src.tracker in st.cache then
          Apply(st.(projects := projects), e, st.cache[src.tracker], ctx)
        else
          match ctx.lookup(project, src.tracker)
          case None => st.(fatal := Some(TrackerNotFound(src.tracker)), stopped := true)
          case Some(t) => Apply(st.(projects := projects, cache := st.cache[src.tracker := t]), e, t, ctx)
  }

  /** `config_vs_server` over the entries from index `i` on. */
  function ConfigVsServer(cfg: seq<ConfigEntry>, i: nat, st: Pass, ctx: Context): (r: Pass)
    requires i <= |cfg|
    requires st.stopped || st.fatal.None?
    ensures r.stopped || r.fatal.None?
    ensures |st.errors| <= |r.errors| && r.errors[..|st.errors|] == st.errors
    ensures st.stopped ==> r == st
    decreases |cfg| - i
  {
    if st.stopped || i == |cfg| then st
    else
      var next := Step(st, cfg[i], ctx);
      var r := ConfigVsServer(cfg, i + 1, next, ctx);
      assert r.errors[..|st.errors|] == r.errors[..|next.errors|][..|st.errors|];
      r
  }

  /** A pass that has not stopped takes one step and goes on. */
  lemma ConfigVsServerUnfold(cfg: seq<ConfigEntry>, j: nat, e: ConfigEntry, st: Pass, ctx: Context)
    requires j < |cfg| && cfg[j] == e && !st.stopped && st.fatal.None?
    ensures ConfigVsServer(cfg, j, st, ctx) == ConfigVsServer(cfg, j + 1, Step(st, e, ctx), ctx)
  {
  }

  /** A pass that has stopped, or has no entries left, is left as it is. */
  lemma ConfigVsServerDone(cfg: seq<ConfigEntry>, j: nat, st: Pass, ctx: Context)
    requires j <= |cfg| && (st.stopped || st.fatal.None?)
    requires st.stopped || j == |cfg|
    ensures ConfigVsServer(cfg, j, st, ctx) == st
  {
  }

  /** The loop only sees the entries from index `i` on. */
  lemma {:induction false} ConfigVsServerSuffix(c: seq<ConfigEntry>, i: nat, d: seq<ConfigEntry>, j: nat, st: Pass, ctx: Context)
    requires i <= |c| && j <= |d| && c[i..] == d[j..]
    requires st.stopped || st.fatal.None?
    ensures ConfigVsServer(c, i, st, ctx) == ConfigVsServer(d, j, st, ctx)
    decreases |c| - i
  {
    if st.stopped || i == |c| {
      assert |d| - j == |c| - i;
      ConfigVsServerDone(c, i, st, ctx);
      ConfigVsServerDone(d, j, st, ctx);
    } else {
      var e := c[i];
      assert d[j] == c[i..][0] == e;
      assert c[i + 1..] == c[i..][1..] == d[j..][1..] == d[j + 1..];
      ConfigVsServerUnfold(c, i, e, st, ctx);
      ConfigVsServerUnfold(d, j, e, st, ctx);
      ConfigVsServerSuffix(c, i + 1, d, j + 1, Step(st, e, ctx), ctx);
    }
  }

  /** The loop over two stretches of entries is the loop over the second, started where the first left off. */
  lemma {:induction false} ConfigVsServerAppend(a: seq<ConfigEntry>, b: seq<ConfigEntry>, i: nat, st: Pass, ctx: Context)
    requires i <= |a|
    requires st.stopped || st.fatal.None?
    ensures ConfigVsServer(a + b, i, st, ctx) == ConfigVsServer(b, 0, ConfigVsServer(a, i, st, ctx), ctx)
    decreases |a| - i, 1
  {
    if st.stopped {
      ConfigVsServerDone(a + b, i, st, ctx);
      ConfigVsServerDone(a, i, st, ctx);
      ConfigVsServerDone(b, 0, st, ctx);
    } else if i == |a| {
      ConfigVsServerDone(a, i, st, ctx);
      assert (a + b)[|a|..] == b[0..];
      ConfigVsServerSuffix(a + b, |a|, b, 0, st, ctx);
    } else {
      ConfigVsServerAppendStep(a, b, i, st, ctx);
    }
  }

  /** One entry of `a` taken inside `a + b` is the same entry taken inside `a`. */
  lemma {:induction false} ConfigVsServerAppendStep(a: seq<ConfigEntry>, b: seq<ConfigEntry>, i: nat, st: Pass, ctx: Context)
    requires i < |a| && !st.stopped && st.fatal.None?
    ensures ConfigVsServer(a + b, i, st, ctx) == ConfigVsServer(b, 0, ConfigVsServer(a, i, st, ctx), ctx)
    decreases |a| - i, 0
  {
    var e := a[i];
    assert (a + b)[i] == e;
    ConfigVsServerUnfold(a + b, i, e, st, ctx);
    ConfigVsServerUnfold(a, i, e, st, ctx);
    ConfigVsServerAppend(a, b, i + 1, Step(st, e, ctx), ctx);
  }

  /** The loop over one entry is one step. */
  lemma ConfigVsServerOne(e: ConfigEntry, st: Pass, ctx: Context)
    requires !st.stopped && st.fatal.None?
    ensures ConfigVsServer([e], 0, st, ctx) == Step(st, e, ctx)
  {
  }

  function Start(): Pass {
    Pass({}, map[], [], [], None, false)
  }

  /**
    An entry without a source adds one error and ends the loop: the entries
    after it are never looked at.
   */
  lemma {:induction false} NoSourceStops(cfg: seq<ConfigEntry>, i: nat, st: Pass, ctx: Context, k: nat)
    requires i <= k < |cfg| && cfg[k].source.None?
    requires st.stopped || st.fatal.None?
    ensures ConfigVsServer(cfg, i, st, ctx) == ConfigVsServer(cfg[..k + 1], i, st, ctx)
    decreases k - i
  {
    var head := cfg[..k + 1];
    if !st.stopped {
      assert head[i] == cfg[i];
      var next := Step(st, cfg[i], ctx);
      assert ConfigVsServer(cfg, i, st, ctx) == ConfigVsServer(cfg, i + 1, next, ctx);
      assert ConfigVsServer(head, i, st, ctx) == ConfigVsServer(head, i + 1, next, ctx);
      if i < k {
        NoSourceStops(cfg, i + 1, next, ctx, k);
      } else {
        assert next.stopped;
      }
    }
  }

  /**
    The source-tracker cache is keyed by the tracker name alone: once a
    name was looked up, a later entry with the same `source_tracker` uses
    that tracker even when it names another source project.
   */
  lemma CacheIgnoresProject(st: Pass, e: ConfigEntry, ctx: Context)
    requires !st.stopped && st.fatal.None? && e.source.Some? && e.source.value.tracker in st.cache
    requires SourceProject(e.source.value).None? || SourceProject(e.source.value).value in st.projects
    ensures Step(st, e, ctx) == Apply(st, e, st.cache[e.source.value.tracker], ctx)
  {
    var p := SourceProject(e.source.value);
    if p.Some? {
      assert st.projects + {p.value} == st.projects;
    }
  }

  /** Even with a cached source tracker, a source project that does not exist still ends the run. */
  lemma CachedTrackerStillNeedsProject(st: Pass, e: ConfigEntry, ctx: Context)
    requires !st.stopped && st.fatal.None? && e.source.Some? && e.source.value.tracker in st.cache
    requires SourceProject(e.source.value).Some? && SourceProject(e.source.value).value !in st.projects
    requires !ctx.hasProject(SourceProject(e.source.value).value)
    ensures Step(st, e, ctx).fatal == Some(ProjectNotFound(e.source.value.project.value))
  {
  }

  // ---------------------------------------------------------------------------
  // check_fields_config

  /** A field that references work configuration items and has a tracker filter. */
  predicate IsWorkConfigRef(f: Field) {
    f.refType == Some("Work_Config_Items") && f.trackerFilter.Some?
  }

  /** The filters of a field that name another project. */
  function ForeignFilters(projectName: string, filters: seq<string>): (r: seq<string>)
    ensures |r| <= |filters|
    ensures forall x :: x in r <==> x in filters && x != projectName
  {
    if |filters| == 0 then []
    else (if filters[0] != projectName then [filters[0]] else []) + ForeignFilters(projectName, filters[1..])
  }

  /** `check_references`: a field is listed once per filter of it that names another project. */
  function CheckReferences(projectName: string, fields: seq<Field>): (affected: seq<Field>)
    ensures forall f :: f in affected ==> f in fields && IsWorkConfigRef(f) && exists x :: x in f.trackerFilter.value && x != projectName
    ensures forall f :: f in fields && IsWorkConfigRef(f) && (exists x :: x in f.trackerFilter.value && x != projectName) ==> f in affected
  {
    if |fields| == 0 then []
    else
      var f := fields[0];
      var own := if IsWorkConfigRef(f) then seq(|ForeignFilters(projectName, f.trackerFilter.value)|, _ => f) else [];
      assert forall g :: g in own ==> g == f;
      assert |own| > 0 ==> ForeignFilters(projectName, f.trackerFilter.value)[0] in ForeignFilters(projectName, f.trackerFilter.value);
      assert IsWorkConfigRef(f) && (exists x :: x in f.trackerFilter.value && x != projectName) ==> f in own by {
        if IsWorkConfigRef(f) && exists x :: x in f.trackerFilter.value && x != projectName {
          var x :| x in f.trackerFilter.value && x != projectName;
          assert x in ForeignFilters(projectName, f.trackerFilter.value);
          assert own[0] == f;
        }
      }
      own + CheckReferences(projectName, fields[1..])
  }

  /** The reference check distributes over the field list. */
  lemma {:induction false} CheckReferencesAppend(projectName: string, a: seq<Field>, b: seq<Field>)
    ensures CheckReferences(projectName, a + b) == CheckReferences(projectName, a) + CheckReferences(projectName, b)
  {
    if |a| == 0 {
      assert a + b == b;
    } else {
      assert (a + b)[0] == a[0];
      assert (a + b)[1..] == a[1..] + b;
      CheckReferencesAppend(projectName, a[1..], b);
    }
  }

  /** One field adds one entry per filter that names another project. */
  lemma CheckReferencesOne(projectName: string, f: Field)
    ensures |CheckReferences(projectName, [f])| == if IsWorkConfigRef(f) then |ForeignFilters(projectName, f.trackerFilter.value)| else 0
  {
    assert [f][1..] == [];
  }

  /** The configuration entries with the given name. */
  function EntriesNamed(cfg: seq<ConfigEntry>, n: string): (r: seq<ConfigEntry>)
    ensures forall e :: e in r <==> e in cfg && e.name == n
    ensures |r| <= |cfg|
  {
    if |cfg| == 0 then []
    else (if cfg[0].name == n then [cfg[0]] else []) + EntriesNamed(cfg[1..], n)
  }

  /** A listed tracker is checked iff exactly one entry has its name and that entry does not allow upstream references. */
  predicate IsChecked(cfg: seq<ConfigEntry>, t: Listed) {
    |EntriesNamed(cfg, t.name)| == 1 && !EntriesNamed(cfg, t.name)[0].allowUpstream
  }

  /** The errors `check_fields_config` counts for one listed tracker: one per affected field, when the tracker is checked. */
  function TrackerFieldErrors(cfg: seq<ConfigEntry>, projectName: string, t: Listed, fields: seq<Field>): (errs: seq<TrackerError>)
    ensures forall q :: 0 <= q < |errs| ==> errs[q].InvalidReference? && errs[q].tracker == t.name
    ensures |errs| == (if IsChecked(cfg, t) then |CheckReferences(projectName, fields)| else 0)
  {
    var own := if IsChecked(cfg, t) then CheckReferences(projectName, fields) else [];
    seq(|own|, q requires 0 <= q < |own| => InvalidReference(t.name, own[q]))
  }

  /** `check_fields_config` over the listing from index `i` on: one error per affected field of every checked tracker. */
  function CheckFieldsConfig(cfg: seq<ConfigEntry>, projectName: string, listing: seq<Listed>, fields: int -> seq<Field>, i: nat): (errs: seq<TrackerError>)
    requires i <= |listing|
    ensures forall q :: 0 <= q < |errs| ==> errs[q].InvalidReference? && CheckedFrom(cfg, listing, i, errs[q].tracker)
    ensures |errs| == 0 <==> forall k :: i <= k < |listing| && IsChecked(cfg, listing[k]) ==> |CheckReferences(projectName, fields(listing[k].id))| == 0
    decreases |listing| - i
  {
    if i == |listing| then []
    else
      var mine := TrackerFieldErrors(cfg, projectName, listing[i], fields(listing[i].id));
      var rest := CheckFieldsConfig(cfg, projectName, listing, fields, i + 1);
      CheckedFromSplit(cfg, listing, i, mine, rest);
      mine + rest
  }

  /** One listed tracker is checked, then the rest of the listing. */
  lemma CheckFieldsConfigUnfold(cfg: seq<ConfigEntry>, projectName: string, listing: seq<Listed>, fields: int -> seq<Field>,
                                i: nat, t: Listed)
    requires i < |listing| && listing[i] == t
    ensures CheckFieldsConfig(cfg, projectName, listing, fields, i)
            == TrackerFieldErrors(cfg, projectName, t, fields(t.id)) + CheckFieldsConfig(cfg, projectName, listing, fields, i + 1)
  {
  }

  /** The check only sees the listed trackers from index `i` on. */
  lemma {:induction false} CheckFieldsConfigSuffix(cfg: seq<ConfigEntry>, projectName: string, c: seq<Listed>, i: nat,
                                                   d: seq<Listed>, j: nat, fields: int -> seq<Field>)
    requires i <= |c| && j <= |d| && c[i..] == d[j..]
    ensures CheckFieldsConfig(cfg, projectName, c, fields, i) == CheckFieldsConfig(cfg, projectName, d, fields, j)
    decreases |c| - i
  {
    if i == |c| {
      assert |d| - j == |c| - i;
    } else {
      var t := c[i];
      assert d[j] == c[i..][0] == t;
      assert c[i + 1..] == c[i..][1..] == d[j..][1..] == d[j + 1..];
      CheckFieldsConfigUnfold(cfg, projectName, c, fields, i, t);
      CheckFieldsConfigUnfold(cfg, projectName, d, fields, j, t);
      CheckFieldsConfigSuffix(cfg, projectName, c, i + 1, d, j + 1, fields);
    }
  }

  /** The check of a listing split in two is the check of the first part followed by that of the second. */
  lemma {:induction false} CheckFieldsConfigAppend(cfg: seq<ConfigEntry>, projectName: string, a: seq<Listed>, b: seq<Listed>,
                                                   fields: int -> seq<Field>, i: nat)
    requires i <= |a|
    ensures CheckFieldsConfig(cfg, projectName, a + b, fields, i)
            == CheckFieldsConfig(cfg, projectName, a, fields, i) + CheckFieldsConfig(cfg, projectName, b, fields, 0)
    decreases |a| - i
  {
    if i == |a| {
      assert (a + b)[|a|..] == b[0..];
      CheckFieldsConfigSuffix(cfg, projectName, a + b, |a|, b, 0, fields);
    } else {
      var t := a[i];
      assert (a + b)[i] == t;
      CheckFieldsConfigUnfold(cfg, projectName, a + b, fields, i, t);
      CheckFieldsConfigUnfold(cfg, projectName, a, fields, i, t);
      CheckFieldsConfigAppend(cfg, projectName, a, b, fields, i + 1);
      ConcatAssoc(TrackerFieldErrors(cfg, projectName, t, fields(t.id)),
                  CheckFieldsConfig(cfg, projectName, a, fields, i + 1), CheckFieldsConfig(cfg, projectName, b, fields, 0));
    }
  }

  lemma ConcatAssoc(x: seq<TrackerError>, y: seq<TrackerError>, z: seq<TrackerError>)
    ensures x + (y + z) == (x + y) + z
  {
  }

  /** One listed tracker gets exactly its own errors: one per affected field when it is checked. */
  lemma CheckFieldsConfigOne(cfg: seq<ConfigEntry>, projectName: string, t: Listed, fields: int -> seq<Field>)
    ensures CheckFieldsConfig(cfg, projectName, [t], fields, 0) == TrackerFieldErrors(cfg, projectName, t, fields(t.id))
  {
  }

  lemma CheckedFromSplit(cfg: seq<ConfigEntry>, listing: seq<Listed>, i: nat, mine: seq<TrackerError>, rest: seq<TrackerError>)
    requires i < |listing|
    requires forall q :: 0 <= q < |mine| ==> mine[q].InvalidReference? && mine[q].tracker == listing[i].name
    requires |mine| > 0 ==> IsChecked(cfg, listing[i])
    requires forall q :: 0 <= q < |rest| ==> rest[q].InvalidReference? && CheckedFrom(cfg, listing, i + 1, rest[q].tracker)
    ensures forall q :: 0 <= q < |mine + rest| ==> (mine + rest)[q].InvalidReference? && CheckedFrom(cfg, listing, i, (mine + rest)[q].tracker)
  {
    forall q | 0 <= q < |mine + rest|
      ensures (mine + rest)[q].InvalidReference? && CheckedFrom(cfg, listing, i, (mine + rest)[q].tracker)
    {
      if q < |mine| {
        assert (mine + rest)[q] == mine[q];
        assert IsChecked(cfg, listing[i]) && listing[i].name == mine[q].tracker;
      } else {
        assert (mine + rest)[q] == rest[q - |mine|];
        var k :| i + 1 <= k < |listing| && IsChecked(cfg, listing[k]) && listing[k].name == rest[q - |mine|].tracker;
        assert i <= k;
      }
    }
  }

  /** Some listed tracker from index `i` on is checked and has the name `n`. */
  predicate CheckedFrom(cfg: seq<ConfigEntry>, listing: seq<Listed>, i: nat, n: string) {
    exists k :: i <= k < |listing| && IsChecked(cfg, listing[k]) && listing[k].name == n
  }

  // ---------------------------------------------------------------------------
  // The whole run

  /** How one run ends, with the value `error_counter` has afterwards. */
  datatype RunResult =
    | Done(events: seq<Event>)
    | Failed(count: int, events: seq<Event>)   // CreateUpdateProjectFailedException
    | Raised(fatal: Fatal, events: seq<Event>)  // any other exception

  datatype Run = Run(result: RunResult, counter: int)

  /** The work of `update_tracker_from_config` and `check_fields_config`: the errors counted and the events, or the exception that stopped it. */
  datatype Work = Work(errors: seq<TrackerError>, events: seq<Event>, fatal: Option<Fatal>)

  function Reconcile(cfg: Config, remote: Remote): (w: Work)
    ensures var sp := ServerVsConfig(cfg.trackers, remote.api, remote.listing, 0);
            var cp := ConfigVsServer(cfg.trackers, 0, Start(), ContextOf(cfg, remote));
            && w.fatal == cp.fatal
            && w.events == sp.renames + cp.events
            && (w.fatal.Some? ==> w.errors == cp.errors)
            && (w.fatal.None? ==>
                  w.errors == cp.errors
                              + (if |sp.missing| > 0 then [MissingTrackers(sp.missing)] else [])
                              + CheckFieldsConfig(cfg.trackers, remote.projectName, remote.finalListing, remote.fields, 0))
  {
    var sp := ServerVsConfig(cfg.trackers, remote.api, remote.listing, 0);
    var cp := ConfigVsServer(cfg.trackers, 0, Start(), ContextOf(cfg, remote));
    var events := sp.renames + cp.events;
    if cp.fatal.Some? then Work(cp.errors, events, cp.fatal)
    else
      var missing := if |sp.missing| > 0 then [MissingTrackers(sp.missing)] else [];
      var fields := CheckFieldsConfig(cfg.trackers, remote.projectName, remote.finalListing, remote.fields, 0);
      Work(cp.errors + missing + fields, events, None)
  }

  /** What `config_vs_server` works with: its own fresh tracker listing and the server lookups. */
  function ContextOf(cfg: Config, remote: Remote): Context {
    Context(remote.projectId, remote.renamedListing, remote.api, remote.hasProject, remote.lookup)
  }

  /** `update_tracker_from_config` reports the missing trackers with exactly one error, however many there are. */
  lemma OneErrorForMissing(cfg: Config, remote: Remote)
    requires ConfigVsServer(cfg.trackers, 0, Start(), ContextOf(cfg, remote)).fatal.None?
    ensures var w := Reconcile(cfg, remote);
            var cp := ConfigVsServer(cfg.trackers, 0, Start(), ContextOf(cfg, remote));
            var fc := CheckFieldsConfig(cfg.trackers, remote.projectName, remote.finalListing, remote.fields, 0);
            |w.errors| == |cp.errors| + |fc| + (if |ServerVsConfig(cfg.trackers, remote.api, remote.listing, 0).missing| > 0 then 1 else 0)
  {
  }

  /** The configured category is not one of the server's project categories. */
  predicate CategoryUnknown(cfg: Config, remote: Remote) {
    cfg.category.Some? && cfg.category.value !in remote.categories
  }

  /** The project is created from the empty template when the server does not have it yet. */
  function Creation(cfg: Config, remote: Remote): (r: seq<Event>)
    ensures r == [] <==> remote.projectExists
    ensures r != [] ==> r == [ProjectCreated(cfg.project)]
  {
    if remote.projectExists then [] else [ProjectCreated(cfg.project)]
  }

  /**
    `create_update_codebeamer_project_from_config` as written, starting
    with the value `counterIn` that the global `error_counter` has when the
    run begins. An unknown category raises before any tracker work; any
    other exception leaves the counter as it is; the final check raises
    iff the counter is positive and resets it first.
   */
  function CreateUpdateProjectAsWritten(cfg: Config, remote: Remote, counterIn: nat): (r: Run)
    ensures cfg.category.Some? && cfg.category.value !in remote.categories ==>
              r == Run(Raised(UnknownCategory(cfg.category.value), []), counterIn)
    ensures r.result.Raised? <==> CategoryUnknown(cfg, remote) || Reconcile(cfg, remote).fatal.Some?
    ensures r.result.Raised? && !CategoryUnknown(cfg, remote) ==> r.result.fatal == Reconcile(cfg, remote).fatal.value
    ensures !CategoryUnknown(cfg, remote) ==> r.result.events == Creation(cfg, remote) + Reconcile(cfg, remote).events
    ensures r.result.Failed? <==> !r.result.Raised? && counterIn + |Reconcile(cfg, remote).errors| > 0
    ensures r.result.Failed? ==> r.result.count == counterIn + |Reconcile(cfg, remote).errors| && r.counter == 0
    ensures r.result.Done? ==> r.counter == 0
    ensures r.result.Raised? && !(cfg.category.Some? && cfg.category.value !in remote.categories) ==>
              r.counter == counterIn + |Reconcile(cfg, remote).errors|
  {
    if cfg.category.Some? && cfg.category.value !in remote.categories then
      Run(Raised(UnknownCategory(cfg.category.value), []), counterIn)
    else
      var created := Creation(cfg, remote);
      var w := Reconcile(cfg, remote);
      var count := counterIn + |w.errors|;
      if w.fatal.Some? then Run(Raised(w.fatal.value, created + w.events), count)
      else if count > 0 then Run(Failed(count, created + w.events), 0)
      else Run(Done(created + w.events), 0)
  }

  /**
    The run with the counter reset at its start: the result depends on this
    run's own errors only.
   */
  function CreateUpdateProject(cfg: Config, remote: Remote): (r: RunResult)
    ensures cfg.category.Some? && cfg.category.value !in remote.categories ==> r == Raised(UnknownCategory(cfg.category.value), [])
    ensures r.Raised? <==> CategoryUnknown(cfg, remote) || Reconcile(cfg, remote).fatal.Some?
    ensures r.Raised? && !CategoryUnknown(cfg, remote) ==> r.fatal == Reconcile(cfg, remote).fatal.value
    ensures !CategoryUnknown(cfg, remote) ==> r.events == Creation(cfg, remote) + Reconcile(cfg, remote).events
    ensures r.Failed? <==> !r.Raised? && |Reconcile(cfg, remote).errors| > 0
    ensures r.Failed? ==> r.count == |Reconcile(cfg, remote).errors|
    ensures r.Done? <==> !r.Raised? && |Reconcile(cfg, remote).errors| == 0
  {
    CreateUpdateProjectAsWritten(cfg, remote, 0).result
  }

  /** After a run, the counter is zero unless the run ended in an exception other than the final one. */
  lemma CounterAfterRun(cfg: Config, remote: Remote, counterIn: nat)
    ensures var r := CreateUpdateProjectAsWritten(cfg, remote, counterIn);
            !r.result.Raised? ==> r.counter == 0
  {
  }

  // ---------------------------------------------------------------------------
  // The stale counter

  /**
    The stale counter in general: a count left over from an earlier run
    makes every later run that does not raise fail, even a run whose own
    reconciliation counted no error.
   */
  lemma StaleCounterFails(cfg: Config, remote: Remote, counterIn: nat)
    requires counterIn > 0 && !CreateUpdateProject(cfg, remote).Raised?
    ensures CreateUpdateProjectAsWritten(cfg, remote, counterIn).result.Failed?
    ensures CreateUpdateProjectAsWritten(cfg, remote, counterIn).result.count == counterIn + |Reconcile(cfg, remote).errors|
  {
  }

  /**
    A run that `config_vs_server` ends with an exception after counting
    errors raises, and leaves those errors in the counter.
   */
  lemma RaisedRunKeepsCount(cfg: Config, remote: Remote, counterIn: nat)
    requires !CategoryUnknown(cfg, remote) && Reconcile(cfg, remote).fatal.Some?
    requires |ConfigVsServer(cfg.trackers, 0, Start(), ContextOf(cfg, remote)).errors| > 0
    ensures var r := CreateUpdateProjectAsWritten(cfg, remote, counterIn);
            && r.result.Raised?
            && r.counter == counterIn + |ConfigVsServer(cfg.trackers, 0, Start(), ContextOf(cfg, remote)).errors|
            && r.counter > 0
  {
  }

  /**
    The stale counter over two runs in one process: the first run raises
    after counting errors, and the next run that does not raise fails,
    whatever its own errors.
   */
  lemma StaleCounterCarries(cfg1: Config, remote1: Remote, cfg2: Config, remote2: Remote, counterIn: nat)
    requires !CategoryUnknown(cfg1, remote1) && Reconcile(cfg1, remote1).fatal.Some?
    requires |ConfigVsServer(cfg1.trackers, 0, Start(), ContextOf(cfg1, remote1)).errors| > 0
    requires !CreateUpdateProject(cfg2, remote2).Raised?
    ensures var first := CreateUpdateProjectAsWritten(cfg1, remote1, counterIn);
            CreateUpdateProjectAsWritten(cfg2, remote2, first.counter).result.Failed?
  {
    RaisedRunKeepsCount(cfg1, remote1, counterIn);
    StaleCounterFails(cfg2, remote2, CreateUpdateProjectAsWritten(cfg1, remote1, counterIn).counter);
  }

  /** A configuration with one tracker, named `name`, of another project, and one whose source project does not exist. */
  function LeakyConfig(): Config {
    Config("P", None, [
      ConfigEntry("T1", Some(7), None, Some(Source("S", None)), false),
      ConfigEntry("T2", None, None, Some(Source("S2", Some("Gone"))), false)])
  }

  function CleanConfig(): Config {
    Config("Q", None, [])
  }

  /** A server on which tracker 7 belongs to project 2, project "Gone" does not exist, and every lookup finds tracker 1. */
  function SomeRemote(): Remote {
    Remote(true, 1, "P", [], [], (id: int) => TrackerApi(false, None, 2), (p: string) => p != "Gone",
      (p: Option<string>, t: string) => Some(SourceTracker(1, "K")), [], [], (id: int) => [])
  }

  /**
    Two runs in one process, as the deployment entry point makes them: the
    first counts an error for the foreign tracker and then raises because
    the source project is missing, so the counter is not reset; the second
    run has no errors of its own and still fails with "Found 1 errors".
    With the counter reset at the start of each run, it succeeds.
   */
  lemma StaleCounterWitness()
    ensures var first := CreateUpdateProjectAsWritten(LeakyConfig(), SomeRemote(), 0);
            && first.result.Raised? && first.counter == 1
            && |Reconcile(CleanConfig(), SomeRemote()).errors| == 0
            && CreateUpdateProjectAsWritten(CleanConfig(), SomeRemote(), first.counter).result.Failed?
            && CreateUpdateProject(CleanConfig(), SomeRemote()).Done?
  {
    var cfg := LeakyConfig();
    var remote := SomeRemote();
    var ctx := ContextOf(cfg, remote);
    assert ctx.existing == [];
    assert !Listed_(ctx.existing, "T1");
    var s1 := Step(Start(), cfg.trackers[0], ctx);
    assert s1.errors == [ForeignTracker(7)];
    assert !s1.stopped;
    var s2 := Step(s1, cfg.trackers[1], ctx);
    assert s2.fatal == Some(ProjectNotFound("Gone"));
    assert ConfigVsServer(cfg.trackers, 0, Start(), ctx) == ConfigVsServer(cfg.trackers, 1, s1, ctx);
    assert ConfigVsServer(cfg.trackers, 1, s1, ctx) == ConfigVsServer(cfg.trackers, 2, s2, ctx);
    assert Reconcile(cfg, remote).errors == [ForeignTracker(7)];
  }
}
